=== FILE: README.md ===
# nixworks MNE converter and plotter decisions, in Dafny

This project models the core of nixworks, a toolbox around the NIX data
format (a container of data arrays with dimension descriptors, metadata
sections, multi-tags and groups). It covers two parts:

- **The MNE converter** (`mne2nix.py`, `nix2mne.py`).
  - `write_raw_mne` lays an MNE raw EEG recording out in a NIX file:
    - one block, "EEG Data Block", with one group, "Raw Data Group";
    - the sample matrix, either in one array or in one array per channel;
    - the annotations as "EEG Stimuli" multi-tags, either one tag for all of
      them or one tag per description;
    - the `info` mapping as the "Info" section, and `_raw_extras` as "Extras"
      sections, both written by `create_md_tree`.
  - `import_nix` reads such a file back: `md_to_dict` for the metadata,
    `merge_data_arrays` for split channels, and `create_mne_annotations` for
    the tags.
- **The plotter's decisions** (`plotter.py`): the x axis guess, the choice of
  plot kind, axis captions, the x-axis limits of the constructors, and the
  window of samples a line plot draws.

Python exceptions become `Err` values of `Results.Result`, carrying the
exception class. nixio's own refusals become errors as well: a second entity
with an existing name gives `DuplicateName`. Further assumptions about nixio:
`create_property` raises TypeError for a list whose elements are of
different types, a section's properties and subsections are listed in
the order they were created, and `section[key]` gives the only value of a
one-value property and the tuple of the values otherwise. numpy is taken to raise ValueError for the
truth value of an array of more than one element and for an array built
from ragged nested lists, and to treat an empty array as false. Both
hold for numpy 1.24 up to, but not including, 2.2; from 2.2 on the truth
value of an empty array raises ValueError as well. The one block, its group and
every written entity are immutable datatypes (module `Nix`); every operation
is a function or method from the old value to the new one.

Modules, one per file:

| file | contents |
|---|---|
| `results.dfy`, `text.dfy` | shared helpers: Option/Result, decimal names such as `k-idx`, Python slicing, character replacement |
| `nix.dfy` | the NIX entities used here |
| `layout.dfy` | the block, group and array-type names |
| `metadata.dfy` | the metadata value model |
| `md_writer.dfy` | `create_md_tree` |
| `md_reader.dfy` | `typemap`, `convert_prop_type` and `md_to_dict` |
| `md_roundtrip.dfy`, `md_transform.dfy`, `md_lossy.dfy` | the metadata round trip, the transform special case, and what is lost outside the round trip |
| `signal_writer.dfy`, `signal_reader.dfy` | the sample matrix |
| `stimuli.dfy`, `annotations.dfy` | the annotations |
| `converter.dfy` | `write_raw_mne` and `import_nix` put together |
| `plotter.dfy` | the plotter |

The central results are:

- `Converter.WriteRawMne`: what `import_nix` recovers from the file that
  `write_raw_mne` produced is the sample matrix, the annotations and the info
  mapping. In split-stimuli mode, the annotations come back grouped by
  description.
- `MdRoundTrip.MetadataRoundTrip`: the metadata round trip, together with
  the `MdLossy` lemmas that pin down exactly what is lost outside it.

Both are stated for the writer with the emptiness test of finding 1 (see
"## Findings"), not for the test as written. The two tests differ in three
cases, and the model writes the value in all three:

- a numpy value of two or more cells, for which the source raises
  ValueError at `if not val` (`MdLossy.SkipAsWrittenRaises`);
- a one-element numpy array whose element is false, which the source skips;
- a numpy array with no cells but a non-empty first axis, such as one of
  shape (3, 0), which is false and so skipped by the source
  (`MdLossy.ZeroCellArrayWritten`).

## Model

| member | source | states |
|---|---|---|
| Text.IndexedNameInjective | nixworks/converters/mne/mne2nix.py:123-126 | two subsections `k-i` and `k-j` of one list of mappings have equal names only when i == j |
| Text.ReplaceChar | nixworks/converters/mne/mne2nix.py:207 | `replace` of one character keeps the length, swaps exactly the occurrences of the old character and leaves none of them |
| Text.PySlice | nixworks/converters/mne/nix2mne.py:48 | a Python slice never fails: out-of-range bounds are clamped (negative ones count from the end) and a crossed range is empty |
| Metadata.ClassTag | nixworks/converters/mne/mne2nix.py:134 | `str(val.__class__)` is ten characters longer than the class name and holds it from position 8 |
| Metadata.DictGet | nixworks/converters/mne/nix2mne.py:62-64 | `d[k]` succeeds exactly when k is a key, else KeyError(k) |
| Metadata.DictSet | nixworks/converters/mne/nix2mne.py:59 | `d[k] = v` appends a new key, overwrites an existing one in place and leaves other items untouched |
| Metadata.DictSetGet | nixworks/converters/mne/nix2mne.py:59 | after `d[k] = v`, `d[k]` gives v |
| MdWriter.WriteTree | nixworks/converters/mne/mne2nix.py:93-96 | `None` leaves the section and block as they were; a non-mapping has no `items()` (AttributeError); success only appends to the section and appends only metadata arrays to the block |
| MdWriter.WriteEntries | nixworks/converters/mne/mne2nix.py:96-134 | the loop over the items only appends, at most one property or child section per item |
| MdWriter.WriteEntry | nixworks/converters/mne/mne2nix.py:96-134 | one item adds at most one property or one child section, named after the item's key |
| MdWriter.WriteArrayRef | nixworks/converters/mne/mne2nix.py:102-111 | a value of more than one dimension becomes a "Multidimensional Metadata" array named after the key, with one set dimension per axis and linked to the section, plus a property holding the array's id and tagged with the value's class; fails exactly when the name is taken |
| MdWriter.WriteLeaf | nixworks/converters/mne/mne2nix.py:129-134 | a leaf becomes exactly one property named after the key and tagged with the value's class; fails exactly when the values cannot be stored or the name is taken |
| MdWriter.StoredValues | nixworks/converters/mne/mne2nix.py:129-133 | a scalar or string is stored as one element; a same-typed sequence as it is; a mixed sequence through the float retry; what is stored always has one element type |
| MdWriter.CoerceToFloats | nixworks/converters/mne/mne2nix.py:133 | `[float(vi) for vi in val]` succeeds exactly when no element is a string, element by element |
| MdWriter.WriteChild | nixworks/converters/mne/mne2nix.py:113-118 | a mapping becomes one new child section, named after the key and typed with its class, appended after the existing children and filled from the mapping; refused when the name is taken |
| MdWriter.WriteRecordList | nixworks/converters/mne/mne2nix.py:119-127 | a list of mappings becomes one holder section typed with the list's class, with no properties and one subsection per element |
| MdWriter.WriteItems | nixworks/converters/mne/mne2nix.py:123-126 | the subsections of a list of mappings are named `k-idx` in list order |
| MdWriter.WriteItem | nixworks/converters/mne/mne2nix.py:123-126 | a list element that is neither a mapping nor None has no `items()` (AttributeError) |
| MdReader.LookupType | nixworks/converters/mne/nix2mne.py:35-44 | `typemap[name]` finds the type registered under that very name, and gives KeyError(name) otherwise |
| MdReader.LookupTypeExact | nixworks/converters/mne/nix2mne.py:35-44 | the registry holds exactly the eight names, each finding its own type |
| MdReader.TagTypeName | nixworks/converters/mne/nix2mne.py:48 | `prop.type[8:-2]` is the tag without its first 8 and last 2 characters, and empty for a tag of 10 characters or fewer |
| MdReader.TagDecodesToClass | nixworks/converters/mne/nix2mne.py:48 | the tag the writer puts on a value decodes to exactly the class name it was made from |
| MdReader.Unwrap | nixworks/converters/mne/nix2mne.py:49-51 | a one-element value list is unwrapped to that element; any other list is passed whole |
| MdReader.Construct | nixworks/converters/mne/nix2mne.py:53 | the registered constructor on the payload: matching scalars come back as themselves, lists and tuples element by element; `int`/`float` of several values and `list`/`tuple` of a non-string scalar raise TypeError |
| MdReader.ConvertProp | nixworks/converters/mne/nix2mne.py:47-53 | an unregistered tag is a KeyError on the decoded name; otherwise the constructor is applied to the unwrapped values |
| MdReader.ReadProps | nixworks/converters/mne/nix2mne.py:58-59 | reading the properties fails only with the error of some property's conversion |
| MdReader.ReadPropsTotal | nixworks/converters/mne/nix2mne.py:58-59 | reading the properties succeeds exactly when every property converts |
| MdReader.ReadPropsKeys | nixworks/converters/mne/nix2mne.py:58-59 | the dict's keys are the earlier keys plus the property names; a repeated name overwrites instead of adding a key |
| MdReader.Referring | nixworks/converters/mne/nix2mne.py:65 | the referring arrays of a section are exactly the arrays linked to it |
| MdReader.ReadTransform | nixworks/converters/mne/nix2mne.py:61-66 | a transform section needs "to", "from" and "trans" and a referring array; the result pairs the two frames with the first referring array's contents |
| MdReader.ReadSection | nixworks/converters/mne/nix2mne.py:56-78 | a section typed with the transform class reads back as a transform, any other as a dict |
| MdReader.ReadChild | nixworks/converters/mne/nix2mne.py:68-76 | a "chs" child without subsections adds no key; any other child sets its name's key; keys for other names are untouched |
| MdReader.ReadList | nixworks/converters/mne/nix2mne.py:72-73 | the "chs" list has one dict per subsection |
| MdRoundTrip.CanonIsPermutation | nixworks/converters/mne/nix2mne.py:56-78 | what the reader returns is a permutation of the mapping's items in insertion order (properties first, then child sections) |
| MdRoundTrip.WriteEntriesBuilds | nixworks/converters/mne/mne2nix.py:96-134 | for round-trippable items with fresh keys, the writer appends exactly the leaf properties, in order, and the child sections, in order |
| MdRoundTrip.WriteRecordListBuilds | nixworks/converters/mne/mne2nix.py:119-127 | a list of round-trippable mappings is written as the holder section with `k-0`, `k-1`, ... |
| MdRoundTrip.LeafConverts | nixworks/converters/mne/nix2mne.py:47-53 | the property written for a round-trippable leaf converts back to that leaf's Python value |
| MdRoundTrip.ReadLeafProps | nixworks/converters/mne/nix2mne.py:58-59 | the written leaf properties read back as the leaf items, in order |
| MdRoundTrip.ReadNested | nixworks/converters/mne/nix2mne.py:68-76 | the written child sections read back as the nested items, in order |
| MdRoundTrip.ReadItems | nixworks/converters/mne/nix2mne.py:69-74 | the subsections of a list of mappings read back as the list of its dicts |
| MdRoundTrip.ReadBuilt | nixworks/converters/mne/nix2mne.py:56-78 | the section written for a round-trippable mapping reads back as its canonical dict |
| MdRoundTrip.MetadataRoundTrip | nixworks/converters/mne/mne2nix.py:93-134 | writing a round-trippable mapping and reading it back gives the same items (a permutation of the original), and the write needs no array |
| MdLossy.SkippedEntryLeavesNoTrace | nixworks/converters/mne/mne2nix.py:97-101 | None and empty values are skipped: section and block unchanged, so the key is absent on reading |
| MdLossy.OneElementSequence | nixworks/converters/mne/nix2mne.py:50-53 | a one-element list or tuple comes back unchanged only when its element is a one-character string; for other scalars it raises TypeError; a one-element numpy array comes back as a zero-dimensional array |
| MdLossy.ReadIndexed | nixworks/converters/mne/nix2mne.py:75-76 | the `k-idx` subsections of a list outside "chs" read back as dict keys `k-idx` |
| MdLossy.RecordListOutsideChs | nixworks/converters/mne/nix2mne.py:68-76 | a list of mappings under a key other than "chs" comes back as a dict keyed `k-idx`, not as the list |
| MdLossy.MixedSequenceBecomesFloats | nixworks/converters/mne/mne2nix.py:129-134 | a mixed sequence without strings is stored as floats and read back as floats, not as the original elements |
| MdLossy.MixedSequenceWithText | nixworks/converters/mne/mne2nix.py:133 | a mixed sequence with a string fails on `float(...)` (ValueError) |
| MdLossy.MatrixStoredAsArray | nixworks/converters/mne/mne2nix.py:102-111 | a multidimensional value whose first axis is not empty is stored as an array with its shape and cells plus an id property |
| MdLossy.MatrixReadsBackAsId | nixworks/converters/mne/nix2mne.py:47-53 | the id property of a matrix reads back as the id's characters (list, tuple) or a zero-dimensional array, not the matrix |
| MdLossy.UnregisteredClassRefused | nixworks/converters/mne/nix2mne.py:53 | a scalar of an unregistered class is refused on reading with KeyError |
| MdLossy.SkipAsWrittenRaises | nixworks/converters/mne/mne2nix.py:100 | `if not val` raises ValueError for a numpy array of two or more cells |
| MdLossy.TransformMatrixRaises | nixworks/converters/mne/mne2nix.py:100 | the 4x4 matrix of a transform makes `if not val` raise |
| MdLossy.SkipAsWrittenIsEmptiness | nixworks/converters/mne/mne2nix.py:100-101 | for every value other than a numpy array, `if not val` is exactly the emptiness test the model uses |
| MdLossy.ZeroCellArrayWritten | nixworks/converters/mne/mne2nix.py:100-111 | a numpy array of shape (n, 0) with n > 0 is false, so `if not val` skips it, yet the emptiness test lets it through and it is stored as an array |
| MdLossy.TransformMatrixStored | nixworks/converters/mne/mne2nix.py:102-111 | with the emptiness test, a transform's matrix is stored |
| MdTransform.ReferringAppend | nixworks/converters/mne/nix2mne.py:65 | a new array joins the referring arrays of exactly the section it is linked to, at the end |
| MdTransform.WriteTransform | nixworks/converters/mne/mne2nix.py:113-118 | a transform is written as a section with "from", "to" and the matrix's id, plus the matrix array linked to that section |
| MdTransform.ReadTransformProps | nixworks/converters/mne/nix2mne.py:58-59 | the three properties of a transform section read back as `from`, `to` and the id |
| MdTransform.ReadTransformSection | nixworks/converters/mne/nix2mne.py:61-66 | a transform section reads back as a transform of the two frames and the first referring array's contents |
| MdTransform.TransformRoundTrip | nixworks/converters/mne/nix2mne.py:61-66 | a transform written and read back gives the same frames and the matrix with its shape and cells |
| MdTransform.SecondTransformRefused | nixworks/converters/mne/mne2nix.py:104-105 | a second transform in one file fails: its matrix array would be the second array named "trans" |
| SignalWriter.FlattenRows | nixworks/converters/mne/mne2nix.py:145 | row i of a matrix stored row-major occupies cells i·w to (i+1)·w |
| SignalWriter.ChannelAxis | nixworks/converters/mne/mne2nix.py:169-175 | the channel axis is the first axis whose length is the channel count; RuntimeError exactly when no axis has it |
| SignalWriter.SingleDimensions | nixworks/converters/mne/mne2nix.py:149-156 | each axis gets the channel labels or the time axis; an axis matching neither gets none, so a descriptor is missing exactly when some axis matches neither |
| SignalWriter.WriteSingleDa | nixworks/converters/mne/mne2nix.py:137-156 | one "EEG Data" array in volts holding the whole matrix, with those dimensions, appended and listed in the group; DuplicateName exactly when the name is taken |
| SignalWriter.UsualLayoutDimensions | nixworks/converters/mne/mne2nix.py:149-156 | channels by samples gives channel labels on axis 0 and the time axis on axis 1 |
| SignalWriter.SquareLayoutHasNoTimeAxis | nixworks/converters/mne/mne2nix.py:149-156 | with as many samples as channels, both axes get channel labels and no time axis is written |
| SignalWriter.WriteMultiDa | nixworks/converters/mne/mne2nix.py:159-185 | one array per channel along the channel axis, named after the channel, in channel order and listed in the group; succeeds exactly when the axis exists and the names suffice and are fresh; RuntimeError, IndexError and DuplicateName otherwise |
| SignalWriter.WriteChannels | nixworks/converters/mne/mne2nix.py:177-185 | the loop over the channels appends exactly the channel arrays, or fails on a missing or clashing name |
| SignalWriter.ClashBreaksFreshness | nixworks/converters/mne/mne2nix.py:178-179 | once a channel name clashes, no longer prefix of the names can be written |
| SignalReader.MergeDataArrays | nixworks/converters/mne/nix2mne.py:81-83 | arrays of one shape stack along a new first axis, with row i = array i; different shapes raise ValueError; no arrays give an empty array |
| SignalReader.ImportData | nixworks/converters/mne/nix2mne.py:129-134 | several arrays are merged, a single one is taken as stored, none is an IndexError |
| SignalReader.ImportDataCorrected | nixworks/converters/mne/nix2mne.py:129-134 | as ImportData, except that a lone one-axis array gets a channel axis of length 1 |
| SignalReader.MergeSplitChannels | nixworks/converters/mne/nix2mne.py:81-83 | merging the per-channel arrays of a split write gives exactly the matrix single mode stores |
| SignalReader.ImportSplitRecording | nixworks/converters/mne/nix2mne.py:129-134 | a split recording of two or more channels is read back as its sample matrix |
| SignalReader.OneChannelSplitLosesChannelAxis | nixworks/converters/mne/nix2mne.py:130-134 | a one-channel split recording is read back without its channel axis, unlike the same recording in single mode |
| SignalReader.ImportSplitRecordingCorrected | nixworks/converters/mne/nix2mne.py:129-134 | with the correction, every split recording, one channel included, is read back as its matrix |
| SignalReader.ImportSingleRecordingCorrected | nixworks/converters/mne/nix2mne.py:133-134 | the correction leaves the single-mode matrix as stored |
| Stimuli.LabelIndex | nixworks/converters/mne/mne2nix.py:194 | `label in stim_dict`: the position of the description's group, present exactly when the description has a group |
| Stimuli.SeparateIsPartition | nixworks/converters/mne/mne2nix.py:188-198 | the loop computes the reference grouping: for each description in first-occurrence order, its annotations in input order |
| Stimuli.AddToExistingGroup | nixworks/converters/mne/mne2nix.py:196-197 | an annotation with a known description joins the end of that description's group |
| Stimuli.AddNewGroup | nixworks/converters/mne/mne2nix.py:194-195 | an annotation with a new description opens a group at the end |
| Stimuli.SeparateStimulusTypesPartitions | nixworks/converters/mne/mne2nix.py:188-198 | every annotation lands in exactly one group (a permutation), the one of its description; groups keep input order; descriptions are distinct and in first-occurrence order |
| Stimuli.FirstOccurrenceOrder | nixworks/converters/mne/mne2nix.py:188-198 | a group listed before another has its description occur before every annotation of the later group |
| Stimuli.EventArray | nixworks/converters/mne/mne2nix.py:224-231 | rank-1 data stores the values themselves; higher rank stores one `(lead, value)` row per value; one entry per annotation |
| Stimuli.RawDataRefs | nixworks/converters/mne/mne2nix.py:251-253 | the tag refers to exactly the group's arrays of type "Raw Data" |
| Stimuli.AddEventArrays | nixworks/converters/mne/mne2nix.py:233-239 | the "onset" and "durations" arrays are appended, and fail exactly when a name is taken |
| Stimuli.AddStimTag | nixworks/converters/mne/mne2nix.py:246-249 | the tag is added to the block and listed in the group; fails exactly when its name is taken |
| Stimuli.DataRank | nixworks/converters/mne/mne2nix.py:218 | the rank of the group's first array; IndexError when the group lists none |
| Stimuli.CreateStimulusMultiTag | nixworks/converters/mne/mne2nix.py:216-253 | adds two arrays and one tag, keeps all earlier arrays and tags and the group's arrays; IndexError without data |
| Stimuli.StimulusTagLayout | nixworks/converters/mne/mne2nix.py:216-253 | the positions and extents arrays have fresh names, the right types and contents for the data's rank, the labels on the first dimension and one set dimension per further axis; the tag points at both and at the raw data arrays, and is listed in the group |
| Stimuli.StimulusTagRegistered | nixworks/converters/mne/mne2nix.py:246-249 | the group keeps listing exactly the block's tags, by distinct names |
| Stimuli.SplitTagName | nixworks/converters/mne/mne2nix.py:207 | the tag name has no "/" and the description's length; a description without "/" is kept |
| Stimuli.WriteGroups | nixworks/converters/mne/mne2nix.py:204-208 | one tag and two arrays per group, earlier ones kept |
| Stimuli.WriteGroupsRegistered | nixworks/converters/mne/mne2nix.py:204-208 | writing all groups keeps the group's tag list equal to the block's tags |
| Stimuli.SplitNameClashFails | nixworks/converters/mne/mne2nix.py:206-208 | two descriptions with the same split tag name make the write fail |
| Stimuli.SplitNamesCollide | nixworks/converters/mne/mne2nix.py:207 | the descriptions "a/b" and "a" + vertical bar + "b" are distinct but get the same tag name |
| Annotations.Elements | nixworks/converters/mne/nix2mne.py:93-94 | extending by a one-axis array adds its cells; an array without axes raises TypeError |
| Annotations.SecondColumn | nixworks/converters/mne/nix2mne.py:96-97 | `[p[1] for p in a]` of a two-axis array is its second column; rows shorter than 2 raise IndexError; no rows give nothing |
| Annotations.FirstLabels | nixworks/converters/mne/nix2mne.py:99 | the labels of the positions array's first set dimension |
| Annotations.ReadTag | nixworks/converters/mne/nix2mne.py:91-99 | one tag's onsets, durations and descriptions; a missing positions array is a KeyError |
| Annotations.CreateMneAnnotations | nixworks/converters/mne/nix2mne.py:86-103 | no tags give empty lists; the first failing tag's error is the result |
| Annotations.EventValuesReadBack | nixworks/converters/mne/nix2mne.py:91-97 | the values the writer stores in either rank are read back by the branch that rank selects |
| Annotations.StimulusTagReadsBack | nixworks/converters/mne/nix2mne.py:86-103 | a tag written by `create_stimulus_multi_tag` reads back as its annotations' onsets, durations and descriptions, in order, whatever arrays follow |
| Annotations.WriteGroupsReadsBack | nixworks/converters/mne/nix2mne.py:86-103 | the tags of a split write read back as the groups' annotations, group after group |
| Annotations.StimuliReadBack | nixworks/converters/mne/nix2mne.py:86-103 | the single "Stimuli" tag reads back as all annotations in input order |
| Annotations.SplitStimuliReadBack | nixworks/converters/mne/nix2mne.py:86-103 | split tags read back as the grouped annotations, a permutation of the input |
| Converter.ExtrasNamesDistinct | nixworks/converters/mne/mne2nix.py:294-301 | the extras sections ("Extras-idx" for several, "Extras" for one) have distinct names, none of them "Info" |
| Converter.WriteExtras | nixworks/converters/mne/mne2nix.py:294-301 | one "Raw Extras metadata" section per extra, named in order |
| Converter.WriteMetadata | nixworks/converters/mne/mne2nix.py:290-301 | the file's sections are "Info" and then the extras names, and the block only gains the arrays of multidimensional metadata values |
| Converter.WriteRawMne | nixworks/converters/mne/mne2nix.py:256-305 | one block with the fixed name and type, the section names above, and a round trip: `import_nix` recovers the sample matrix, the annotations (grouped in split mode) and the info mapping |
| Converter.ResolveArrays | nixworks/converters/mne/nix2mne.py:129-130 | the group's arrays resolve exactly when every listed name exists, each to the array found by that name |
| Converter.ResolveTags | nixworks/converters/mne/nix2mne.py:140 | the group's tags resolve exactly when every listed name exists |
| Converter.ReadRecording | nixworks/converters/mne/nix2mne.py:129-141 | KeyError for a missing raw-data group; IndexError for a group without arrays; a single array read as stored (with a channel axis added when it has one axis); annotations from the group's tags |
| Converter.SectionValue | nixworks/converters/mne/nix2mne.py:121-122 | `infosec[key]` gives the only value of the first property with that name when it has one value, the tuple of its values otherwise, and KeyError when no property has the name |
| Converter.ScalarSectionValue | nixworks/converters/mne/nix2mne.py:121-123 | a scalar the writer stores, such as "nchan" or "sfreq", comes back from `infosec[key]` as that scalar |
| Converter.ReadInfo | nixworks/converters/mne/nix2mne.py:120 | a file without an "Info" section is a KeyError |
| Converter.ImportNix | nixworks/converters/mne/nix2mne.py:106-147 | KeyError without "Info"; success reads nchan, sfreq and the info mapping from "Info", and the data and annotations from the data block |
| Converter.ResolveDistinctArrays | nixworks/converters/mne/nix2mne.py:129 | arrays with distinct names are found again by name, whatever follows them |
| Converter.ResolveRegisteredTags | nixworks/converters/mne/nix2mne.py:140 | a group that lists exactly the block's tags resolves to those tags |
| Converter.SingleDataReadsBack | nixworks/converters/mne/nix2mne.py:133-134 | in single mode the group's one array gives back the sample matrix |
| Converter.SplitDataReadsBack | nixworks/converters/mne/nix2mne.py:130-132 | in split mode the group's arrays merge back into the sample matrix |
| Converter.StimuliReadBackFrom | nixworks/converters/mne/nix2mne.py:139-141 | the tags written after the data, with metadata arrays after them, read back as the expected annotations |
| Converter.WrittenBlockReadsBack | nixworks/converters/mne/nix2mne.py:129-141 | the written data block reads back as the matrix and the annotations |
| Converter.InfoReadsBack | nixworks/converters/mne/nix2mne.py:120-126 | a round-trippable info mapping is what `md_to_dict` reads from "Info" |
| Plotter.PyIndex | nixworks/plotter/plotter.py:261 | `s[i]` succeeds exactly for -len ≤ i < len, negative indices counting from the end; IndexError otherwise |
| Plotter.GuessBestXDim | nixworks/plotter/plotter.py:11-33 | a one-axis array gives 0; otherwise axis 1 exactly when the first dimension is not sampled and the second is, or the pair is (set, range); a sampled axis is always preferred; IndexError when a dimension is missing |
| Plotter.SuggestedKind | nixworks/plotter/plotter.py:36-79 | a suggestion exactly for 1 to 3 dimensions; 3 gives an image; 1-D: an alias range gives events, a set gives categories, otherwise a line; 2-D: two numeric axes give an image, two sets give categories, one of each gives a line |
| Plotter.SuggestedPlotter | nixworks/plotter/plotter.py:36-79 | the suggested plotter has the suggested kind and an x axis of 0 or 1 |
| Plotter.SuggestedPlotterTotal | nixworks/plotter/plotter.py:36-79 | an array with as many dimensions as axes, between 1 and 3, always gets a plotter |
| Plotter.NewPlotter | nixworks/plotter/plotter.py:233-242 | -1 takes the guessed axis; an explicit axis is accepted exactly up to the limit (1 for events at lines 100-101, 2 for categories and lines), with ValueError beyond it |
| Plotter.LinePlotterAcceptsMissingAxis | nixworks/plotter/plotter.py:239-242 | x axis 2 is accepted for a two-axis array, which has no axis 2 |
| Plotter.NewPlotterCorrected | nixworks/plotter/plotter.py:237-242 | with limit 1, the constructors accept exactly the axes up to 1 and otherwise agree with the source |
| Plotter.CorrectedAxisExists | nixworks/plotter/plotter.py:260-261 | every axis the corrected constructors accept indexes an axis of a two-axis array |
| Plotter.Caption | nixworks/plotter/plotter.py:84-87 | the label, or the array's name when the label is empty |
| Plotter.CreateLabel | nixworks/plotter/plotter.py:82-90 | the caption, followed by " [unit]" exactly when the entity has a unit |
| Plotter.CreateLabelExtendsCaption | nixworks/plotter/plotter.py:82-90 | the label starts with the caption, and is the caption alone exactly when the entity has no unit |
| Plotter.ClampWindow | nixworks/plotter/plotter.py:281-284 | the window starts at 0 at the earliest and ends at the axis length at the latest; bounds already inside are kept |
| Plotter.ClampWindowIdempotent | nixworks/plotter/plotter.py:281-284 | clamping twice is clamping once, and clamping never widens the window |
| Plotter.XAxisOf | nixworks/plotter/plotter.py:287 | the x dimension must provide an axis: a set dimension has none (AttributeError) |
| Plotter.RowWindow | nixworks/plotter/plotter.py:281-286 | the rows `array[start:end]` selects along the first axis after the window is clamped to the x axis: the clamped bounds when they lie within the first axis |
| Plotter.Draw1D | nixworks/plotter/plotter.py:280-295 | the drawn samples are the selected rows of the first axis, in row-major order (for a one-axis array, the clamped window itself); IndexError for an x axis the array lacks, and IndexError exactly when no row is selected, since the x limits read the first and last x value |
| Plotter.Draw1DSelectsRows | nixworks/plotter/plotter.py:286 | on a two-axis array with c columns the drawn samples are whole rows of the window, whatever the x axis: row lo + i fills samples i·c to i·c + c − 1, cell by cell |
| Plotter.Series | nixworks/plotter/plotter.py:310-314 | series i is the window of column i (x first) or row i (x second); IndexError beyond the other axis |
| Plotter.AllSeries | nixworks/plotter/plotter.py:306-314 | one series per label, each as above, failing exactly when there are more labels than rows |
| Plotter.SliceWindow | nixworks/plotter/plotter.py:312-314 | the rows the slice `[start:end]` of the clamped window selects |
| Plotter.Draw2D | nixworks/plotter/plotter.py:297-322 | AttributeError unless x has an axis and the other dimension has labels; otherwise it succeeds exactly when there are no more labels than rows and the clamped window is not empty (the x limits read the first and last x value), failing with IndexError; one series per label (per row without labels), each the clamped window of its row or column |

## Left out

- File I/O, compression, closing files, console messages, `plot_channel` and `main`: none of these decides anything the model states.
- Array identifiers: nixio draws a UUID; the model uses the array's position in the block (`Nix.ArrayId`), which is equally unique.
- The MNE library calls `mne.create_info`, `info.update`, `mne.io.RawArray`, `mne.Annotations`, `set_annotations` and `mne.Transform(fro=, to=, trans=)` (nixworks/converters/mne/nix2mne.py:66): they are not part of this model, so `MdReader.ReadTransform` does not check the coordinate frames as `mne.Transform` does. `ImportNix` returns what would be handed to them.
- nixio's `section[key]` falls back to a subsection when no property has the key; the model gives KeyError.
- Recordings are matrices: data of rank other than 2 is not modelled on the writer side.
- Text and numbers: parsing or printing a float as text is not evaluated (`Unmodelled`).
- Plotting:
  - matplotlib drawing (figures, axes, sliders, bars, images, legends), and the `plot` methods of the event, category and image plotters;
  - the tick values of `axis()`;
  - the floating-point slider arithmetic of `__update`.
- MdReader.Construct: these conversions return `Unmodelled` instead of the value Python computes: `str` of a float, `str` of a non-empty tuple, `int` of a string, `float` of a string, `np.float64` of a string or of several values, and `np.array` of values of different types.
- MdWriter.CoerceToFloats: a string element is refused with ValueError, although Python's `float("2")` gives 2.0; only non-numeric strings fail in the source.
- MdLossy.MixedSequenceWithText: as for `MdWriter.CoerceToFloats`, a sequence whose strings are all numeric (such as `[1, "2"]`) fails in the model but is written as floats by the source.
- MdWriter.WriteEntries: it uses the emptiness test of finding 1. It writes a numpy value of two or more cells, where the source's `if not val` raises ValueError. It also writes two values the source skips as false: a one-element numpy array whose element is false, and a numpy array with no cells but a non-empty first axis, such as one of shape (3, 0).
- MdWriter.WriteEntry: it uses the emptiness test of finding 1. It writes a numpy value of two or more cells, where the source's `if not val` raises ValueError. It also writes two values the source skips as false: a one-element numpy array whose element is false, and a numpy array with no cells but a non-empty first axis, such as one of shape (3, 0).
- MdRoundTrip.WriteEntriesBuilds: it uses the emptiness test of finding 1. It writes a numpy value of two or more cells, where the source's `if not val` raises ValueError. It also writes two values the source skips as false: a one-element numpy array whose element is false, and a numpy array with no cells but a non-empty first axis, such as one of shape (3, 0).
- MdRoundTrip.MetadataRoundTrip: it uses the emptiness test of finding 1. It writes a numpy value of two or more cells, where the source's `if not val` raises ValueError. It also writes two values the source skips as false: a one-element numpy array whose element is false, and a numpy array with no cells but a non-empty first axis, such as one of shape (3, 0).
- MdLossy.MatrixStoredAsArray: it uses the emptiness test of finding 1. It writes a numpy value of two or more cells, where the source's `if not val` raises ValueError. It also writes two values the source skips as false: a one-element numpy array whose element is false, and a numpy array with no cells but a non-empty first axis, such as one of shape (3, 0).
- MdTransform.WriteTransform: it uses the emptiness test of finding 1. It writes a numpy value of two or more cells, where the source's `if not val` raises ValueError. It also writes two values the source skips as false: a one-element numpy array whose element is false, and a numpy array with no cells but a non-empty first axis, such as one of shape (3, 0).
- MdTransform.TransformRoundTrip: it uses the emptiness test of finding 1. It writes a numpy value of two or more cells, where the source's `if not val` raises ValueError. It also writes two values the source skips as false: a one-element numpy array whose element is false, and a numpy array with no cells but a non-empty first axis, such as one of shape (3, 0).
- MdTransform.SecondTransformRefused: it uses the emptiness test of finding 1. It writes a numpy value of two or more cells, where the source's `if not val` raises ValueError. It also writes two values the source skips as false: a one-element numpy array whose element is false, and a numpy array with no cells but a non-empty first axis, such as one of shape (3, 0).
- Converter.InfoReadsBack: it uses the emptiness test of finding 1. It writes a numpy value of two or more cells, where the source's `if not val` raises ValueError. It also writes two values the source skips as false: a one-element numpy array whose element is false, and a numpy array with no cells but a non-empty first axis, such as one of shape (3, 0).
- Converter.WriteRawMne: it uses the emptiness test of finding 1. It writes a numpy value of two or more cells, where the source's `if not val` raises ValueError. It also writes two values the source skips as false: a one-element numpy array whose element is false, and a numpy array with no cells but a non-empty first axis, such as one of shape (3, 0).
- Annotations.Elements and Annotations.SecondColumn: arrays of three or more axes, whose iteration yields sub-arrays, are not followed.
- Converter.WriteRawMne: the round trip is stated for split mode only when the channels are the rows of the matrix (`nchan == len(rows)`), and for info mappings that satisfy `MdRoundTrip.RecRT`. The `MdLossy` lemmas state what happens outside that class.
- Converter.ImportNix: "nchan" and "sfreq" are returned as `infosec[key]` gives them. `mne.create_info` is not evaluated on them.
- Converter.ReadRecording: it uses the corrected import of finding 2. A lone one-axis array is given its channel axis.
- Plotter.Draw2D: it takes an x axis of 0 or 1 on a two-axis array. In the source every other axis fails with IndexError: `xdim == 2` at `shape[2]`, in `__add_slider` (nixworks/plotter/plotter.py:261) or, when an axis is passed in, in `__draw_2d` (line 300); `xdim == -2` at `dimensions[1 - xdim]`, which is `dimensions[3]` (line 305); `xdim <= -3` at the first `shape[xdim]`.
- Plotter.Draw2D: when the clamped end is negative the x values are empty but the slice of a row need not be; matplotlib's `plot` may then raise ValueError for unequal lengths before `set_xlim` raises IndexError. The model gives IndexError.
- Plotter.Draw1D: start and end are integers. The source's float window and its `int()` truncation are not modelled.
- Plotter.Draw1D: for an array of several axes the selected rows are returned as one sequence of cells in row-major order, where numpy returns an array of rows.

## Findings

| source | as written | input that shows it | evidently intended | confidence | as-written member | corrected member |
|---|---|---|---|---|---|---|
| nixworks/converters/mne/mne2nix.py:100 | `if not val` asks a numpy array for its truth value | an info mapping holding an `mne.Transform`, whose "trans" is a 4x4 numpy array: Python raises ValueError, so the branch for more than one dimension at lines 102-111 is never reached for numpy matrices | skip empty values only (`len(val) == 0`), so that a transform's matrix is stored and reads back (`MdTransform.TransformRoundTrip`) | high, not executed | MdLossy.SkipAsWrittenRaises | MdLossy.TransformMatrixStored |
| nixworks/converters/mne/nix2mne.py:130-134 | the per-channel arrays are merged only when there are several | a one-channel recording written with `split_data_channels=True`: the reader hands `mne.io.RawArray` samples of shape (n_times,), without the channel axis, where RawArray expects a 2-D (n_channels, n_times) array and is expected to refuse them | merge whenever the file was split, giving shape (1, n_times) | medium, not executed | SignalReader.OneChannelSplitLosesChannelAxis | SignalReader.ImportSplitRecordingCorrected |
| nixworks/plotter/plotter.py:239 | `elif xdim > 2` accepts `xdim == 2` (same at line 138) | `LinePlotter(a, xdim=2)` for a two-axis array: `plot()` then reads `a.shape[2]` in `__add_slider` and raises IndexError | accept at most axis 1, as the event plotter does at line 100 | medium, not executed | Plotter.LinePlotterAcceptsMissingAxis | Plotter.CorrectedAxisExists |

The writer uses the emptiness test of finding 1. The reader uses the
corrected import of finding 2. `Plotter.NewPlotterCorrected` carries the
limit of finding 3.

=== FILE: annotations.dfy ===
/** Reading the annotations back (`create_mne_annotations`): onsets and
    durations from each tag's positions and extents arrays, descriptions
    from the labels of the positions array's first dimension, concatenated
    in tag order.
 */
module Annotations {
  import opened Results
  import opened Nix
  import opened Stimuli

  /** The three lists handed to `mne.Annotations`. */
  datatype AnnotationLists = AnnotationLists(onsets: seq<Atom>, durations: seq<Atom>, descriptions: seq<string>)

  function Append(a: AnnotationLists, b: AnnotationLists): AnnotationLists {
    AnnotationLists(a.onsets + b.onsets, a.durations + b.durations, a.descriptions + b.descriptions)
  }

  const NoAnnotations: AnnotationLists := AnnotationLists([], [], [])

  /** The lists that describe `stims`, in order. */
  function ListsOf(stims: seq<Stimulus>): AnnotationLists {
    AnnotationLists(Reals(Onsets(stims)), Reals(Durations(stims)), Labels(stims))
  }

  /** `list.extend(a)` for an array of one axis: its cells. An array of no
      axes cannot be iterated (TypeError); iterating one of two or more axes
      yields sub-arrays rather than values, which the model does not
      follow. */
  function Elements(a: DataArray): (r: Result<seq<Atom>>)
    ensures |a.shape| == 1 ==> r == Ok(a.data)
    ensures |a.shape| == 0 ==> r == Err(TypeError)
  {
    if |a.shape| == 1 then Ok(a.data)
    else if |a.shape| == 0 then Err(TypeError)
    else Err(Unmodelled)
  }

  /** `[p[1] for p in a]` for an array of two axes: the second entry of
      every row, IndexError when rows are shorter than two. Iterating an
      array of no axes raises TypeError; for one axis `p[1]` indexes a
      number (IndexError); deeper arrays are not followed. */
  function SecondColumn(a: DataArray): (r: Result<seq<Atom>>)
    ensures |a.shape| == 2 && a.shape[0] > 0 && a.shape[1] >= 2 && |a.data| == a.shape[0] * a.shape[1] ==>
      && r.Ok? && |r.value| == a.shape[0]
      && forall i | 0 <= i < a.shape[0] :: i * a.shape[1] + 1 < |a.data| && r.value[i] == a.data[i * a.shape[1] + 1]
    ensures |a.shape| == 2 && a.shape[0] > 0 && a.shape[1] < 2 ==> r == Err(IndexError)
    ensures |a.shape| >= 1 && a.shape[0] == 0 ==> r == Ok([])
  {
    if |a.shape| == 0 then Err(TypeError)
    else if a.shape[0] == 0 then Ok([])
    else if |a.shape| == 1 then Err(IndexError)
    else if |a.shape| > 2 then Err(Unmodelled)
    else
      var n, m := a.shape[0], a.shape[1];
      if m < 2 then Err(IndexError)
      else if |a.data| != n * m then Err(Unmodelled)
      else
        RowBound(n, m);
        Ok(seq(n, i requires 0 <= i < n => a.data[i * m + 1]))
  }

  lemma RowBound(n: nat, m: nat)
    requires m >= 2
    ensures forall i | 0 <= i < n :: i * m + 1 < n * m
  {
    forall i | 0 <= i < n
      ensures i * m + 1 < n * m
    {
      MulSucc(i, m);
      MulMono(i + 1, n, m);
    }
  }

  /** The labels of an array's first dimension: IndexError when it has no
      dimension, AttributeError when the first is not a set dimension. */
  function FirstLabels(a: DataArray): (r: Result<seq<string>>)
    ensures a.dimensions != [] && a.dimensions[0].SetDimension? ==> r == Ok(a.dimensions[0].labels)
  {
    if a.dimensions == [] then Err(IndexError)
    else if !a.dimensions[0].SetDimension? then Err(AttributeError)
    else Ok(a.dimensions[0].labels)
  }

  /** One iteration of `create_mne_annotations`: the positions array's rank
      decides whether the values are the cells or the second entries of
      the rows, for the extents array too. */
  function ReadTag(tag: MultiTag, arrays: seq<DataArray>): (r: Result<AnnotationLists>)
    ensures tag.positions !in ArrayNames(arrays) ==> r == Err(KeyError(tag.positions))
  {
    var pos :- FindArray(arrays, tag.positions);
    var ext :- FindArray(arrays, tag.extents);
    var onsets :- if |pos.shape| == 1 then Elements(pos) else SecondColumn(pos);
    var durations :- if |pos.shape| == 1 then Elements(ext) else SecondColumn(ext);
    var labels :- FirstLabels(pos);
    Ok(AnnotationLists(onsets, durations, labels))
  }

  /** `create_mne_annotations`: the lists of every tag, in tag order. */
  function CreateMneAnnotations(tags: seq<MultiTag>, arrays: seq<DataArray>): (r: Result<AnnotationLists>)
    ensures tags == [] ==> r == Ok(NoAnnotations)
    ensures tags != [] && ReadTag(tags[0], arrays).Err? ==> r == Err(ReadTag(tags[0], arrays).error)
  {
    if tags == [] then Ok(NoAnnotations)
    else
      var first :- ReadTag(tags[0], arrays);
      var rest :- CreateMneAnnotations(tags[1..], arrays);
      Ok(Append(first, rest))
  }

  /** The lists of consecutive runs of annotations are the runs of the
      lists. */
  lemma {:induction false} ListsOfAppend(a: seq<Stimulus>, b: seq<Stimulus>)
    ensures ListsOf(a + b) == Append(ListsOf(a), ListsOf(b))
  {
  }

  /** The values `EventArray` stores are read back by the branch its rank
      selects: the cells of the one-axis form, the second entries of the
      two-axis form. */
  lemma {:induction false} EventValuesReadBack(xs: seq<real>, lead: real, nDim: nat, a: DataArray)
    requires Content(a) == EventArray(xs, lead, nDim)
    ensures (if |a.shape| == 1 then Elements(a) else SecondColumn(a)) == Ok(Reals(xs))
  {
    if !(nDim == 1 || xs == []) {
      assert a.shape == [|xs|, 2] && a.data == Pairs(lead, xs);
      assert |a.data| == a.shape[0] * a.shape[1];
      var col := SecondColumn(a).value;
      assert |col| == |xs|;
      forall i | 0 <= i < |xs|
        ensures col[i] == RealAtom(xs[i])
      {
        assert 2 * i + 1 == i * 2 + 1;
      }
      assert col == Reals(xs);
    }
  }

  /** Two arrays appended under new, distinct names are found by name,
      whatever is appended after them. */
  lemma {:induction false} FindNewPair(arrays: seq<DataArray>, pos: DataArray, ext: DataArray, more: seq<DataArray>)
    requires pos.name != ext.name && pos.name !in ArrayNames(arrays) && ext.name !in ArrayNames(arrays)
    ensures FindArray(arrays + [pos, ext] + more, pos.name) == Ok(pos)
    ensures FindArray(arrays + [pos, ext] + more, ext.name) == Ok(ext)
  {
    assert arrays + [pos, ext] == arrays + [pos] + [ext];
    FindAfterAppend(arrays, pos, pos.name);
    assert ArrayNames(arrays + [pos]) == ArrayNames(arrays) + [pos.name];
    FindAfterAppend(arrays + [pos], ext, ext.name);
    FindAfterAppend(arrays + [pos], ext, pos.name);
    FindArrayPrefix(arrays + [pos, ext], more, pos.name);
    FindArrayPrefix(arrays + [pos, ext], more, ext.name);
  }

  /** A tag whose arrays hold the encoding of `stims` reads back as their
      lists. */
  lemma {:induction false} ReadEventTag(tag: MultiTag, arrays: seq<DataArray>, pos: DataArray, ext: DataArray,
                                        stims: seq<Stimulus>, lead: real, nDim: nat)
    requires FindArray(arrays, tag.positions) == Ok(pos) && FindArray(arrays, tag.extents) == Ok(ext)
    requires Content(pos) == EventArray(Onsets(stims), 0.0, nDim)
    requires Content(ext) == EventArray(Durations(stims), lead, nDim)
    requires pos.dimensions != [] && pos.dimensions[0] == SetDimension(Labels(stims))
    ensures ReadTag(tag, arrays) == Ok(ListsOf(stims))
  {
    EventValuesReadBack(Onsets(stims), 0.0, nDim, pos);
    assert |pos.shape| == |ext.shape|;
    EventValuesReadBack(Durations(stims), lead, nDim, ext);
  }

  /** Reading back one tag written by `create_stimulus_multi_tag` gives the
      onsets, durations and descriptions of its annotations, in order,
      whatever the rank of the data; arrays appended later do not change
      what it reads. */
  lemma {:induction false} StimulusTagReadsBack(stims: seq<Stimulus>, blk: Block, nchan: nat, name: string, more: seq<DataArray>)
    requires CreateStimulusMultiTag(stims, blk, nchan, name).Ok?
    ensures var b := CreateStimulusMultiTag(stims, blk, nchan, name).value;
      ReadTag(b.tags[|blk.tags|], b.arrays + more) == Ok(ListsOf(stims))
  {
    var b := CreateStimulusMultiTag(stims, blk, nchan, name).value;
    StimulusTagLayout(stims, blk, nchan, name);
    var pos, ext := b.arrays[|blk.arrays|], b.arrays[|blk.arrays| + 1];
    assert b.arrays == blk.arrays + [pos, ext];
    assert ext.name != pos.name by {
      assert |PositionsName(name)| != |ExtentsName(name)|;
    }
    FindNewPair(blk.arrays, pos, ext, more);
    ReadEventTag(b.tags[|blk.tags|], b.arrays + more, pos, ext, stims, (nchan as int - 1) as real, DataRank(blk).value);
  }

  /** The same, for any array list that starts with the arrays the tag was
      written with. */
  lemma {:induction false} StimulusTagReadsBackIn(stims: seq<Stimulus>, blk: Block, nchan: nat, name: string, all: seq<DataArray>)
    requires CreateStimulusMultiTag(stims, blk, nchan, name).Ok?
    requires var b := CreateStimulusMultiTag(stims, blk, nchan, name).value;
      |b.arrays| <= |all| && all[..|b.arrays|] == b.arrays
    ensures var b := CreateStimulusMultiTag(stims, blk, nchan, name).value;
      ReadTag(b.tags[|blk.tags|], all) == Ok(ListsOf(stims))
  {
    var arrays := CreateStimulusMultiTag(stims, blk, nchan, name).value.arrays;
    PrefixSplit(arrays, all);
    StimulusTagReadsBack(stims, blk, nchan, name, all[|arrays|..]);
  }

  lemma PrefixSplit<T>(xs: seq<T>, all: seq<T>)
    requires |xs| <= |all| && all[..|xs|] == xs
    ensures all == xs + all[|xs|..]
  {
  }

  /** Reading a tag list that starts with a readable tag. */
  lemma {:induction false} ReadTagsCons(tags: seq<MultiTag>, arrays: seq<DataArray>, first: AnnotationLists, rest: AnnotationLists)
    requires tags != [] && ReadTag(tags[0], arrays) == Ok(first)
    requires CreateMneAnnotations(tags[1..], arrays) == Ok(rest)
    ensures CreateMneAnnotations(tags, arrays) == Ok(Append(first, rest))
  {
  }

  /** Nothing is appended to a tag's lists when no tag follows. */
  lemma AppendNothing(a: AnnotationLists)
    ensures Append(a, NoAnnotations) == a
  {
  }

  /** The tags added by one step followed by those of the later steps. */
  lemma {:induction false} TagsAfter(all: seq<MultiTag>, mid: seq<MultiTag>, n: nat)
    requires |mid| == n + 1 && |mid| <= |all| && all[..|mid|] == mid
    ensures all[n..] == [mid[n]] + all[|mid|..]
  {
    assert all[n] == all[..|mid|][n];
  }

  /** Reading back the tags of a split write gives the annotations group
      after group; arrays appended later do not change what is read. */
  lemma {:induction false} WriteGroupsReadsBack(groups: seq<StimGroup>, blk: Block, nchan: nat, all: seq<DataArray>)
    requires WriteGroups(groups, blk, nchan).Ok?
    requires var b := WriteGroups(groups, blk, nchan).value;
      |b.arrays| <= |all| && all[..|b.arrays|] == b.arrays
    ensures var b := WriteGroups(groups, blk, nchan).value;
      CreateMneAnnotations(b.tags[|blk.tags|..], all) == Ok(ListsOf(Concat(groups)))
    decreases |groups|
  {
    var b := WriteGroups(groups, blk, nchan).value;
    if groups == [] {
      assert b.tags[|blk.tags|..] == [];
    } else {
      var b1 := CreateStimulusMultiTag(groups[0].stims, blk, nchan, SplitTagName(groups[0].description)).value;
      assert b == WriteGroups(groups[1..], b1, nchan).value;
      WriteGroupsReadsBack(groups[1..], b1, nchan, all);
      GroupReadsBack(groups, blk, nchan, b1, b, all);
    }
  }

  /** One step of a split write: the group's tag reads back in front of the
      tags written after it. */
  lemma {:induction false} GroupReadsBack(groups: seq<StimGroup>, blk: Block, nchan: nat,
                                          b1: Block, b: Block, all: seq<DataArray>)
    requires groups != []
    requires CreateStimulusMultiTag(groups[0].stims, blk, nchan, SplitTagName(groups[0].description)) == Ok(b1)
    requires |b1.tags| <= |b.tags| && b.tags[..|b1.tags|] == b1.tags
    requires |b1.arrays| <= |b.arrays| && b.arrays[..|b1.arrays|] == b1.arrays
    requires |b.arrays| <= |all| && all[..|b.arrays|] == b.arrays
    requires CreateMneAnnotations(b.tags[|b1.tags|..], all) == Ok(ListsOf(Concat(groups[1..])))
    ensures CreateMneAnnotations(b.tags[|blk.tags|..], all) == Ok(ListsOf(Concat(groups)))
  {
    var g, rest := groups[0], groups[1..];
    assert all[..|b1.arrays|] == all[..|b.arrays|][..|b1.arrays|];
    StimulusTagReadsBackIn(g.stims, blk, nchan, SplitTagName(g.description), all);
    ReadTagThenRest(b.tags, b1.tags, |blk.tags|, all, ListsOf(g.stims), ListsOf(Concat(rest)));
    ListsOfAppend(g.stims, Concat(rest));
  }

  /** The tags after position `n` read back as the lists of tag `n`
      followed by those of the tags after it. */
  lemma {:induction false} ReadTagThenRest(all: seq<MultiTag>, mid: seq<MultiTag>, n: nat, arrays: seq<DataArray>,
                                           first: AnnotationLists, rest: AnnotationLists)
    requires |mid| == n + 1 && |mid| <= |all| && all[..|mid|] == mid
    requires ReadTag(mid[n], arrays) == Ok(first)
    requires CreateMneAnnotations(all[|mid|..], arrays) == Ok(rest)
    ensures CreateMneAnnotations(all[n..], arrays) == Ok(Append(first, rest))
  {
    TagsAfter(all, mid, n);
    ReadTagsCons(all[n..], arrays, first, rest);
  }

  /** The annotations of one tag for all stimuli read back as written, in
      order, whatever arrays were appended after the tag's. */
  lemma {:induction false} StimuliReadBack(stims: seq<Stimulus>, blk: Block, nchan: nat, all: seq<DataArray>)
    requires WriteStimTags(stims, blk, nchan, false).Ok?
    requires var b := WriteStimTags(stims, blk, nchan, false).value;
      |b.arrays| <= |all| && all[..|b.arrays|] == b.arrays
    ensures var b := WriteStimTags(stims, blk, nchan, false).value;
      CreateMneAnnotations(b.tags[|blk.tags|..], all) == Ok(ListsOf(stims))
  {
    var b := CreateStimulusMultiTag(stims, blk, nchan, ALL_STIMULI_NAME).value;
    StimulusTagReadsBackIn(stims, blk, nchan, ALL_STIMULI_NAME, all);
    TagsAfter(b.tags, b.tags, |blk.tags|);
    ReadTagsCons(b.tags[|blk.tags|..], all, ListsOf(stims), NoAnnotations);
    AppendNothing(ListsOf(stims));
  }

  /** In split mode the annotations read back group by group: the same
      annotations, each label's in their order, with the labels in order of
      first occurrence. */
  lemma {:induction false} SplitStimuliReadBack(stims: seq<Stimulus>, blk: Block, nchan: nat, all: seq<DataArray>)
    requires WriteStimTags(stims, blk, nchan, true).Ok?
    requires var b := WriteStimTags(stims, blk, nchan, true).value;
      |b.arrays| <= |all| && all[..|b.arrays|] == b.arrays
    ensures var b := WriteStimTags(stims, blk, nchan, true).value;
      CreateMneAnnotations(b.tags[|blk.tags|..], all) == Ok(ListsOf(Concat(SeparateStimulusTypes(stims))))
    ensures multiset(Concat(SeparateStimulusTypes(stims))) == multiset(stims)
  {
    WriteGroupsReadsBack(SeparateStimulusTypes(stims), blk, nchan, all);
    SeparateContents(stims);
  }
}

=== FILE: converter.dfy ===
/** The two entry points of the MNE converter put together: `write_raw_mne`,
    which lays a raw recording out in a NIX file, and `import_nix`, which
    reads such a file back. The round trip is stated on the writer: what
    the reader recovers from the file it wrote.
 */
module Converter {
  import opened Results
  import opened Nix
  import opened Layout
  import opened Metadata
  import opened MdWriter
  import opened MdReader
  import opened MdRoundTrip
  import opened SignalWriter
  import opened SignalReader
  import opened Stimuli
  import opened Annotations
  import Text

  const INFO_SECTION_NAME: string := "Info"
  const INFO_SECTION_TYPE: string := "File metadata"
  const EXTRAS_SECTION_NAME: string := "Extras"
  const EXTRAS_SECTION_TYPE: string := "Raw Extras metadata"

  /** What the writer takes from an MNE raw object: the samples, the
      annotations, the `info` mapping and the list `_raw_extras`. */
  datatype Raw = Raw(rec: Recording, stims: seq<Stimulus>, info: MetaValue, extras: seq<MetaValue>)

  // ---------------------------------------------------------------------
  // Writing
  // ---------------------------------------------------------------------

  /** The name of the section for extra `idx` of `count`: numbered when
      there are several, plain "Extras" when there is one. */
  function ExtrasName(idx: nat, count: nat): string {
    if count > 1 then Text.IndexedName(EXTRAS_SECTION_NAME, idx) else EXTRAS_SECTION_NAME
  }

  function ExtrasNames(count: nat): (names: seq<string>)
    ensures |names| == count
    ensures forall i | 0 <= i < count :: names[i] == ExtrasName(i, count)
  {
    seq(count, i requires 0 <= i < count => ExtrasName(i, count))
  }

  /** No two extras sections share a name, and none is called "Info". */
  lemma ExtrasNamesDistinct(count: nat)
    ensures forall i, j | 0 <= i < j < count :: ExtrasNames(count)[i] != ExtrasNames(count)[j]
    ensures INFO_SECTION_NAME !in ExtrasNames(count)
  {
    var names := ExtrasNames(count);
    forall i, j | 0 <= i < j < count
      ensures names[i] != names[j]
    {
      if names[i] == names[j] {
        Text.IndexedNameInjective(EXTRAS_SECTION_NAME, i, j);
      }
    }
    forall i | 0 <= i < count
      ensures names[i] != INFO_SECTION_NAME
    {
      assert names[i][0] == 'E';
    }
  }

  /** The file-level sections written so far and the block, which receives
      the arrays of multidimensional metadata. */
  datatype Stored = Stored(sections: seq<Section>, blk: Block)

  /** One section per extra, from extra `idx` of `count` on, each filled by
      `create_md_tree`. */
  function WriteExtras(extras: seq<MetaValue>, idx: nat, count: nat, blk: Block): (r: Result<Stored>)
    ensures r.Ok? ==> |r.value.sections| == |extras|
    ensures r.Ok? ==> forall i | 0 <= i < |extras| ::
      r.value.sections[i].name == ExtrasName(idx + i, count) && r.value.sections[i].typeName == EXTRAS_SECTION_TYPE
    ensures r.Ok? ==> BlockGrows(blk, r.value.blk)
    decreases |extras|
  {
    if extras == [] then Ok(Stored([], blk))
    else
      var name := ExtrasName(idx, count);
      var w :- WriteTree(Section(name, EXTRAS_SECTION_TYPE, [], []), [name], extras[0], blk);
      var rest :- WriteExtras(extras[1..], idx + 1, count, w.blk);
      BlockGrowsTrans(blk, w.blk, rest.blk);
      ExtrasHeadersCons(w.sec, rest.sections, idx, count);
      Ok(Stored([w.sec] + rest.sections, rest.blk))
  }

  lemma ExtrasHeadersCons(s0: Section, ss: seq<Section>, idx: nat, count: nat)
    requires s0.name == ExtrasName(idx, count) && s0.typeName == EXTRAS_SECTION_TYPE
    requires forall i | 0 <= i < |ss| :: ss[i].name == ExtrasName(idx + 1 + i, count) && ss[i].typeName == EXTRAS_SECTION_TYPE
    ensures forall i | 0 <= i < |ss| + 1 ::
      ([s0] + ss)[i].name == ExtrasName(idx + i, count) && ([s0] + ss)[i].typeName == EXTRAS_SECTION_TYPE
  {
    forall i | 0 <= i < |ss| + 1
      ensures ([s0] + ss)[i].name == ExtrasName(idx + i, count) && ([s0] + ss)[i].typeName == EXTRAS_SECTION_TYPE
    {
      if i > 0 {
        assert ([s0] + ss)[i] == ss[i - 1];
      }
    }
  }

  /** The metadata part of `write_raw_mne`: the "Info" section from the
      info mapping, then the extras sections. */
  function WriteMetadata(info: MetaValue, extras: seq<MetaValue>, blk: Block): (r: Result<Stored>)
    ensures r.Ok? ==> SectionNames(r.value.sections) == [INFO_SECTION_NAME] + ExtrasNames(|extras|)
    ensures r.Ok? ==> BlockGrows(blk, r.value.blk)
  {
    var w :- InfoTree(info, blk);
    var e :- WriteExtras(extras, 0, |extras|, w.blk);
    BlockGrowsTrans(blk, w.blk, e.blk);
    MetadataNames(w.sec, e.sections);
    Ok(Stored([w.sec] + e.sections, e.blk))
  }

  /** The names of the "Info" section followed by the extras sections. */
  lemma MetadataNames(info: Section, extras: seq<Section>)
    requires info.name == INFO_SECTION_NAME
    requires forall i | 0 <= i < |extras| :: extras[i].name == ExtrasName(i, |extras|)
    ensures SectionNames([info] + extras) == [INFO_SECTION_NAME] + ExtrasNames(|extras|)
  {
    var names := SectionNames([info] + extras);
    forall i | 1 <= i < |names|
      ensures names[i] == ExtrasNames(|extras|)[i - 1]
    {
      assert ([info] + extras)[i] == extras[i - 1];
    }
  }

  /** `create_md_tree` of the info mapping into an empty "Info" section. */
  function InfoTree(info: MetaValue, blk: Block): Result<Written> {
    WriteTree(Section(INFO_SECTION_NAME, INFO_SECTION_TYPE, [], []), [INFO_SECTION_NAME], info, blk)
  }

  /** The first section the metadata part stores is the "Info" tree. */
  lemma WriteMetadataInfoFirst(info: MetaValue, extras: seq<MetaValue>, blk: Block)
    requires WriteMetadata(info, extras, blk).Ok?
    ensures InfoTree(info, blk).Ok?
    ensures WriteMetadata(info, extras, blk).value.sections[0] == InfoTree(info, blk).value.sec
  {
  }

  /** The annotations the reader recovers from what the writer stored: all
      of them in order, or in split mode grouped by description. */
  function Expected(stims: seq<Stimulus>, split: bool): AnnotationLists {
    if split then ListsOf(Concat(SeparateStimulusTypes(stims))) else ListsOf(stims)
  }

  /** `write_raw_mne`: the block and its group, the samples in one array or
      one per channel, the stimulus tags when there are annotations, then
      the metadata sections. What `import_nix` recovers from the result is
      what was written: the sample matrix (in split mode when the channels
      are the rows), the annotations,
      and an info mapping that round-trips. */
  method WriteRawMne(raw: Raw, splitData: bool, splitStimuli: bool) returns (r: Result<NixFile>)
    requires raw.rec.Valid()
    ensures r.Ok? ==> |r.value.blocks| == 1
    ensures r.Ok? ==> r.value.blocks[0].name == DATA_BLOCK_NAME && r.value.blocks[0].typeName == DATA_BLOCK_TYPE
    ensures r.Ok? ==> SectionNames(r.value.sections) == [INFO_SECTION_NAME] + ExtrasNames(|raw.extras|)
    ensures r.Ok? && (!splitData || 1 <= |raw.rec.rows| == raw.rec.nchan) ==>
      ReadRecording(r.value.blocks[0])
      == Ok(Recovered(Tensor(raw.rec.Shape(), Flatten(raw.rec.rows)), Expected(raw.stims, splitStimuli)))
    ensures r.Ok? && raw.info.Record? && RecRT(raw.info.rec) ==>
      ReadInfo(r.value) == Ok(Canon(raw.info))
  {
    var rec := raw.rec;
    var b1: Result<Block>;
    if splitData {
      b1 := WriteMultiDa(rec, EmptyBlock);
    } else {
      b1 := WriteSingleDa(rec, EmptyBlock);
    }
    if b1.Err? {
      return Err(b1.error);
    }
    var data := b1.value;
    var b2 := if raw.stims == [] then Ok(data) else WriteStimTags(raw.stims, data, rec.nchan, splitStimuli);
    if b2.Err? {
      return Err(b2.error);
    }
    var m := WriteMetadata(raw.info, raw.extras, b2.value);
    if m.Err? {
      return Err(m.error);
    }
    var blk := m.value.blk;
    r := Ok(NixFile([blk], m.value.sections));
    StimStepKeeps(data, raw.stims, rec.nchan, splitStimuli, b2.value);
    if !splitData || 1 <= |rec.rows| == rec.nchan {
      DataBlockReadsBack(rec, splitData, data, raw.stims, splitStimuli, b2.value, blk);
    }
    if raw.info.Record? && RecRT(raw.info.rec) {
      InfoReadsBack(raw.info.rec, raw.extras, b2.value, m.value, [blk]);
    }
  }

  /** The samples and annotations written by the first two steps of
      `write_raw_mne` are what the block part of `import_nix` recovers. */
  lemma DataBlockReadsBack(rec: Recording, splitData: bool, data: Block, stims: seq<Stimulus>,
                           split: bool, b2: Block, blk: Block)
    requires rec.Valid()
    requires !splitData ==> WriteSingleDa(rec, EmptyBlock) == Ok(data)
    requires splitData ==>
      && 1 <= |rec.rows| == rec.nchan <= |rec.chNames| && FreshNames(rec.chNames[..rec.nchan], [])
      && ChannelAxis(rec.Shape(), rec.nchan).Ok?
      && data == EmptyBlock.(arrays := ChannelArrays(rec, ChannelAxis(rec.Shape(), rec.nchan).value, 0, rec.nchan),
                             group := EmptyBlock.group.(arrays := rec.chNames[..rec.nchan]))
    requires (if stims == [] then Ok(data) else WriteStimTags(stims, data, rec.nchan, split)) == Ok(b2)
    requires BlockGrows(b2, blk)
    ensures ReadRecording(blk) == Ok(Recovered(Tensor(rec.Shape(), Flatten(rec.rows)), Expected(stims, split)))
  {
    if splitData {
      MergeSplitChannels(rec, 0);
      assert data == SplitData(rec);
    }
    WrittenBlockReadsBack(rec, splitData, data, stims, split, b2, blk);
  }

  /** The data block as `write_multi_da` leaves it when the channels are
      the rows of the sample matrix. */
  function SplitData(rec: Recording): Block
    requires rec.Valid() && rec.nchan <= |rec.rows| && rec.nchan <= |rec.chNames|
  {
    EmptyBlock.(arrays := ChannelArrays(rec, 0, 0, rec.nchan),
                group := EmptyBlock.group.(arrays := rec.chNames[..rec.nchan]))
  }

  // ---------------------------------------------------------------------
  // Reading
  // ---------------------------------------------------------------------

  /** `group.data_arrays`: the arrays the group lists, looked up by name. */
  function ResolveArrays(arrays: seq<DataArray>, names: seq<string>): (r: Result<seq<DataArray>>)
    ensures r.Ok? <==> forall i | 0 <= i < |names| :: names[i] in ArrayNames(arrays)
    ensures r.Ok? ==> |r.value| == |names|
    ensures r.Ok? ==> forall i | 0 <= i < |names| :: FindArray(arrays, names[i]) == Ok(r.value[i])
  {
    if names == [] then Ok([])
    else
      var first :- FindArray(arrays, names[0]);
      var rest :- ResolveArrays(arrays, names[1..]);
      assert forall i | 1 <= i < |names| :: names[i] == names[1..][i - 1];
      Ok([first] + rest)
  }

  /** `group.multi_tags`: the tags the group lists, looked up by name. */
  function ResolveTags(tags: seq<MultiTag>, names: seq<string>): (r: Result<seq<MultiTag>>)
    ensures r.Ok? <==> forall i | 0 <= i < |names| :: names[i] in TagNames(tags)
    ensures r.Ok? ==> |r.value| == |names|
    ensures r.Ok? ==> forall i | 0 <= i < |names| :: FindTag(tags, names[i]) == Ok(r.value[i])
  {
    if names == [] then Ok([])
    else
      var first :- FindTag(tags, names[0]);
      var rest :- ResolveTags(tags, names[1..]);
      assert forall i | 1 <= i < |names| :: names[i] == names[1..][i - 1];
      Ok([first] + rest)
  }

  /** What `import_nix` recovers from the data block: the sample matrix
      handed to MNE and the annotations. */
  datatype Recovered = Recovered(data: Tensor, annotations: AnnotationLists)

  /** The block part of `import_nix`: the raw-data group, its arrays (merged
      when there are several, and a lone one-axis array given the channel
      axis it lost; see `SignalReader.ImportDataCorrected`) and its tags
      read as annotations. A stored
      array always fills its shape; one that does not cannot come from a
      file. */
  function ReadRecording(blk: Block): (r: Result<Recovered>)
    ensures blk.group.name != RAW_DATA_GROUP_NAME ==> r == Err(KeyError(RAW_DATA_GROUP_NAME))
    ensures blk.group.name == RAW_DATA_GROUP_NAME && blk.group.arrays == [] ==> r == Err(IndexError)
    ensures r.Ok? ==> ResolveArrays(blk.arrays, blk.group.arrays).Ok?
    ensures r.Ok? && |blk.group.arrays| == 1 ==>
      var a := Content(FindArray(blk.arrays, blk.group.arrays[0]).value);
      r.value.data == if |a.shape| == 1 then Tensor([1] + a.shape, a.cells) else a
    ensures r.Ok? ==> ResolveTags(blk.tags, blk.group.tags).Ok?
    ensures r.Ok? ==>
      Ok(r.value.annotations) == CreateMneAnnotations(ResolveTags(blk.tags, blk.group.tags).value, blk.arrays)
  {
    if blk.group.name != RAW_DATA_GROUP_NAME then Err(KeyError(RAW_DATA_GROUP_NAME))
    else
      var arrays :- ResolveArrays(blk.arrays, blk.group.arrays);
      var ts := Contents(arrays);
      if !(forall i | 0 <= i < |ts| :: WellFormed(ts[i])) then Err(Unmodelled)
      else
        var data :- ImportDataCorrected(ts);
        var tags :- ResolveTags(blk.tags, blk.group.tags);
        var annotations :- CreateMneAnnotations(tags, blk.arrays);
        Ok(Recovered(data, annotations))
  }

  /** Every array of the file, block after block: the arrays a section's
      `referring_data_arrays` is drawn from. */
  function AllArrays(blocks: seq<Block>): (arrays: seq<DataArray>)
    ensures forall b | b in blocks :: forall a | a in b.arrays :: a in arrays
  {
    if blocks == [] then [] else blocks[0].arrays + AllArrays(blocks[1..])
  }

  /** `md_to_dict` of the file's "Info" section. */
  function ReadInfo(f: NixFile): (r: Result<PyValue>)
    ensures INFO_SECTION_NAME !in SectionNames(f.sections) ==> r == Err(KeyError(INFO_SECTION_NAME))
  {
    var infosec :- FindSection(f.sections, INFO_SECTION_NAME);
    ReadSection(infosec, [INFO_SECTION_NAME], AllArrays(f.blocks))
  }

  /** `section[key]` for a property, as nixio answers it: the only value of
      a one-value property, otherwise the tuple of its values. */
  function SectionValue(s: Section, key: string): (r: Result<Payload>)
    ensures r.Ok? <==> key in PropNames(s.props)
    ensures r.Err? ==> r.error == KeyError(key)
    ensures forall i | 0 <= i < |s.props| && s.props[i].name == key && key !in PropNames(s.props[..i]) ::
      && r.Ok?
      && (r.value.Bare? <==> |s.props[i].values| == 1)
      && (r.value.Bare? ==> r.value.atom == s.props[i].values[0])
      && (r.value.Many? ==> r.value.atoms == s.props[i].values)
  {
    var values :- FindValues(s.props, key);
    Ok(Unwrap(values))
  }

  /** A scalar the metadata writer stores, such as the "nchan" or "sfreq"
      of an info mapping, comes back from `section[key]` as that scalar
      itself, which is what `mne.create_info` is handed. */
  lemma {:induction false} ScalarSectionValue(sec: Section, k: string, c: ScalarClass, a: Atom, blk: Block)
    requires k !in PropNames(sec.props)
    ensures var w := WriteLeaf(sec, k, Scalar(c, a), blk);
      w.Ok? && SectionValue(w.value.sec, k) == Ok(Bare(a))
  {
    var w := WriteLeaf(sec, k, Scalar(c, a), blk);
    var props := w.value.sec.props;
    assert props[..|sec.props|] == sec.props;
    assert props[|sec.props|].name == k;
  }

  /** The values of the first property named `key`. */
  function FindValues(props: seq<Property>, key: string): (r: Result<seq<Atom>>)
    ensures r.Ok? <==> key in PropNames(props)
    ensures r.Err? ==> r.error == KeyError(key)
    ensures forall i | 0 <= i < |props| && props[i].name == key && key !in PropNames(props[..i]) ::
      r == Ok(props[i].values)
  {
    if props == [] then Err(KeyError(key))
    else if props[0].name == key then Ok(props[0].values)
    else
      var r := FindValues(props[1..], key);
      assert PropNames(props) == [props[0].name] + PropNames(props[1..]);
      forall i | 0 <= i < |props| && props[i].name == key && key !in PropNames(props[..i])
        ensures r == Ok(props[i].values)
      {
        assert props[1..][i - 1] == props[i];
        assert PropNames(props[1..][..i - 1]) == PropNames(props[..i])[1..];
      }
      r
  }

  /** What `import_nix` builds the MNE raw object from. */
  datatype Imported = Imported(nchan: Payload, sfreq: Payload, info: PyValue, data: Tensor,
                               annotations: AnnotationLists)

  /** `import_nix`: the channel count and sampling rate from the "Info"
      section, the info mapping, then the samples and annotations of the
      data block. */
  function ImportNix(f: NixFile): (r: Result<Imported>)
    ensures INFO_SECTION_NAME !in SectionNames(f.sections) ==> r == Err(KeyError(INFO_SECTION_NAME))
    ensures r.Ok? ==> ReadInfo(f) == Ok(r.value.info)
    ensures r.Ok? ==> FindBlock(f.blocks, DATA_BLOCK_NAME).Ok?
    ensures r.Ok? ==> ReadRecording(FindBlock(f.blocks, DATA_BLOCK_NAME).value)
                      == Ok(Recovered(r.value.data, r.value.annotations))
    ensures r.Ok? ==> var infosec := FindSection(f.sections, INFO_SECTION_NAME).value;
      SectionValue(infosec, "nchan") == Ok(r.value.nchan) && SectionValue(infosec, "sfreq") == Ok(r.value.sfreq)
  {
    var infosec :- FindSection(f.sections, INFO_SECTION_NAME);
    var nchan :- SectionValue(infosec, "nchan");
    var sfreq :- SectionValue(infosec, "sfreq");
    var info :- ReadSection(infosec, [INFO_SECTION_NAME], AllArrays(f.blocks));
    var blk :- FindBlock(f.blocks, DATA_BLOCK_NAME);
    var recovered :- ReadRecording(blk);
    Ok(Imported(nchan, sfreq, info, recovered.data, recovered.annotations))
  }

  // ---------------------------------------------------------------------
  // Round trip
  // ---------------------------------------------------------------------

  /** Lookup by name finds an array whose name no earlier array has. */
  lemma {:induction false} FindDistinctArray(xs: seq<DataArray>, i: nat)
    requires i < |xs| && Distinct(ArrayNames(xs))
    ensures FindArray(xs, xs[i].name) == Ok(xs[i])
  {
    if i > 0 {
      assert ArrayNames(xs)[0] != ArrayNames(xs)[i];
      NamesTail(xs, ArrayName);
      FindDistinctArray(xs[1..], i - 1);
    }
  }

  lemma {:induction false} FindDistinctTag(tags: seq<MultiTag>, i: nat)
    requires i < |tags| && Distinct(TagNames(tags))
    ensures FindTag(tags, tags[i].name) == Ok(tags[i])
  {
    if i > 0 {
      assert TagNames(tags)[0] != TagNames(tags)[i];
      NamesTail(tags, TagName);
      FindDistinctTag(tags[1..], i - 1);
    }
  }

  /** Arrays with distinct names are found again by their names, whatever
      follows them. */
  lemma {:induction false} ResolveDistinctArrays(xs: seq<DataArray>, all: seq<DataArray>)
    requires Distinct(ArrayNames(xs)) && |xs| <= |all| && all[..|xs|] == xs
    ensures ResolveArrays(all, ArrayNames(xs)) == Ok(xs)
  {
    var more := all[|xs|..];
    assert all == xs + more;
    var names := ArrayNames(xs);
    forall i | 0 <= i < |xs|
      ensures FindArray(all, names[i]) == Ok(xs[i])
    {
      FindDistinctArray(xs, i);
      FindArrayPrefix(xs, more, xs[i].name);
    }
    var r := ResolveArrays(all, names);
    assert r.Ok?;
    assert forall i | 0 <= i < |xs| :: r.value[i] == xs[i];
    assert r.value == xs;
  }

  /** A registered block's group finds exactly the block's tags. */
  lemma {:induction false} ResolveRegisteredTags(b: Block)
    requires Registered(b)
    ensures ResolveTags(b.tags, b.group.tags) == Ok(b.tags)
  {
    var names := b.group.tags;
    forall i | 0 <= i < |b.tags|
      ensures FindTag(b.tags, names[i]) == Ok(b.tags[i])
    {
      FindDistinctTag(b.tags, i);
    }
    var r := ResolveTags(b.tags, names);
    assert r.Ok?;
    assert forall i | 0 <= i < |b.tags| :: r.value[i] == b.tags[i];
    assert r.value == b.tags;
  }

  /** In single mode the group's one array, found among any arrays that
      start with it, holds the sample matrix. */
  lemma {:induction false} SingleDataReadsBack(rec: Recording, all: seq<DataArray>)
    requires rec.Valid() && WriteSingleDa(rec, EmptyBlock).Ok?
    requires var b := WriteSingleDa(rec, EmptyBlock).value; |b.arrays| <= |all| && all[..|b.arrays|] == b.arrays
    ensures var b := WriteSingleDa(rec, EmptyBlock).value;
      && b.group.arrays == [SINGLE_ARRAY_NAME]
      && var ts := Contents(ResolveArrays(all, b.group.arrays).value);
      && ResolveArrays(all, b.group.arrays).Ok?
      && (forall i | 0 <= i < |ts| :: WellFormed(ts[i]))
      && ImportDataCorrected(ts) == Ok(Tensor(rec.Shape(), Flatten(rec.rows)))
  {
    var b := WriteSingleDa(rec, EmptyBlock).value;
    assert b.arrays == [b.arrays[0]];
    ResolveDistinctArrays(b.arrays, all);
    ImportSingleRecordingCorrected(rec);
  }

  /** In split mode with the channels as rows, the group's arrays, found
      among any arrays that start with them, merge into the sample matrix. */
  lemma {:induction false} SplitDataReadsBack(rec: Recording, all: seq<DataArray>)
    requires rec.Valid() && 1 <= |rec.rows| == rec.nchan <= |rec.chNames|
    requires FreshNames(rec.chNames[..rec.nchan], [])
    requires var xs := ChannelArrays(rec, 0, 0, rec.nchan); |xs| <= |all| && all[..|xs|] == xs
    ensures var ts := Contents(ResolveArrays(all, rec.chNames[..rec.nchan]).value);
      && ResolveArrays(all, rec.chNames[..rec.nchan]).Ok?
      && (forall i | 0 <= i < |ts| :: WellFormed(ts[i]))
      && ImportDataCorrected(ts) == Ok(Tensor(rec.Shape(), Flatten(rec.rows)))
  {
    var xs := ChannelArrays(rec, 0, 0, rec.nchan);
    assert ArrayNames(xs) == rec.chNames[..rec.nchan];
    ResolveDistinctArrays(xs, all);
    ImportSplitRecordingCorrected(rec, 0);
  }

  /** Whatever data was written first, the tags written after it, and the
      metadata arrays after them, read back as the annotations. */
  lemma {:induction false} StimuliReadBackFrom(data: Block, stims: seq<Stimulus>, nchan: nat, split: bool,
                                               b2: Block, b3: Block)
    requires data.tags == [] && data.group.tags == []
    requires (if stims == [] then Ok(data) else WriteStimTags(stims, data, nchan, split)) == Ok(b2)
    requires BlockGrows(b2, b3)
    ensures ResolveTags(b3.tags, b3.group.tags) == Ok(b3.tags)
    ensures CreateMneAnnotations(b3.tags, b3.arrays) == Ok(Expected(stims, split))
  {
    assert Registered(data);
    if stims == [] {
      assert b3.tags == [];
      assert Expected(stims, split) == NoAnnotations by {
        assert SeparateStimulusTypes(stims) == [];
      }
    } else if split {
      WriteGroupsRegistered(SeparateStimulusTypes(stims), data, nchan);
      SplitStimuliReadBack(stims, data, nchan, b3.arrays);
      assert b3.tags[|data.tags|..] == b3.tags;
    } else {
      StimulusTagRegistered(stims, data, nchan, ALL_STIMULI_NAME);
      StimuliReadBack(stims, data, nchan, b3.arrays);
      assert b3.tags[|data.tags|..] == b3.tags;
    }
    ResolveRegisteredTags(b3);
  }

  /** Writing the stimulus tags keeps the arrays written before them and the
      group's name and arrays. */
  lemma {:induction false} StimStepKeeps(data: Block, stims: seq<Stimulus>, nchan: nat, split: bool, b2: Block)
    requires (if stims == [] then Ok(data) else WriteStimTags(stims, data, nchan, split)) == Ok(b2)
    ensures |data.arrays| <= |b2.arrays| && b2.arrays[..|data.arrays|] == data.arrays
    ensures b2.group.name == data.group.name && b2.group.arrays == data.group.arrays
    ensures b2.name == data.name && b2.typeName == data.typeName
  {
  }

  /** The block part of `import_nix` succeeds when the group's arrays give
      the samples and its tags the annotations. */
  lemma {:induction false} RecordingReadsBack(blk: Block, samples: Tensor, annotations: AnnotationLists)
    requires blk.group.name == RAW_DATA_GROUP_NAME
    requires ResolveArrays(blk.arrays, blk.group.arrays).Ok?
    requires var ts := Contents(ResolveArrays(blk.arrays, blk.group.arrays).value);
      (forall i | 0 <= i < |ts| :: WellFormed(ts[i])) && ImportDataCorrected(ts) == Ok(samples)
    requires ResolveTags(blk.tags, blk.group.tags) == Ok(blk.tags)
    requires CreateMneAnnotations(blk.tags, blk.arrays) == Ok(annotations)
    ensures ReadRecording(blk) == Ok(Recovered(samples, annotations))
  {
  }

  /** The data block of a written file, whatever metadata arrays followed,
      reads back as the sample matrix and the annotations. */
  lemma {:induction false} WrittenBlockReadsBack(rec: Recording, splitData: bool, data: Block, stims: seq<Stimulus>,
                                                 split: bool, b2: Block, blk: Block)
    requires rec.Valid()
    requires !splitData ==> WriteSingleDa(rec, EmptyBlock) == Ok(data)
    requires splitData ==>
      && 1 <= |rec.rows| == rec.nchan <= |rec.chNames| && FreshNames(rec.chNames[..rec.nchan], [])
      && data == SplitData(rec)
    requires (if stims == [] then Ok(data) else WriteStimTags(stims, data, rec.nchan, split)) == Ok(b2)
    requires BlockGrows(b2, blk)
    ensures ReadRecording(blk) == Ok(Recovered(Tensor(rec.Shape(), Flatten(rec.rows)), Expected(stims, split)))
  {
    StimStepKeeps(data, stims, rec.nchan, split, b2);
    assert blk.arrays[..|data.arrays|] == blk.arrays[..|b2.arrays|][..|data.arrays|];
    if splitData {
      SplitDataReadsBack(rec, blk.arrays);
    } else {
      SingleDataReadsBack(rec, blk.arrays);
    }
    StimuliReadBackFrom(data, stims, rec.nchan, split, b2, blk);
    RecordingReadsBack(blk, Tensor(rec.Shape(), Flatten(rec.rows)), Expected(stims, split));
  }

  /** An info mapping that round-trips is what `md_to_dict` reads from the
      file's "Info" section. */
  lemma {:induction false} InfoReadsBack(info: Rec, extras: seq<MetaValue>, blk: Block, m: Stored, blocks: seq<Block>)
    requires RecRT(info)
    requires WriteMetadata(Record(info), extras, blk) == Ok(m)
    ensures ReadInfo(NixFile(blocks, m.sections)) == Ok(Canon(Record(info)))
  {
    assert |TagTypeName(INFO_SECTION_TYPE)| == 3;
    WriteMetadataInfoFirst(Record(info), extras, blk);
    MetadataRoundTrip(INFO_SECTION_NAME, INFO_SECTION_TYPE, [INFO_SECTION_NAME], info, blk, AllArrays(blocks));
    assert SectionNames(m.sections)[0] == INFO_SECTION_NAME;
  }
}

=== FILE: layout.dfy ===
/** The fixed names and types under which the MNE converter lays out a
    recording in a NIX file. The writer and the reader each declare the
    same five constants; one definition serves both here.
 */
module Layout {
  import opened Results
  import opened Nix

  const DATA_BLOCK_NAME: string := "EEG Data Block"
  const DATA_BLOCK_TYPE: string := "Recording"
  const RAW_DATA_GROUP_NAME: string := "Raw Data Group"
  const RAW_DATA_GROUP_TYPE: string := "EEG Channels"
  const RAW_DATA_TYPE: string := "Raw Data"

  /** The block and its one group as the writer creates them, before any
      data is written. */
  const EmptyBlock: Block :=
    Block(DATA_BLOCK_NAME, DATA_BLOCK_TYPE, [], [], Group(RAW_DATA_GROUP_NAME, RAW_DATA_GROUP_TYPE, [], []))

  /** The time axis both writers attach: the sample times in seconds. */
  function TimeDimension(times: seq<real>): Dimension {
    RangeDimension(times, Some("time"), Some("s"), false)
  }
}

=== FILE: md_lossy.dfy ===
/** What the metadata round trip loses outside the mappings `RecRT`
    describes: one-element sequences, lists of mappings under a key other
    than "chs", sequences of mixed numeric types, multidimensional values,
    scalars of unregistered classes and skipped values.
 */
module MdLossy {
  import opened Results
  import opened Nix
  import opened Metadata
  import opened MdWriter
  import opened MdReader
  import opened MdRoundTrip
  import Text

  // ---------------------------------------------------------------------
  // Skipped values

  /** `None` and empty iterables are skipped: the section and the block
      stay as they were, so the key is absent when read back. */
  lemma {:induction false} SkippedEntryLeavesNoTrace(sec: Section, path: seq<string>, e: Entry, blk: Block)
    requires e.value.Null? || (IsEmpty(e.value) && !e.value.RecordList?)
    ensures WriteEntry(sec, path, e, blk) == Ok(Written(sec, blk))
  {
  }

  // ---------------------------------------------------------------------
  // One-element sequences

  /** The reader unwraps a one-element value list before applying the
      registered class: a one-element list or tuple comes back only when
      its element is a one-character string (the characters of a string
      make the same list); any other element is refused with TypeError, and
      a one-element numpy array comes back with no dimension. */
  lemma {:induction false} OneElementSequence(k: string, kind: SeqKind, a: Atom)
    ensures var e := Entry(k, Vector(kind, [a]));
            ConvertProp(LeafProperty(e)) == Ok(LeafValue(e.value))
            <==> kind != ArrayKind && a.StrAtom? && |a.s| == 1
    ensures kind != ArrayKind && !a.StrAtom? ==>
              ConvertProp(LeafProperty(Entry(k, Vector(kind, [a])))) == Err(TypeError)
    ensures kind == ArrayKind ==>
              ConvertProp(LeafProperty(Entry(k, Vector(kind, [a])))) == Ok(PyArray([], [a]))
  {
    var e := Entry(k, Vector(kind, [a]));
    var p := LeafProperty(e);
    TagDecodesToClass(KindClassName(kind));
    assert p.values == [a];
    assert Unwrap(p.values) == Bare(a);
    if kind != ArrayKind && a.StrAtom? {
      var cs := Chars(a.s);
      if |a.s| == 1 {
        assert a.s == [a.s[0]];
        assert cs == [PyStr(a.s)] == AtomValues([a]);
      } else {
        assert |cs| != |AtomValues([a])|;
      }
    }
  }

  // ---------------------------------------------------------------------
  // Lists of mappings under another key

  /** No indexed name `k-idx` is "chs", which has no '-'. */
  lemma {:induction false} IndexedNameNotChs(k: string, idx: nat)
    ensures Text.IndexedName(k, idx) != "chs"
  {
    var n := Text.IndexedName(k, idx);
    assert n[|k|] == (k + "-")[|k|] == '-';
    if |k| < 3 {
      assert "chs"[|k|] != '-';
    }
  }

  /** The dict the reader makes of the subsections `k-idx`, `k-(idx+1)`, ... */
  function IndexedEntries(k: string, items: seq<MetaValue>, idx: nat): (d: seq<PyEntry>)
    ensures |d| == |items|
  {
    if items == [] then [] else [PyEntry(Text.IndexedName(k, idx), Canon(items[0]))] + IndexedEntries(k, items[1..], idx + 1)
  }

  /** Reading the subsections of a list of mappings as ordinary children:
      each one is keyed by its own name. */
  lemma {:induction false} ReadIndexed(path: seq<string>, k: string, items: seq<MetaValue>, idx: nat,
                                       arrays: seq<DataArray>, d: seq<PyEntry>)
    requires forall i | 0 <= i < |items| :: items[i].Record? && RecRT(items[i].rec)
    requires forall j | idx <= j < idx + |items| :: Text.IndexedName(k, j) !in PyKeys(d)
    ensures ReadChildren(BuiltItems(path, k, items, idx), path, arrays, d) == Ok(d + IndexedEntries(k, items, idx))
  {
    if items == [] {
      assert d + IndexedEntries(k, items, idx) == d;
    } else {
      var x := PyEntry(Text.IndexedName(k, idx), Canon(items[0]));
      var cs := BuiltItems(path, k, items, idx);
      assert cs[1..] == BuiltItems(path, k, items[1..], idx + 1);
      ReadIndexedHead(path, k, items, idx, arrays, d);
      ReadChildrenCons(cs, path, arrays, d, d + [x]);
      RecordItemsTail(items);
      IndexedFreshTail(k, |items|, idx, d, x);
      ReadIndexed(path, k, items[1..], idx + 1, arrays, d + [x]);
      ConsAppend(d, x, IndexedEntries(k, items[1..], idx + 1), IndexedEntries(k, items, idx));
    }
  }

  lemma {:induction false} ReadIndexedHead(path: seq<string>, k: string, items: seq<MetaValue>, idx: nat,
                                           arrays: seq<DataArray>, d: seq<PyEntry>)
    requires items != [] && items[0].Record? && RecRT(items[0].rec)
    requires Text.IndexedName(k, idx) !in PyKeys(d)
    ensures ReadChild(BuiltItems(path, k, items, idx)[0], path, arrays, d)
            == Ok(d + [PyEntry(Text.IndexedName(k, idx), Canon(items[0]))])
  {
    var n := Text.IndexedName(k, idx);
    var r := items[0].rec;
    var c := BuiltItems(path, k, items, idx)[0];
    assert c == ItemSection(path, k, items[0], idx);
    assert c == Built(n, ClassTag(r.cls), path + [n], r.entries);
    IndexedNameNotChs(k, idx);
    TagDecodesToClass(r.cls);
    ReadBuilt(n, ClassTag(r.cls), path + [n], r.entries, arrays);
    assert DictSet(d, n, Canon(items[0])) == d + [PyEntry(n, Canon(items[0]))];
  }

  lemma {:induction false} IndexedFreshTail(k: string, count: nat, idx: nat, d: seq<PyEntry>, x: PyEntry)
    requires 0 < count && x.key == Text.IndexedName(k, idx)
    requires forall j | idx <= j < idx + count :: Text.IndexedName(k, j) !in PyKeys(d)
    ensures forall j | idx + 1 <= j < idx + count :: Text.IndexedName(k, j) !in PyKeys(d + [x])
  {
    assert PyKeys(d + [x]) == PyKeys(d) + [x.key];
    forall j | idx + 1 <= j < idx + count
      ensures Text.IndexedName(k, j) !in PyKeys(d + [x])
    {
      if Text.IndexedName(k, j) == x.key {
        Text.IndexedNameInjective(k, j, idx);
      }
    }
  }

  /** A list of mappings comes back as a list only under the key "chs";
      under any other key the reader sees an ordinary child section and
      returns a dict keyed `k-0`, `k-1`, ... */
  lemma {:induction false} RecordListOutsideChs(path: seq<string>, k: string, kind: SeqKind, first: Rec,
                                                rest: seq<MetaValue>, arrays: seq<DataArray>, d: seq<PyEntry>)
    requires k != "chs" && RecRT(first)
    requires forall i | 0 <= i < |rest| :: rest[i].Record? && RecRT(rest[i].rec)
    ensures var e := Entry(k, RecordList(kind, first, rest));
            ReadChild(ChildSection(path, e), path, arrays, d)
            == Ok(DictSet(d, k, PyDict(IndexedEntries(k, [Record(first)] + rest, 0))))
    ensures var e := Entry(k, RecordList(kind, first, rest));
            PyDict(IndexedEntries(k, [Record(first)] + rest, 0)) != Canon(e.value)
  {
    RecordListReadsAsDict(path, k, kind, first, rest, arrays, d);
    assert Canon(RecordList(kind, first, rest)).PyList?;
  }

  /** The read half: `md_to_dict` sees an ordinary child section. */
  lemma {:induction false} RecordListReadsAsDict(path: seq<string>, k: string, kind: SeqKind, first: Rec,
                                                 rest: seq<MetaValue>, arrays: seq<DataArray>, d: seq<PyEntry>)
    requires k != "chs" && RecRT(first)
    requires forall i | 0 <= i < |rest| :: rest[i].Record? && RecRT(rest[i].rec)
    ensures var e := Entry(k, RecordList(kind, first, rest));
            ReadChild(ChildSection(path, e), path, arrays, d)
            == Ok(DictSet(d, k, PyDict(IndexedEntries(k, [Record(first)] + rest, 0))))
  {
    var e := Entry(k, RecordList(kind, first, rest));
    var c := ChildSection(path, e);
    var items := [Record(first)] + rest;
    var hp := path + [k];
    assert items[1..] == rest;
    assert BuiltItems(hp, k, items, 0) == c.sections;
    forall i | 0 <= i < |items|
      ensures items[i].Record? && RecRT(items[i].rec)
    {
      if i > 0 {
        assert items[i] == rest[i - 1];
      }
    }
    ReadIndexed(hp, k, items, 0, arrays, []);
    assert [] + IndexedEntries(k, items, 0) == IndexedEntries(k, items, 0);
    TagDecodesToClass(KindClassName(kind));
    assert ReadProps(c.props, []) == Ok([]);
  }

  // ---------------------------------------------------------------------
  // Sequences of mixed numeric types

  /** A sequence whose elements have different types is stored with the
      float retry and read back as floats: the integers and booleans of
      the original list are lost. */
  lemma {:induction false} MixedSequenceBecomesFloats(sec: Section, path: seq<string>, k: string, xs: seq<Atom>,
                                                      blk: Block)
    requires !Homogeneous(xs) && (forall i | 0 <= i < |xs| :: !xs[i].StrAtom?)
    requires k !in PropNames(sec.props)
    ensures CoerceToFloats(xs).Ok?
    ensures var fs := CoerceToFloats(xs).value;
            var p := Property(k, fs, ClassTag("list"));
            && WriteEntry(sec, path, Entry(k, Vector(ListKind, xs)), blk) == Ok(Written(sec.(props := sec.props + [p]), blk))
            && ConvertProp(p) == Ok(PyList(AtomValues(fs)))
            && ConvertProp(p) != Ok(PyList(AtomValues(xs)))
  {
    MixedSequenceWritesFloats(sec, path, k, xs, blk);
    var fs := CoerceToFloats(xs).value;
    var p := Property(k, fs, ClassTag("list"));
    FloatListReadsBack(k, fs);
    MixedSequenceChangesValues(xs);
  }

  /** The write half: the float retry succeeds and the section gains one
      list property of floats. */
  lemma MixedSequenceWritesFloats(sec: Section, path: seq<string>, k: string, xs: seq<Atom>, blk: Block)
    requires !Homogeneous(xs) && (forall i | 0 <= i < |xs| :: !xs[i].StrAtom?)
    requires k !in PropNames(sec.props)
    ensures CoerceToFloats(xs).Ok?
    ensures WriteEntry(sec, path, Entry(k, Vector(ListKind, xs)), blk)
            == Ok(Written(sec.(props := sec.props + [Property(k, CoerceToFloats(xs).value, ClassTag("list"))]), blk))
  {
  }

  /** A list property of two or more floats reads back as the list of those
      floats. */
  lemma FloatListReadsBack(k: string, fs: seq<Atom>)
    requires |fs| > 1 && forall i | 0 <= i < |fs| :: fs[i].RealAtom?
    ensures ConvertProp(Property(k, fs, ClassTag("list"))) == Ok(PyList(AtomValues(fs)))
  {
    TagDecodesToClass("list");
    assert Unwrap(fs) == Many(fs);
  }

  /** Converting a mixed integer, boolean and float list to floats changes
      at least one of its values. */
  lemma MixedSequenceChangesValues(xs: seq<Atom>)
    requires !Homogeneous(xs) && (forall i | 0 <= i < |xs| :: !xs[i].StrAtom?)
    ensures CoerceToFloats(xs).Ok?
    ensures AtomValues(CoerceToFloats(xs).value) != AtomValues(xs)
  {
    var fs := CoerceToFloats(xs).value;
    var j :| 0 <= j < |xs| && KindOf(xs[j]) != KindOf(xs[0]);
    assert j != 0;
    var m := if xs[j].RealAtom? then 0 else j;
    assert !xs[m].RealAtom?;
    assert AtomValues(fs)[m] != AtomValues(xs)[m];
  }

  /** A string among elements of other types makes `float(vi)` fail: the
      whole write stops with ValueError. */
  lemma {:induction false} MixedSequenceWithText(sec: Section, path: seq<string>, k: string, kind: SeqKind,
                                                 xs: seq<Atom>, blk: Block)
    requires !Homogeneous(xs) && (exists i | 0 <= i < |xs| :: xs[i].StrAtom?)
    ensures WriteEntry(sec, path, Entry(k, Vector(kind, xs)), blk) == Err(ValueError)
  {
    assert |xs| > 0;
  }

  // ---------------------------------------------------------------------
  // Multidimensional values and unregistered classes

  /** A non-empty value of more than one dimension goes to a new array of
      the block, with one set dimension per axis and linked to the section;
      the section keeps only the array's id, under the value's class tag. */
  lemma {:induction false} MatrixStoredAsArray(sec: Section, path: seq<string>, k: string, kind: SeqKind,
                                               shape: GridShape, cells: seq<Atom>, blk: Block)
    requires shape[0] > 0
    requires k !in ArrayNames(blk.arrays) && k !in PropNames(sec.props)
    ensures var w := WriteEntry(sec, path, Entry(k, Grid(kind, shape, cells)), blk);
            && w.Ok?
            && w.value.sec == sec.(props := sec.props + [Property(k, [StrAtom(ArrayId(|blk.arrays|))], ClassTag(KindClassName(kind)))])
            && |w.value.blk.arrays| == |blk.arrays| + 1
            && var a := w.value.blk.arrays[|blk.arrays|];
               && a.name == k && a.typeName == MULTIDIM_TYPE
               && Content(a) == Tensor(shape, cells)
               && |a.dimensions| == |shape|
               && (forall i | 0 <= i < |a.dimensions| :: a.dimensions[i].Kind() == Set)
               && a.metadata == Some(path)
  {
    var w := WriteEntry(sec, path, Entry(k, Grid(kind, shape, cells)), blk);
    assert !IsEmpty(Grid(kind, shape, cells));
    assert w == WriteArrayRef(sec, path, k, kind, shape, cells, blk);
    assert w.value.blk.arrays[|blk.arrays|].id == ArrayId(|blk.arrays|);
  }

  /** Reading back the property of a multidimensional value gives its
      array's id, passed through the value's class: the characters of the
      id for a list or tuple, a zero-dimensional array for a numpy array. */
  lemma {:induction false} MatrixReadsBackAsId(k: string, kind: SeqKind, id: string)
    ensures ConvertProp(Property(k, [StrAtom(id)], ClassTag(KindClassName(kind))))
            == Ok(match kind
                  case ListKind => PyList(Chars(id))
                  case TupleKind => PyTuple(Chars(id))
                  case ArrayKind => PyArray([], [StrAtom(id)]))
  {
    TagDecodesToClass(KindClassName(kind));
    assert Unwrap([StrAtom(id)]) == Bare(StrAtom(id));
  }

  /** A scalar of a class the reader does not register is written, but its
      property makes the reader raise KeyError with the class name. */
  lemma {:induction false} UnregisteredClassRefused(k: string, name: string, a: Atom)
    requires forall t: PyType :: TypeName(t) != name
    ensures ConvertProp(LeafProperty(Entry(k, Scalar(OtherScalar(name), a)))) == Err(KeyError(name))
  {
    TagDecodesToClass(name);
    LookupTypeExact(name);
  }

  // ---------------------------------------------------------------------
  // The skip test

  /** A numpy value with more than one element makes the source's skip
      test raise ValueError: the 4x4 matrix of every MNE transform does. */
  lemma {:induction false} SkipAsWrittenRaises(shape: GridShape, cells: seq<Atom>)
    requires |cells| >= 2
    ensures SkipsAsWritten(Grid(ArrayKind, shape, cells)) == Err(ValueError)
  {
  }

  lemma {:induction false} TransformMatrixRaises()
    ensures SkipsAsWritten(Grid(ArrayKind, [4, 4], seq(16, _ => RealAtom(0.0)))) == Err(ValueError)
  {
    SkipAsWrittenRaises([4, 4], seq(16, _ => RealAtom(0.0)));
  }

  /** Away from numpy arrays the source's skip test is the emptiness test
      the model's writer uses. */
  lemma {:induction false} SkipAsWrittenIsEmptiness(v: MetaValue)
    requires !v.Null? && !v.Scalar?
    requires !(v.Vector? && v.kind == ArrayKind) && !(v.Grid? && v.kind == ArrayKind)
    requires !(v.RecordList? && v.kind == ArrayKind)
    ensures SkipsAsWritten(v) == Ok(IsEmpty(v))
  {
  }

  /** A numpy array with no cells but a non-empty first axis, such as one of
      shape (3, 0), is false, so the source skips it; the emptiness test
      looks at the first axis only, and the writer stores the array. */
  lemma {:induction false} ZeroCellArrayWritten(sec: Section, path: seq<string>, k: string, n: nat, blk: Block)
    requires n > 0 && k !in ArrayNames(blk.arrays) && k !in PropNames(sec.props)
    ensures SkipsAsWritten(Grid(ArrayKind, [n, 0], [])) == Ok(true)
    ensures !IsEmpty(Grid(ArrayKind, [n, 0], []))
    ensures WriteEntry(sec, path, Entry(k, Grid(ArrayKind, [n, 0], [])), blk).Ok?
  {
    MatrixStoredAsArray(sec, path, k, ArrayKind, [n, 0], [], blk);
  }

  /** The corrected writer stores the same transform matrix as an array. */
  lemma {:induction false} TransformMatrixStored(sec: Section, path: seq<string>, blk: Block)
    requires "trans" !in ArrayNames(blk.arrays) && "trans" !in PropNames(sec.props)
    ensures WriteEntry(sec, path, Entry("trans", Grid(ArrayKind, [4, 4], seq(16, _ => RealAtom(0.0)))), blk).Ok?
  {
    MatrixStoredAsArray(sec, path, "trans", ArrayKind, [4, 4], seq(16, _ => RealAtom(0.0)), blk);
  }
}

=== FILE: md_reader.dfy ===
/** The NIX-to-MNE metadata reader: `typemap`, `convert_prop_type` and
    `md_to_dict` in nixworks/converters/mne/nix2mne.py.

    A property's type tag is decoded by cutting the `<class '...'>`
    wrapper and looking the name up in a closed registry of eight Python
    types; its stored values are unwrapped when there is exactly one and
    passed to the registered constructor. A section becomes a dict of its
    properties and children, a child called "chs" becomes a list of dicts,
    and a section typed as an MNE transform becomes a transform object.
 */
module MdReader {
  import opened Results
  import opened Nix
  import opened Metadata
  import Text

  /** The keys of `typemap`. */
  datatype PyType = StrType | IntType | FloatType | BoolType | TupleType | ListType | Float64Type | NdArrayType

  function TypeName(t: PyType): string {
    match t
    case StrType => "str"
    case IntType => "int"
    case FloatType => "float"
    case BoolType => "bool"
    case TupleType => "tuple"
    case ListType => "list"
    case Float64Type => "numpy.float64"
    case NdArrayType => "numpy.ndarray"
  }

  /** `typemap[name]`: a name outside the registry is a KeyError, never a
      fallback. */
  function LookupType(name: string): (r: Result<PyType>)
    ensures r.Ok? ==> TypeName(r.value) == name
    ensures r.Err? ==> r.error == KeyError(name)
  {
    match name
    case "str" => Ok(StrType)
    case "int" => Ok(IntType)
    case "float" => Ok(FloatType)
    case "bool" => Ok(BoolType)
    case "tuple" => Ok(TupleType)
    case "list" => Ok(ListType)
    case "numpy.float64" => Ok(Float64Type)
    case "numpy.ndarray" => Ok(NdArrayType)
    case _ => Err(KeyError(name))
  }

  /** Every registered type is found under its own name, and only those. */
  lemma LookupTypeExact(name: string)
    ensures LookupType(name).Ok? <==> exists t :: TypeName(t) == name
    ensures forall t :: LookupType(TypeName(t)) == Ok(t)
  {
    forall t
      ensures LookupType(TypeName(t)) == Ok(t)
    {
      match t
      case StrType =>
      case IntType =>
      case FloatType =>
      case BoolType =>
      case TupleType =>
      case ListType =>
      case Float64Type =>
      case NdArrayType =>
    }
  }

  /** `prop.type[8:-2]`. */
  function TagTypeName(tag: string): (name: string)
    ensures 10 <= |tag| ==> name == tag[8..|tag| - 2]
    ensures |tag| <= 10 ==> name == ""
  {
    Text.PySlice(tag, 8, -2)
  }

  /** The writer's tag `str(val.__class__)` decodes to exactly the class
      name it was made from. */
  lemma TagDecodesToClass(cls: string)
    ensures TagTypeName(ClassTag(cls)) == cls
  {
  }

  /** What `convert_prop_type` passes to the constructor: the sole element
      of a one-element value list, otherwise the whole tuple. */
  datatype Payload = Bare(atom: Atom) | Many(atoms: seq<Atom>)

  function Unwrap(values: seq<Atom>): (pv: Payload)
    ensures pv.Bare? <==> |values| == 1
    ensures pv.Bare? ==> pv.atom == values[0]
    ensures pv.Many? ==> pv.atoms == values
  {
    if |values| == 1 then Bare(values[0]) else Many(values)
  }

  /** Python's `int(x)` of a float: truncation toward zero. */
  function Trunc(x: real): (i: int)
    ensures 0.0 <= x ==> i as real <= x < i as real + 1.0
    ensures x < 0.0 ==> i as real - 1.0 < x <= i as real
  {
    if x >= 0.0 then x.Floor else -((-x).Floor)
  }

  /** Iterating a string yields its characters. */
  function Chars(s: string): (cs: seq<PyValue>)
    ensures |cs| == |s|
    ensures forall i | 0 <= i < |s| :: cs[i] == PyStr([s[i]])
  {
    seq(|s|, i requires 0 <= i < |s| => PyStr([s[i]]))
  }

  /** `typemap[pt](pv)`: the registered constructor applied to the payload.
      Conversions that would parse or print a float as text are not
      evaluated (`Unmodelled`). */
  function Construct(t: PyType, pv: Payload): (r: Result<PyValue>)
    ensures pv.Bare? && t == IntType && pv.atom.IntAtom? ==> r == Ok(PyInt(pv.atom.i))
    ensures pv.Bare? && t == FloatType && pv.atom.RealAtom? ==> r == Ok(PyFloat(pv.atom.r))
    ensures pv.Bare? && t == BoolType && pv.atom.BoolAtom? ==> r == Ok(PyBool(pv.atom.b))
    ensures pv.Bare? && t == StrType && pv.atom.StrAtom? ==> r == Ok(PyStr(pv.atom.s))
    ensures pv.Bare? && t == Float64Type && pv.atom.RealAtom? ==> r == Ok(PyFloat64(pv.atom.r))
    ensures pv.Many? && t == ListType ==> r == Ok(PyList(AtomValues(pv.atoms)))
    ensures pv.Many? && t == TupleType ==> r == Ok(PyTuple(AtomValues(pv.atoms)))
    ensures pv.Bare? && (t == ListType || t == TupleType) && !pv.atom.StrAtom? ==> r == Err(TypeError)
    ensures pv.Many? && (t == IntType || t == FloatType) ==> r == Err(TypeError)
  {
    match (t, pv)
    case (StrType, Bare(StrAtom(s))) => Ok(PyStr(s))
    case (StrType, Bare(IntAtom(i))) => Ok(PyStr(Text.IntToString(i)))
    case (StrType, Bare(BoolAtom(b))) => Ok(PyStr(if b then "True" else "False"))
    case (StrType, Many(xs)) => if xs == [] then Ok(PyStr("()")) else Err(Unmodelled)
    case (StrType, _) => Err(Unmodelled)
    case (IntType, Bare(IntAtom(i))) => Ok(PyInt(i))
    case (IntType, Bare(RealAtom(x))) => Ok(PyInt(Trunc(x)))
    case (IntType, Bare(BoolAtom(b))) => Ok(PyInt(if b then 1 else 0))
    case (IntType, Bare(StrAtom(_))) => Err(Unmodelled)
    case (FloatType, Bare(IntAtom(i))) => Ok(PyFloat(i as real))
    case (FloatType, Bare(RealAtom(x))) => Ok(PyFloat(x))
    case (FloatType, Bare(BoolAtom(b))) => Ok(PyFloat(if b then 1.0 else 0.0))
    case (FloatType, Bare(StrAtom(_))) => Err(Unmodelled)
    case (Float64Type, Bare(IntAtom(i))) => Ok(PyFloat64(i as real))
    case (Float64Type, Bare(RealAtom(x))) => Ok(PyFloat64(x))
    case (Float64Type, Bare(BoolAtom(b))) => Ok(PyFloat64(if b then 1.0 else 0.0))
    case (Float64Type, _) => Err(Unmodelled)
    case (IntType, Many(_)) => Err(TypeError)
    case (FloatType, Many(_)) => Err(TypeError)
    case (BoolType, Bare(a)) => Ok(PyBool(Truthy(a)))
    case (BoolType, Many(xs)) => Ok(PyBool(|xs| > 0))
    case (TupleType, Bare(StrAtom(s))) => Ok(PyTuple(Chars(s)))
    case (TupleType, Bare(_)) => Err(TypeError)
    case (TupleType, Many(xs)) => Ok(PyTuple(AtomValues(xs)))
    case (ListType, Bare(StrAtom(s))) => Ok(PyList(Chars(s)))
    case (ListType, Bare(_)) => Err(TypeError)
    case (ListType, Many(xs)) => Ok(PyList(AtomValues(xs)))
    case (NdArrayType, Bare(a)) => Ok(PyArray([], [a]))
    case (NdArrayType, Many(xs)) => if Homogeneous(xs) then Ok(PyArray([|xs|], xs)) else Err(Unmodelled)
  }

  /** `convert_prop_type(prop)`. */
  function ConvertProp(p: Property): (r: Result<PyValue>)
    ensures LookupType(TagTypeName(p.typeName)).Err? ==> r == Err(KeyError(TagTypeName(p.typeName)))
    ensures LookupType(TagTypeName(p.typeName)).Ok? ==>
              r == Construct(LookupType(TagTypeName(p.typeName)).value, Unwrap(p.values))
  {
    var t :- LookupType(TagTypeName(p.typeName));
    Construct(t, Unwrap(p.values))
  }

  /** `d[k] = v` has exactly the keys of `d` and `k`. */
  lemma DictSetHasKey(d: seq<PyEntry>, k: string, v: PyValue, x: string)
    ensures x in PyKeys(DictSet(d, k, v)) <==> x in PyKeys(d) || x == k
  {
    var r := DictSet(d, k, v);
    if k in PyKeys(d) {
      assert PyKeys(r) == PyKeys(d);
    } else {
      assert PyKeys(r) == PyKeys(d) + [k];
    }
  }

  /** Every property converts. */
  predicate AllConvert(ps: seq<Property>) {
    forall i | 0 <= i < |ps| :: ConvertProp(ps[i]).Ok?
  }

  /** `for prop in section.props: sdict[prop.name] = convert_prop_type(prop)`. */
  function ReadProps(ps: seq<Property>, d: seq<PyEntry>): (r: Result<seq<PyEntry>>)
    ensures r.Err? ==> exists i | 0 <= i < |ps| :: ConvertProp(ps[i]) == Err(r.error)
  {
    if ps == [] then Ok(d)
    else
      var v :- ConvertProp(ps[0]);
      var r := ReadProps(ps[1..], DictSet(d, ps[0].name, v));
      assert r.Err? ==> exists i | 1 <= i < |ps| :: ConvertProp(ps[i]) == Err(r.error) by {
        if r.Err? {
          var j :| 0 <= j < |ps| - 1 && ConvertProp(ps[1..][j]) == Err(r.error);
          assert ps[1..][j] == ps[j + 1];
        }
      }
      r
  }

  /** A property that converts is stored under its name before the rest are read. */
  lemma {:induction false} ReadPropsCons(ps: seq<Property>, d: seq<PyEntry>, v: PyValue)
    requires ps != [] && ConvertProp(ps[0]) == Ok(v)
    ensures ReadProps(ps, d) == ReadProps(ps[1..], DictSet(d, ps[0].name, v))
  {
  }

  /** A property whose name is new to the dict is appended to it. */
  lemma {:induction false} ReadPropsFresh(ps: seq<Property>, d: seq<PyEntry>, v: PyValue)
    requires ps != [] && ConvertProp(ps[0]) == Ok(v) && ps[0].name !in PyKeys(d)
    ensures ReadProps(ps, d) == ReadProps(ps[1..], d + [PyEntry(ps[0].name, v)])
  {
    ReadPropsCons(ps, d, v);
  }

  /** Reading the properties succeeds exactly when every one converts. */
  lemma {:induction false} ReadPropsTotal(ps: seq<Property>, d: seq<PyEntry>)
    ensures ReadProps(ps, d).Ok? <==> AllConvert(ps)
  {
    if ps != [] {
      assert AllConvert(ps) <==> ConvertProp(ps[0]).Ok? && AllConvert(ps[1..]) by {
        assert forall i | 0 <= i < |ps| - 1 :: ps[1..][i] == ps[i + 1];
      }
      var c := ConvertProp(ps[0]);
      if c.Ok? {
        ReadPropsTotal(ps[1..], DictSet(d, ps[0].name, c.value));
      }
    }
  }

  /** Reading the properties adds one key per property name: a later
      property of the same name overwrites, it does not add a second key. */
  lemma {:induction false} ReadPropsKeys(ps: seq<Property>, d: seq<PyEntry>)
    ensures ReadProps(ps, d).Ok? ==> forall x :: x in PyKeys(ReadProps(ps, d).value) <==> x in PyKeys(d) || x in PropNames(ps)
  {
    if ps != [] {
      var c := ConvertProp(ps[0]);
      if c.Ok? {
        var d' := DictSet(d, ps[0].name, c.value);
        assert ReadProps(ps, d) == ReadProps(ps[1..], d');
        var r := ReadProps(ps[1..], d');
        if r.Ok? {
          forall x
            ensures x in PyKeys(r.value) <==> x in PyKeys(d) || x in PropNames(ps)
          {
            ReadPropsKeys(ps[1..], d');
            DictSetHasKey(d, ps[0].name, c.value, x);
            assert PropNames(ps) == [ps[0].name] + PropNames(ps[1..]);
          }
        }
      }
    }
  }

  /** `section.referring_data_arrays`: the arrays linked to the section at
      `path`, in file order. */
  function Referring(arrays: seq<DataArray>, path: seq<string>): (rs: seq<DataArray>)
    ensures forall a | a in rs :: a in arrays && a.metadata == Some(path)
    ensures forall a | a in arrays && a.metadata == Some(path) :: a in rs
  {
    if arrays == [] then []
    else (if arrays[0].metadata == Some(path) then [arrays[0]] else []) + Referring(arrays[1..], path)
  }

  /** The transform special case: "to", "from" and "trans" must all have
      been read; the matrix itself comes from the first referring array. */
  function ReadTransform(d: seq<PyEntry>, path: seq<string>, arrays: seq<DataArray>): (r: Result<PyValue>)
    ensures r.Ok? <==> "to" in PyKeys(d) && "from" in PyKeys(d) && "trans" in PyKeys(d) && |Referring(arrays, path)| > 0
    ensures r.Ok? ==> r.value == PyTransform(DictGet(d, "from").value, DictGet(d, "to").value,
                                             Content(Referring(arrays, path)[0]))
  {
    var to :- DictGet(d, "to");
    var fro :- DictGet(d, "from");
    var _ :- DictGet(d, "trans");
    var refs := Referring(arrays, path);
    if |refs| == 0 then Err(IndexError) else Ok(PyTransform(fro, to, Content(refs[0])))
  }

  predicate IsTransformSection(s: Section) {
    TagTypeName(s.typeName) == TRANSFORM_CLASS
  }

  /** `md_to_dict(section)`; `path` names the section from the file root and
      `arrays` are all arrays of the file. */
  function ReadSection(s: Section, path: seq<string>, arrays: seq<DataArray>): (r: Result<PyValue>)
    ensures r.Ok? && IsTransformSection(s) ==> r.value.PyTransform?
    ensures r.Ok? && !IsTransformSection(s) ==> r.value.PyDict?
    decreases s, 0
  {
    var d :- ReadProps(s.props, []);
    if IsTransformSection(s) then ReadTransform(d, path, arrays)
    else
      var d' :- ReadChildren(s.sections, path, arrays, d);
      Ok(PyDict(d'))
  }

  /** `for sec in section.sections: ...` */
  function ReadChildren(cs: seq<Section>, path: seq<string>, arrays: seq<DataArray>, d: seq<PyEntry>)
    : (r: Result<seq<PyEntry>>)
    decreases cs, 0
  {
    if cs == [] then Ok(d)
    else
      var d' :- ReadChild(cs[0], path, arrays, d);
      ReadChildren(cs[1..], path, arrays, d')
  }

  /** The first child is read into the dict before the rest. */
  lemma {:induction false} ReadChildrenCons(cs: seq<Section>, path: seq<string>, arrays: seq<DataArray>,
                                            d: seq<PyEntry>, d': seq<PyEntry>)
    requires cs != [] && ReadChild(cs[0], path, arrays, d) == Ok(d')
    ensures ReadChildren(cs, path, arrays, d) == ReadChildren(cs[1..], path, arrays, d')
  {
  }

  /** One child section: "chs" becomes a list of dicts (and no key at all
      when it has no subsections); any other child a nested value. */
  function ReadChild(c: Section, path: seq<string>, arrays: seq<DataArray>, d: seq<PyEntry>)
    : (r: Result<seq<PyEntry>>)
    ensures r.Ok? ==> |r.value| >= |d|
    ensures r.Ok? && c.name == "chs" && c.sections == [] ==> r.value == d
    ensures r.Ok? && (c.name != "chs" || c.sections != []) ==> DictGet(r.value, c.name).Ok?
    ensures r.Ok? ==> forall i | 0 <= i < |d| && d[i].key != c.name :: r.value[i] == d[i]
    decreases c, 1
  {
    if c.name == "chs" then
      var items :- ReadList(c.sections, path + [c.name], arrays);
      if items == [] then Ok(d)
      else DictSetGet(d, c.name, PyList(items)); Ok(DictSet(d, c.name, PyList(items)))
    else
      var v :- ReadSection(c, path + [c.name], arrays);
      DictSetGet(d, c.name, v); Ok(DictSet(d, c.name, v))
  }

  /** `[md_to_dict(chsec) for chsec in sec.sections]`, in order. */
  function ReadList(cs: seq<Section>, path: seq<string>, arrays: seq<DataArray>): (r: Result<seq<PyValue>>)
    ensures r.Ok? ==> |r.value| == |cs|
    decreases cs, 0
  {
    if cs == [] then Ok([])
    else
      var v :- ReadSection(cs[0], path + [cs[0].name], arrays);
      var vs :- ReadList(cs[1..], path, arrays);
      Ok([v] + vs)
  }
}

=== FILE: md_roundtrip.dfy ===
/** Writing an info mapping with `create_md_tree` and reading it back with
    `md_to_dict`.

    `Built` describes, without a block, the section tree the writer
    produces for a mapping that needs no array; `Canon` is the Python value
    the reader hands back: the same items as the original mapping, with a
    section's properties ahead of its child sections. The round trip holds
    for the mappings `RecRT` describes; the remaining lemmas pin down what
    is lost outside it.
 */
module MdRoundTrip {
  import opened Results
  import opened Nix
  import opened Metadata
  import opened MdWriter
  import opened MdReader
  import Text

  /** A value the writer stores as one property. */
  predicate IsLeaf(v: MetaValue) {
    v.Scalar? || v.Text? || v.Vector?
  }

  /** A value the writer stores as a child section. */
  predicate IsNested(v: MetaValue) {
    v.Record? || v.RecordList?
  }

  /** A scalar whose class the reader's registry knows and whose stored
      element has that class's type. */
  predicate ScalarRT(c: ScalarClass, a: Atom) {
    match c
    case IntClass => a.IntAtom?
    case FloatClass => a.RealAtom?
    case BoolClass => a.BoolAtom?
    case Float64Class => a.RealAtom?
    case OtherScalar(_) => false
  }

  /** A leaf that comes back unchanged: non-empty text, or a sequence of at
      least two elements of one type. */
  predicate LeafRT(v: MetaValue) {
    match v
    case Scalar(c, a) => ScalarRT(c, a)
    case Text(s) => |s| > 0
    case Vector(_, items) => |items| >= 2 && Homogeneous(items)
    case _ => false
  }

  /** A mapping that comes back unchanged: unique keys, not a transform,
      and every entry round-trips. */
  predicate RecRT(r: Rec)
    decreases r, 1
  {
    && r.cls != TRANSFORM_CLASS
    && UniqueKeys(r.entries)
    && forall i | 0 <= i < |r.entries| :: EntryRT(r.entries[i])
  }

  /** An entry that comes back unchanged: the key "chs" holds exactly the
      lists of mappings, which must be Python lists; nested mappings are
      non-empty. */
  predicate EntryRT(e: Entry)
    decreases e, 0
  {
    && (e.key == "chs" <==> e.value.RecordList?)
    && match e.value
       case Record(r) => |r.entries| > 0 && RecRT(r)
       case RecordList(kind, first, rest) =>
         && kind == ListKind
         && RecRT(first)
         && forall i | 0 <= i < |rest| :: rest[i].Record? && RecRT(rest[i].rec)
       case _ => LeafRT(e.value)
  }

  predicate EntriesRT(es: seq<Entry>) {
    UniqueKeys(es) && forall i | 0 <= i < |es| :: EntryRT(es[i])
  }

  /** The part of `EntriesRT` the leaf properties depend on. */
  predicate LeavesRT(es: seq<Entry>) {
    UniqueKeys(es) && forall i | 0 <= i < |es| && IsLeaf(es[i].value) :: LeafRT(es[i].value)
  }

  lemma {:induction false} EntriesLeavesRT(es: seq<Entry>)
    requires EntriesRT(es)
    ensures LeavesRT(es)
  {
    forall i | 0 <= i < |es| && IsLeaf(es[i].value)
      ensures LeafRT(es[i].value)
    {
      assert EntryRT(es[i]);
    }
  }

  lemma {:induction false} LeavesTail(es: seq<Entry>)
    requires LeavesRT(es) && es != []
    ensures LeavesRT(es[1..])
    ensures forall i | 0 <= i < |es| - 1 :: es[1..][i] == es[i + 1]
    ensures forall i | 0 <= i < |es| - 1 :: es[1..][i].key != es[0].key
  {
    assert forall i | 0 <= i < |es| - 1 :: es[1..][i] == es[i + 1];
  }

  /** The Python value of a scalar. */
  function ScalarValue(c: ScalarClass, a: Atom): PyValue {
    match c
    case Float64Class => if a.RealAtom? then PyFloat64(a.r) else PyObject("numpy.float64", a)
    case OtherScalar(name) => PyObject(name, a)
    case _ => AtomValue(a)
  }

  /** The Python value of a leaf. */
  function LeafValue(v: MetaValue): PyValue
    requires IsLeaf(v)
  {
    match v
    case Scalar(c, a) => ScalarValue(c, a)
    case Text(s) => PyStr(s)
    case Vector(ListKind, xs) => PyList(AtomValues(xs))
    case Vector(TupleKind, xs) => PyTuple(AtomValues(xs))
    case Vector(ArrayKind, xs) => PyArray([|xs|], xs)
  }

  /** The Python value of a metadata value, with every mapping's leaf items
      ahead of its nested items and lists of mappings as lists. */
  function Canon(v: MetaValue): PyValue
    decreases v, 1
  {
    match v
    case Null => PyNone
    case Grid(_, shape, cells) => PyArray(shape, cells)
    case Record(r) => PyDict(CanonEntries(r.entries))
    case RecordList(_, first, rest) => PyList([PyDict(CanonEntries(first.entries))] + CanonItems(rest))
    case _ => LeafValue(v)
  }

  function CanonItems(vs: seq<MetaValue>): (ps: seq<PyValue>)
    ensures |ps| == |vs|
    decreases vs, 0
  {
    if vs == [] then [] else [Canon(vs[0])] + CanonItems(vs[1..])
  }

  function CanonEntries(es: seq<Entry>): seq<PyEntry>
    decreases es, 1
  {
    LeafEntries(es) + NestedEntries(es)
  }

  function LeafEntries(es: seq<Entry>): seq<PyEntry> {
    if es == [] then []
    else (if IsLeaf(es[0].value) then [PyEntry(es[0].key, LeafValue(es[0].value))] else [])
         + LeafEntries(es[1..])
  }

  function NestedEntries(es: seq<Entry>): seq<PyEntry>
    decreases es, 0
  {
    if es == [] then []
    else (if IsNested(es[0].value) then [PyEntry(es[0].key, Canon(es[0].value))] else [])
         + NestedEntries(es[1..])
  }

  /** The mapping's items in insertion order. */
  function InOrder(es: seq<Entry>): (d: seq<PyEntry>)
    ensures |d| == |es|
    ensures forall i | 0 <= i < |es| :: d[i] == PyEntry(es[i].key, Canon(es[i].value))
  {
    seq(|es|, i requires 0 <= i < |es| => PyEntry(es[i].key, Canon(es[i].value)))
  }

  /** What the reader returns holds exactly the mapping's items: for a
      mapping of leaves and nested values it is a permutation of the items
      in insertion order, which Python compares equal to the original. */
  lemma {:induction false} CanonIsPermutation(es: seq<Entry>)
    requires forall i | 0 <= i < |es| :: IsLeaf(es[i].value) || IsNested(es[i].value)
    ensures multiset(CanonEntries(es)) == multiset(InOrder(es))
  {
    if es != [] {
      var rest := es[1..];
      var e := PyEntry(es[0].key, Canon(es[0].value));
      CanonIsPermutation(rest);
      var hl := if IsLeaf(es[0].value) then [PyEntry(es[0].key, LeafValue(es[0].value))] else [];
      var hn := if IsNested(es[0].value) then [e] else [];
      assert LeafEntries(es) == hl + LeafEntries(rest);
      assert NestedEntries(es) == hn + NestedEntries(rest);
      MultisetRegroup(hl, LeafEntries(rest), hn, NestedEntries(rest));
      if IsLeaf(es[0].value) {
        assert Canon(es[0].value) == LeafValue(es[0].value);
      }
      assert multiset(hl) + multiset(hn) == multiset{e};
      assert InOrder(es) == [e] + InOrder(rest);
    }
  }

  lemma MultisetRegroup<T>(a: seq<T>, b: seq<T>, c: seq<T>, d: seq<T>)
    ensures multiset((a + b) + (c + d)) == multiset(a) + multiset(c) + multiset(b + d)
  {
  }

  /** The stored elements of a leaf the writer can store as they are. */
  function LeafAtoms(v: MetaValue): seq<Atom>
    requires IsLeaf(v)
  {
    match v
    case Scalar(_, a) => [a]
    case Text(s) => [StrAtom(s)]
    case Vector(_, items) => items
  }

  function LeafProperty(e: Entry): Property
    requires IsLeaf(e.value)
  {
    Property(e.key, LeafAtoms(e.value), ClassTag(ClassName(e.value)))
  }

  /** The section `create_md_tree` leaves behind for a mapping that needs
      no array: leaf properties in order, then child sections in order. */
  function Built(name: string, tag: string, path: seq<string>, es: seq<Entry>): Section
    decreases EntriesSize(es), 2
  {
    Section(name, tag, LeafProps(es), NestedSections(path, es))
  }

  function LeafProps(es: seq<Entry>): seq<Property> {
    if es == [] then []
    else (if IsLeaf(es[0].value) then [LeafProperty(es[0])] else []) + LeafProps(es[1..])
  }

  function NestedSections(path: seq<string>, es: seq<Entry>): seq<Section>
    decreases EntriesSize(es), 1
  {
    if es == [] then []
    else (if IsNested(es[0].value) then [ChildSection(path, es[0])] else []) + NestedSections(path, es[1..])
  }

  /** The child section of a nested entry: a mapping's own section, or a
      holder typed with the list's class and holding `k-0`, `k-1`, ... */
  function ChildSection(path: seq<string>, e: Entry): Section
    requires IsNested(e.value)
    decreases ValueSize(e.value), 0
  {
    var k := e.key;
    match e.value
    case Record(r) => Built(k, ClassTag(r.cls), path + [k], r.entries)
    case RecordList(kind, r0, rest) =>
      var n0 := Text.IndexedName(k, 0);
      Section(k, ClassTag(KindClassName(kind)), [],
              [Built(n0, ClassTag(r0.cls), path + [k] + [n0], r0.entries)] + BuiltItems(path + [k], k, rest, 1))
  }

  /** The subsections `k-idx`, `k-(idx+1)`, ... of a list of mappings. */
  function BuiltItems(path: seq<string>, k: string, items: seq<MetaValue>, idx: nat): (ss: seq<Section>)
    ensures |ss| == |items|
    decreases ItemsSize(items), 1
  {
    if items == [] then [] else [ItemSection(path, k, items[0], idx)] + BuiltItems(path, k, items[1..], idx + 1)
  }

  /** The subsection `k-idx` for one element of a list of mappings. */
  function ItemSection(path: seq<string>, k: string, item: MetaValue, idx: nat): Section
    decreases ValueSize(item), 0
  {
    var n := Text.IndexedName(k, idx);
    match item
    case Record(r) => Built(n, ClassTag(r.cls), path + [n], r.entries)
    case _ => Section(n, ClassTag(ClassName(item)), [], [])
  }

  // ---------------------------------------------------------------------
  // The writer side

  lemma {:induction false} PropNamesAppend(ps: seq<Property>, p: Property)
    ensures PropNames(ps + [p]) == PropNames(ps) + [p.name]
  {
  }

  lemma {:induction false} SectionNamesAppend(ss: seq<Section>, s: Section)
    ensures SectionNames(ss + [s]) == SectionNames(ss) + [s.name]
  {
  }

  lemma {:induction false} UniqueTail(es: seq<Entry>)
    requires EntriesRT(es) && es != []
    ensures EntriesRT(es[1..])
    ensures forall i | 0 <= i < |es| - 1 :: es[1..][i] == es[i + 1]
    ensures forall i | 0 <= i < |es| - 1 :: es[1..][i].key != es[0].key
  {
    assert forall i | 0 <= i < |es| - 1 :: es[1..][i] == es[i + 1];
  }

  /** No key of `es` is yet a property or a child of `sec`. */
  predicate KeysFresh(sec: Section, es: seq<Entry>) {
    forall i | 0 <= i < |es| :: es[i].key !in PropNames(sec.props) && es[i].key !in SectionNames(sec.sections)
  }

  /** The section once the writer has handled one more entry. */
  function AfterEntry(sec: Section, path: seq<string>, e: Entry): Section {
    if IsLeaf(e.value) then sec.(props := sec.props + [LeafProperty(e)])
    else if IsNested(e.value) then sec.(sections := sec.sections + [ChildSection(path, e)])
    else sec
  }

  /** Handling the first entry, then the rest, appends what `Built` lists. */
  lemma {:induction false} AfterEntryStep(sec: Section, path: seq<string>, es: seq<Entry>)
    requires es != [] && (IsLeaf(es[0].value) || IsNested(es[0].value))
    ensures AfterEntry(sec, path, es[0]).props + LeafProps(es[1..]) == sec.props + LeafProps(es)
    ensures AfterEntry(sec, path, es[0]).sections + NestedSections(path, es[1..]) == sec.sections + NestedSections(path, es)
  {
    if IsLeaf(es[0].value) {
      AfterLeafProps(sec, path, es);
      AfterLeafSections(sec, path, es);
    } else {
      AfterNestedProps(sec, path, es);
      AfterNestedSections(sec, path, es);
    }
  }

  lemma {:induction false} AfterLeafProps(sec: Section, path: seq<string>, es: seq<Entry>)
    requires es != [] && IsLeaf(es[0].value)
    ensures AfterEntry(sec, path, es[0]).props + LeafProps(es[1..]) == sec.props + LeafProps(es)
  {
    assert AfterEntry(sec, path, es[0]).props == sec.props + [LeafProperty(es[0])];
    assert LeafProps(es) == [LeafProperty(es[0])] + LeafProps(es[1..]);
  }

  lemma {:induction false} AfterLeafSections(sec: Section, path: seq<string>, es: seq<Entry>)
    requires es != [] && IsLeaf(es[0].value)
    ensures AfterEntry(sec, path, es[0]).sections + NestedSections(path, es[1..]) == sec.sections + NestedSections(path, es)
  {
    assert AfterEntry(sec, path, es[0]).sections == sec.sections;
    assert NestedSections(path, es) == NestedSections(path, es[1..]);
  }

  lemma {:induction false} AfterNestedProps(sec: Section, path: seq<string>, es: seq<Entry>)
    requires es != [] && IsNested(es[0].value)
    ensures AfterEntry(sec, path, es[0]).props + LeafProps(es[1..]) == sec.props + LeafProps(es)
  {
    assert AfterEntry(sec, path, es[0]).props == sec.props;
    assert LeafProps(es) == LeafProps(es[1..]);
  }

  lemma {:induction false} AfterNestedSections(sec: Section, path: seq<string>, es: seq<Entry>)
    requires es != [] && IsNested(es[0].value)
    ensures AfterEntry(sec, path, es[0]).sections + NestedSections(path, es[1..]) == sec.sections + NestedSections(path, es)
  {
    assert AfterEntry(sec, path, es[0]).sections == sec.sections + [ChildSection(path, es[0])];
    assert NestedSections(path, es) == [ChildSection(path, es[0])] + NestedSections(path, es[1..]);
  }

  lemma {:induction false} WriteEntryBuilds(sec: Section, path: seq<string>, e: Entry, blk: Block)
    requires EntryRT(e)
    requires e.key !in PropNames(sec.props) && e.key !in SectionNames(sec.sections)
    ensures WriteEntry(sec, path, e, blk) == Ok(Written(AfterEntry(sec, path, e), blk))
    ensures forall x | x in PropNames(AfterEntry(sec, path, e).props) :: x in PropNames(sec.props) || x == e.key
    ensures forall x | x in SectionNames(AfterEntry(sec, path, e).sections) :: x in SectionNames(sec.sections) || x == e.key
    decreases ValueSize(e.value), 1
  {
    var k := e.key;
    match e.value {
      case Record(r) =>
        WriteEntriesBuilds(Section(k, ClassTag(r.cls), [], []), path + [k], r.entries, blk);
        assert Section(k, ClassTag(r.cls), [], []).(props := [] + LeafProps(r.entries),
                                                     sections := [] + NestedSections(path + [k], r.entries))
               == ChildSection(path, e);
        SectionNamesAppend(sec.sections, ChildSection(path, e));
      case RecordList(kind, first, rest) =>
        WriteRecordListBuilds(sec, path, k, kind, first, rest, blk);
        SectionNamesAppend(sec.sections, ChildSection(path, e));
      case Scalar(_, _) =>
        PropNamesAppend(sec.props, LeafProperty(e));
      case Text(_) =>
        PropNamesAppend(sec.props, LeafProperty(e));
      case Vector(_, _) =>
        PropNamesAppend(sec.props, LeafProperty(e));
      case Null =>
        assert false;
      case Grid(_, _, _) =>
        assert false;
    }
  }

  lemma {:induction false} KeysFreshTail(sec: Section, path: seq<string>, es: seq<Entry>)
    requires EntriesRT(es) && es != [] && KeysFresh(sec, es)
    requires forall x | x in PropNames(AfterEntry(sec, path, es[0]).props) :: x in PropNames(sec.props) || x == es[0].key
    requires forall x | x in SectionNames(AfterEntry(sec, path, es[0]).sections) :: x in SectionNames(sec.sections) || x == es[0].key
    ensures KeysFresh(AfterEntry(sec, path, es[0]), es[1..])
  {
    UniqueTail(es);
  }

  lemma {:induction false} WriteEntriesStep(sec: Section, path: seq<string>, es: seq<Entry>, blk: Block)
    requires es != [] && (IsLeaf(es[0].value) || IsNested(es[0].value))
    requires WriteEntry(sec, path, es[0], blk) == Ok(Written(AfterEntry(sec, path, es[0]), blk))
    requires var a := AfterEntry(sec, path, es[0]);
             WriteEntries(a, path, es[1..], blk)
             == Ok(Written(a.(props := a.props + LeafProps(es[1..]), sections := a.sections + NestedSections(path, es[1..])), blk))
    ensures WriteEntries(sec, path, es, blk)
            == Ok(Written(sec.(props := sec.props + LeafProps(es), sections := sec.sections + NestedSections(path, es)), blk))
  {
    AfterEntryStep(sec, path, es);
  }

  /** For a round-trippable mapping the writer appends exactly `Built`'s
      properties and sections, and creates no array. */
  lemma {:induction false} WriteEntriesBuilds(sec: Section, path: seq<string>, es: seq<Entry>, blk: Block)
    requires EntriesRT(es) && KeysFresh(sec, es)
    ensures WriteEntries(sec, path, es, blk)
            == Ok(Written(sec.(props := sec.props + LeafProps(es), sections := sec.sections + NestedSections(path, es)), blk))
    decreases EntriesSize(es), 2
  {
    if es != [] {
      UniqueTail(es);
      assert EntryRT(es[0]);
      WriteEntryBuilds(sec, path, es[0], blk);
      KeysFreshTail(sec, path, es);
      WriteEntriesBuilds(AfterEntry(sec, path, es[0]), path, es[1..], blk);
      WriteEntriesStep(sec, path, es, blk);
    } else {
      assert sec.(props := sec.props + LeafProps(es), sections := sec.sections + NestedSections(path, es)) == sec;
    }
  }

  lemma {:induction false} WriteRecordListBuilds(sec: Section, path: seq<string>, k: string, kind: SeqKind, first: Rec,
                                                 rest: seq<MetaValue>, blk: Block)
    requires RecRT(first)
    requires forall i | 0 <= i < |rest| :: rest[i].Record? && RecRT(rest[i].rec)
    requires k !in SectionNames(sec.sections)
    ensures WriteRecordList(sec, path, k, kind, first, rest, blk)
            == Ok(Written(sec.(sections := sec.sections + [ChildSection(path, Entry(k, RecordList(kind, first, rest)))]), blk))
    decreases ValueSize(RecordList(kind, first, rest)), 0
  {
    var holderPath := path + [k];
    var n0 := Text.IndexedName(k, 0);
    var holder := Section(k, ClassTag(KindClassName(kind)), [], []);
    WriteEntriesBuilds(Section(n0, ClassTag(first.cls), [], []), holderPath + [n0], first.entries, blk);
    var b0 := Built(n0, ClassTag(first.cls), holderPath + [n0], first.entries);
    assert WriteChild(holder, holderPath, n0, ClassTag(first.cls), first.entries, blk)
           == Ok(Written(holder.(sections := [b0]), blk));
    forall j | 1 <= j < 1 + |rest|
      ensures Text.IndexedName(k, j) !in SectionNames([b0])
    {
      if Text.IndexedName(k, j) == n0 {
        Text.IndexedNameInjective(k, j, 0);
      }
    }
    WriteItemsBuilds(holder.(sections := [b0]), holderPath, k, rest, 1, blk);
  }

  /** No name `k-j` for the remaining elements is yet a subsection. */
  predicate ItemNamesFresh(holder: Section, k: string, n: nat, idx: nat) {
    forall j | idx <= j < idx + n :: Text.IndexedName(k, j) !in SectionNames(holder.sections)
  }

  lemma {:induction false} ItemNamesFreshTail(holder: Section, k: string, n: nat, idx: nat, s: Section)
    requires 0 < n && ItemNamesFresh(holder, k, n, idx) && s.name == Text.IndexedName(k, idx)
    ensures ItemNamesFresh(holder.(sections := holder.sections + [s]), k, n - 1, idx + 1)
  {
    SectionNamesAppend(holder.sections, s);
    forall j | idx + 1 <= j < idx + 1 + (n - 1)
      ensures Text.IndexedName(k, j) !in SectionNames(holder.sections + [s])
    {
      if Text.IndexedName(k, j) == s.name {
        Text.IndexedNameInjective(k, j, idx);
      }
    }
  }

  /** Writing one round-trippable element of a record list appends its `Built` section. */
  lemma {:induction false} WriteRecordItem(holder: Section, path: seq<string>, k: string, item: MetaValue, idx: nat, blk: Block)
    requires item.Record? && RecRT(item.rec)
    requires Text.IndexedName(k, idx) !in SectionNames(holder.sections)
    ensures WriteItem(holder, path, Text.IndexedName(k, idx), item, blk)
            == Ok(Written(holder.(sections := holder.sections + [ItemSection(path, k, item, idx)]), blk))
    decreases ValueSize(item), 3
  {
    var n := Text.IndexedName(k, idx);
    var r := item.rec;
    assert ValueSize(item) == 1 + EntriesSize(r.entries);
    WriteEntriesBuilds(Section(n, ClassTag(r.cls), [], []), path + [n], r.entries, blk);
    assert [] + LeafProps(r.entries) == LeafProps(r.entries);
    assert [] + NestedSections(path + [n], r.entries) == NestedSections(path + [n], r.entries);
  }

  lemma {:induction false} RecordItemsTail(items: seq<MetaValue>)
    requires items != []
    requires forall i | 0 <= i < |items| :: items[i].Record? && RecRT(items[i].rec)
    ensures forall i | 0 <= i < |items| - 1 :: items[1..][i].Record? && RecRT(items[1..][i].rec)
  {
    assert forall i | 0 <= i < |items| - 1 :: items[1..][i] == items[i + 1];
  }

  lemma {:induction false} WriteItemsStep(holder: Section, path: seq<string>, k: string, items: seq<MetaValue>, idx: nat, blk: Block)
    requires items != []
    requires var h := holder.(sections := holder.sections + [ItemSection(path, k, items[0], idx)]);
             && WriteItem(holder, path, Text.IndexedName(k, idx), items[0], blk) == Ok(Written(h, blk))
             && WriteItems(h, path, k, items[1..], idx + 1, blk)
                == Ok(Written(h.(sections := h.sections + BuiltItems(path, k, items[1..], idx + 1)), blk))
    ensures WriteItems(holder, path, k, items, idx, blk)
            == Ok(Written(holder.(sections := holder.sections + BuiltItems(path, k, items, idx)), blk))
  {
    var s := ItemSection(path, k, items[0], idx);
    assert holder.sections + [s] + BuiltItems(path, k, items[1..], idx + 1)
           == holder.sections + BuiltItems(path, k, items, idx);
  }

  lemma {:induction false} WriteItemsBuilds(holder: Section, path: seq<string>, k: string, items: seq<MetaValue>,
                                            idx: nat, blk: Block)
    requires forall i | 0 <= i < |items| :: items[i].Record? && RecRT(items[i].rec)
    requires ItemNamesFresh(holder, k, |items|, idx)
    ensures WriteItems(holder, path, k, items, idx, blk)
            == Ok(Written(holder.(sections := holder.sections + BuiltItems(path, k, items, idx)), blk))
    decreases ItemsSize(items), 0
  {
    if items != [] {
      var s := ItemSection(path, k, items[0], idx);
      assert ItemsSize(items) == 1 + ValueSize(items[0]) + ItemsSize(items[1..]);
      WriteRecordItem(holder, path, k, items[0], idx, blk);
      ItemNamesFreshTail(holder, k, |items|, idx, s);
      RecordItemsTail(items);
      WriteItemsBuilds(holder.(sections := holder.sections + [s]), path, k, items[1..], idx + 1, blk);
      WriteItemsStep(holder, path, k, items, idx, blk);
    } else {
      assert holder.(sections := holder.sections + BuiltItems(path, k, items, idx)) == holder;
    }
  }

  // ---------------------------------------------------------------------
  // The reader side

  /** A round-trippable leaf property converts back to the leaf's value. */
  lemma {:induction false} LeafConverts(e: Entry)
    requires IsLeaf(e.value) && LeafRT(e.value)
    ensures ConvertProp(LeafProperty(e)) == Ok(LeafValue(e.value))
  {
    var v := e.value;
    TagDecodesToClass(ClassName(v));
    match v {
      case Scalar(c, a) =>
      case Text(s) =>
      case Vector(kind, xs) =>
        assert Unwrap(xs) == Many(xs);
    }
  }

  lemma {:induction false} LeafKeysFrom(es: seq<Entry>, x: string)
    requires forall i | 0 <= i < |es| :: es[i].key != x
    ensures x !in PyKeys(LeafEntries(es))
  {
    if es != [] {
      assert forall i | 0 <= i < |es| - 1 :: es[1..][i] == es[i + 1];
      LeafKeysFrom(es[1..], x);
    }
  }

  /** Under unique keys, no nested entry's key is among the leaf items. */
  lemma {:induction false} NestedKeyNotLeaf(es: seq<Entry>, i: nat)
    requires UniqueKeys(es) && i < |es| && !IsLeaf(es[i].value)
    ensures es[i].key !in PyKeys(LeafEntries(es))
  {
    assert forall j | 0 <= j < |es| - 1 :: es[1..][j] == es[j + 1];
    if i == 0 {
      LeafKeysFrom(es[1..], es[0].key);
    } else {
      NestedKeyNotLeaf(es[1..], i - 1);
    }
  }

  /** No leaf key of `es` is yet a key of `d`. */
  predicate LeafKeysFresh(es: seq<Entry>, d: seq<PyEntry>) {
    forall i | 0 <= i < |es| && IsLeaf(es[i].value) :: es[i].key !in PyKeys(d)
  }

  /** The dict once the reader has handled the first entry's property, if any. */
  function NextLeafDict(es: seq<Entry>, d: seq<PyEntry>): seq<PyEntry>
    requires es != []
  {
    if IsLeaf(es[0].value) then d + [PyEntry(es[0].key, LeafValue(es[0].value))] else d
  }

  lemma {:induction false} LeafKeysFreshTail(es: seq<Entry>, d: seq<PyEntry>)
    requires LeavesRT(es) && es != [] && LeafKeysFresh(es, d)
    ensures LeafKeysFresh(es[1..], NextLeafDict(es, d))
  {
    LeavesTail(es);
    assert PyKeys(d + [PyEntry(es[0].key, PyNone)]) == PyKeys(d) + [es[0].key];
    forall i | 0 <= i < |es| - 1 && IsLeaf(es[1..][i].value)
      ensures es[1..][i].key !in PyKeys(NextLeafDict(es, d))
    {
      if IsLeaf(es[0].value) {
        assert PyKeys(NextLeafDict(es, d)) == PyKeys(d) + [es[0].key];
      }
    }
  }

  lemma {:induction false} ReadLeafStep(es: seq<Entry>, d: seq<PyEntry>)
    requires LeavesRT(es) && es != [] && LeafKeysFresh(es, d)
    requires ReadProps(LeafProps(es[1..]), NextLeafDict(es, d)) == Ok(NextLeafDict(es, d) + LeafEntries(es[1..]))
    ensures ReadProps(LeafProps(es), d) == Ok(d + LeafEntries(es))
  {
    if IsLeaf(es[0].value) {
      ReadLeafHead(es, d);
    } else {
      assert LeafProps(es) == LeafProps(es[1..]);
      assert LeafEntries(es) == LeafEntries(es[1..]);
    }
  }

  lemma ConsAppend(d: seq<PyEntry>, x: PyEntry, rest: seq<PyEntry>, whole: seq<PyEntry>)
    requires whole == [x] + rest
    ensures d + [x] + rest == d + whole
  {
  }

  lemma {:induction false} ReadLeafHead(es: seq<Entry>, d: seq<PyEntry>)
    requires LeavesRT(es) && es != [] && IsLeaf(es[0].value) && LeafKeysFresh(es, d)
    requires ReadProps(LeafProps(es[1..]), NextLeafDict(es, d)) == Ok(NextLeafDict(es, d) + LeafEntries(es[1..]))
    ensures ReadProps(LeafProps(es), d) == Ok(d + LeafEntries(es))
  {
    var e := es[0];
    var x := PyEntry(e.key, LeafValue(e.value));
    var ps := LeafProps(es);
    assert ps == [LeafProperty(e)] + LeafProps(es[1..]);
    assert ps[0] == LeafProperty(e) && ps[1..] == LeafProps(es[1..]);
    LeafConverts(e);
    ReadPropsCons(ps, d, LeafValue(e.value));
    assert e.key !in PyKeys(d);
    assert DictSet(d, e.key, LeafValue(e.value)) == d + [x];
    assert LeafEntries(es) == [x] + LeafEntries(es[1..]);
    ConsAppend(d, x, LeafEntries(es[1..]), LeafEntries(es));
  }

  lemma {:induction false} ReadLeafProps(es: seq<Entry>, d: seq<PyEntry>)
    requires LeavesRT(es) && LeafKeysFresh(es, d)
    ensures ReadProps(LeafProps(es), d) == Ok(d + LeafEntries(es))
  {
    if es == [] {
      assert d + LeafEntries(es) == d;
    } else {
      LeavesTail(es);
      LeafKeysFreshTail(es, d);
      ReadLeafProps(es[1..], NextLeafDict(es, d));
      ReadLeafStep(es, d);
    }
  }

  /** Reading back one child section gives the entry's value under its key. */
  lemma {:induction false} ReadNestedChild(path: seq<string>, e: Entry, arrays: seq<DataArray>, d: seq<PyEntry>)
    requires EntryRT(e) && IsNested(e.value) && e.key !in PyKeys(d)
    ensures ReadChild(ChildSection(path, e), path, arrays, d) == Ok(d + [PyEntry(e.key, Canon(e.value))])
    decreases ValueSize(e.value), 0
  {
    var k := e.key;
    var c := ChildSection(path, e);
    assert DictSet(d, k, Canon(e.value)) == d + [PyEntry(k, Canon(e.value))];
    match e.value {
      case Record(r) =>
        TagDecodesToClass(r.cls);
        ReadBuilt(k, ClassTag(r.cls), path + [k], r.entries, arrays);
      case RecordList(kind, first, rest) =>
        var n0 := Text.IndexedName(k, 0);
        TagDecodesToClass(first.cls);
        ReadBuilt(n0, ClassTag(first.cls), path + [k] + [n0], first.entries, arrays);
        ReadItems(path + [k], k, rest, 1, arrays);
        assert c.sections[1..] == BuiltItems(path + [k], k, rest, 1);
        assert ReadList(c.sections, path + [k], arrays)
               == Ok([PyDict(CanonEntries(first.entries))] + CanonItems(rest));
    }
  }

  /** No nested key of `es` is yet a key of `d`. */
  predicate NestedKeysFresh(es: seq<Entry>, d: seq<PyEntry>) {
    forall i | 0 <= i < |es| && IsNested(es[i].value) :: es[i].key !in PyKeys(d)
  }

  function NextNestedDict(es: seq<Entry>, d: seq<PyEntry>): seq<PyEntry>
    requires es != []
  {
    if IsNested(es[0].value) then d + [PyEntry(es[0].key, Canon(es[0].value))] else d
  }

  lemma {:induction false} NestedKeysFreshTail(es: seq<Entry>, d: seq<PyEntry>)
    requires EntriesRT(es) && es != [] && NestedKeysFresh(es, d)
    ensures NestedKeysFresh(es[1..], NextNestedDict(es, d))
  {
    UniqueTail(es);
    forall i | 0 <= i < |es| - 1 && IsNested(es[1..][i].value)
      ensures es[1..][i].key !in PyKeys(NextNestedDict(es, d))
    {
      if IsNested(es[0].value) {
        assert PyKeys(NextNestedDict(es, d)) == PyKeys(d) + [es[0].key];
      }
    }
  }

  lemma {:induction false} ReadNestedStep(path: seq<string>, es: seq<Entry>, arrays: seq<DataArray>, d: seq<PyEntry>)
    requires es != []
    requires IsNested(es[0].value) ==> ReadChild(ChildSection(path, es[0]), path, arrays, d) == Ok(NextNestedDict(es, d))
    requires ReadChildren(NestedSections(path, es[1..]), path, arrays, NextNestedDict(es, d))
             == Ok(NextNestedDict(es, d) + NestedEntries(es[1..]))
    ensures ReadChildren(NestedSections(path, es), path, arrays, d) == Ok(d + NestedEntries(es))
  {
    if IsNested(es[0].value) {
      ReadNestedHead(path, es, arrays, d);
    } else {
      assert NestedSections(path, es) == NestedSections(path, es[1..]);
      assert NestedEntries(es) == NestedEntries(es[1..]);
    }
  }

  lemma {:induction false} ReadNestedHead(path: seq<string>, es: seq<Entry>, arrays: seq<DataArray>, d: seq<PyEntry>)
    requires es != [] && IsNested(es[0].value)
    requires ReadChild(ChildSection(path, es[0]), path, arrays, d) == Ok(NextNestedDict(es, d))
    requires ReadChildren(NestedSections(path, es[1..]), path, arrays, NextNestedDict(es, d))
             == Ok(NextNestedDict(es, d) + NestedEntries(es[1..]))
    ensures ReadChildren(NestedSections(path, es), path, arrays, d) == Ok(d + NestedEntries(es))
  {
    var e := es[0];
    var x := PyEntry(e.key, Canon(e.value));
    var cs := NestedSections(path, es);
    assert cs == [ChildSection(path, e)] + NestedSections(path, es[1..]);
    assert cs[0] == ChildSection(path, e) && cs[1..] == NestedSections(path, es[1..]);
    ReadChildrenCons(cs, path, arrays, d, NextNestedDict(es, d));
    assert NestedEntries(es) == [x] + NestedEntries(es[1..]);
    ConsAppend(d, x, NestedEntries(es[1..]), NestedEntries(es));
  }

  lemma {:induction false} ReadNested(path: seq<string>, es: seq<Entry>, arrays: seq<DataArray>, d: seq<PyEntry>)
    requires EntriesRT(es) && NestedKeysFresh(es, d)
    ensures ReadChildren(NestedSections(path, es), path, arrays, d) == Ok(d + NestedEntries(es))
    decreases EntriesSize(es), 1
  {
    if es == [] {
      assert d + NestedEntries(es) == d;
    } else {
      UniqueTail(es);
      NestedKeysFreshTail(es, d);
      ReadNested(path, es[1..], arrays, NextNestedDict(es, d));
      if IsNested(es[0].value) {
        assert EntryRT(es[0]);
        ReadNestedChild(path, es[0], arrays, d);
      }
      ReadNestedStep(path, es, arrays, d);
    }
  }

  lemma {:induction false} ReadItems(path: seq<string>, k: string, items: seq<MetaValue>, idx: nat,
                                     arrays: seq<DataArray>)
    requires forall i | 0 <= i < |items| :: items[i].Record? && RecRT(items[i].rec)
    ensures ReadList(BuiltItems(path, k, items, idx), path, arrays) == Ok(CanonItems(items))
    decreases ItemsSize(items), 0
  {
    if items != [] {
      var n := Text.IndexedName(k, idx);
      var r := items[0].rec;
      var rest := items[1..];
      var cs := BuiltItems(path, k, items, idx);
      assert ValueSize(items[0]) == 1 + EntriesSize(r.entries);
      TagDecodesToClass(r.cls);
      ReadBuilt(n, ClassTag(r.cls), path + [n], r.entries, arrays);
      assert items[0] == Record(r);
      assert cs[0] == ItemSection(path, k, items[0], idx) == Built(n, ClassTag(r.cls), path + [n], r.entries);
      assert cs[1..] == BuiltItems(path, k, rest, idx + 1);
      forall i | 0 <= i < |rest|
        ensures rest[i].Record? && RecRT(rest[i].rec)
      {
        assert rest[i] == items[i + 1];
      }
      ReadItems(path, k, rest, idx + 1, arrays);
      ReadListCons(cs, path, arrays, Canon(items[0]), CanonItems(rest));
    }
  }

  /** One step of `ReadList`: the head section's value before the rest's. */
  lemma ReadListCons(cs: seq<Section>, path: seq<string>, arrays: seq<DataArray>, v: PyValue, vs: seq<PyValue>)
    requires cs != []
    requires ReadSection(cs[0], path + [cs[0].name], arrays) == Ok(v)
    requires ReadList(cs[1..], path, arrays) == Ok(vs)
    ensures ReadList(cs, path, arrays) == Ok([v] + vs)
  {
  }

  /** `md_to_dict` of a section `Built` from a round-trippable mapping is
      the mapping's Python value. */
  lemma {:induction false} ReadBuilt(name: string, tag: string, path: seq<string>, es: seq<Entry>,
                                     arrays: seq<DataArray>)
    requires EntriesRT(es)
    requires TagTypeName(tag) != TRANSFORM_CLASS
    ensures ReadSection(Built(name, tag, path, es), path, arrays) == Ok(PyDict(CanonEntries(es)))
    decreases EntriesSize(es), 2
  {
    EntriesLeavesRT(es);
    ReadLeafProps(es, []);
    assert [] + LeafEntries(es) == LeafEntries(es);
    forall i | 0 <= i < |es| && IsNested(es[i].value)
      ensures es[i].key !in PyKeys(LeafEntries(es))
    {
      NestedKeyNotLeaf(es, i);
    }
    ReadNested(path, es, arrays, LeafEntries(es));
  }

  // ---------------------------------------------------------------------
  // The round trip

  /** Writing a round-trippable mapping into a fresh section creates no
      array and leaves exactly the `Built` tree; reading that tree back
      gives the mapping's items, leaves first, which as a Python dict equals
      the mapping (the items are a permutation of the original ones). */
  lemma {:induction false} MetadataRoundTrip(name: string, tag: string, path: seq<string>, rec: Rec, blk: Block,
                                             arrays: seq<DataArray>)
    requires RecRT(rec) && TagTypeName(tag) != TRANSFORM_CLASS
    ensures WriteTree(Section(name, tag, [], []), path, Record(rec), blk)
            == Ok(Written(Built(name, tag, path, rec.entries), blk))
    ensures ReadSection(Built(name, tag, path, rec.entries), path, arrays) == Ok(Canon(Record(rec)))
    ensures multiset(Canon(Record(rec)).entries) == multiset(InOrder(rec.entries))
  {
    MetadataWritesBuilt(name, tag, path, rec, blk);
    ReadBuilt(name, tag, path, rec.entries, arrays);
    MetadataItemsPermuted(rec);
  }

  /** The write half of the round trip. */
  lemma MetadataWritesBuilt(name: string, tag: string, path: seq<string>, rec: Rec, blk: Block)
    requires RecRT(rec)
    ensures WriteTree(Section(name, tag, [], []), path, Record(rec), blk)
            == Ok(Written(Built(name, tag, path, rec.entries), blk))
  {
    var es := rec.entries;
    var sec := Section(name, tag, [], []);
    WriteEntriesBuilds(sec, path, es, blk);
    assert sec.(props := sec.props + LeafProps(es), sections := sec.sections + NestedSections(path, es))
           == Built(name, tag, path, es);
  }

  /** The items read back are those of the mapping, in another order. */
  lemma MetadataItemsPermuted(rec: Rec)
    requires RecRT(rec)
    ensures multiset(Canon(Record(rec)).entries) == multiset(InOrder(rec.entries))
  {
    var es := rec.entries;
    forall i | 0 <= i < |es|
      ensures IsLeaf(es[i].value) || IsNested(es[i].value)
    {
      assert EntryRT(es[i]);
    }
    CanonIsPermutation(es);
  }
}

=== FILE: md_transform.dfy ===
/** The transform special case: a `mne.Transform` mapping ("from", "to"
    and the 4x4 "trans" matrix) is written as a section typed with the
    transform class, whose matrix goes to an array linked to that section;
    the reader rebuilds the transform from the two properties and the first
    array that refers to the section.
 */
module MdTransform {
  import opened Results
  import opened Nix
  import opened Metadata
  import opened MdWriter
  import opened MdReader
  import opened MdRoundTrip

  /** A transform between coordinate frames `fro` and `to`. */
  function TransformRec(fro: int, to: int, shape: GridShape, cells: seq<Atom>): Rec {
    Rec(TRANSFORM_CLASS, [
      Entry("from", Scalar(IntClass, IntAtom(fro))),
      Entry("to", Scalar(IntClass, IntAtom(to))),
      Entry("trans", Grid(ArrayKind, shape, cells))])
  }

  /** Appending an array adds it to the referring arrays of the section it
      is linked to, and of no other. */
  lemma {:induction false} ReferringAppend(arrays: seq<DataArray>, a: DataArray, path: seq<string>)
    ensures Referring(arrays + [a], path)
            == Referring(arrays, path) + (if a.metadata == Some(path) then [a] else [])
  {
    if arrays != [] {
      assert (arrays + [a])[1..] == arrays[1..] + [a];
      ReferringAppend(arrays[1..], a, path);
    }
  }

  /** The array the writer creates for the matrix of a transform written
      at `path`, as the `index`-th array of the block. */
  function MatrixArray(index: nat, path: seq<string>, shape: GridShape, cells: seq<Atom>): DataArray {
    DataArray(ArrayId(index), "trans", MULTIDIM_TYPE, shape, cells, None, None,
              SetDims(|shape|), Some(path))
  }

  /** The section the writer leaves for a transform under key `k`. */
  function TransformSection(k: string, fro: int, to: int, id: string): Section {
    Section(k, ClassTag(TRANSFORM_CLASS), [
      Property("from", [IntAtom(fro)], ClassTag("int")),
      Property("to", [IntAtom(to)], ClassTag("int")),
      Property("trans", [StrAtom(id)], ClassTag("numpy.ndarray"))], [])
  }

  lemma {:induction false} WriteIntLeaf(sec: Section, path: seq<string>, name: string, i: int, blk: Block)
    requires name !in PropNames(sec.props)
    ensures WriteEntry(sec, path, Entry(name, Scalar(IntClass, IntAtom(i))), blk)
            == Ok(Written(sec.(props := sec.props + [Property(name, [IntAtom(i)], ClassTag("int"))]), blk))
  {
  }

  lemma {:induction false} WriteMatrix(sec: Section, path: seq<string>, shape: GridShape, cells: seq<Atom>, blk: Block)
    requires shape[0] > 0
    requires "trans" !in PropNames(sec.props) && "trans" !in ArrayNames(blk.arrays)
    ensures WriteEntry(sec, path, Entry("trans", Grid(ArrayKind, shape, cells)), blk)
            == Ok(Written(sec.(props := sec.props + [Property("trans", [StrAtom(ArrayId(|blk.arrays|))], ClassTag("numpy.ndarray"))]),
                          blk.(arrays := blk.arrays + [MatrixArray(|blk.arrays|, path, shape, cells)])))
  {
    assert !IsEmpty(Grid(ArrayKind, shape, cells));
  }

  /** Two entries then one more: the writer's loop over three items. */
  lemma {:induction false} WriteThree(s0: Section, path: seq<string>, es: seq<Entry>, b0: Block,
                                      s1: Section, s2: Section, s3: Section, b3: Block)
    requires |es| == 3
    requires WriteEntry(s0, path, es[0], b0) == Ok(Written(s1, b0))
    requires WriteEntry(s1, path, es[1], b0) == Ok(Written(s2, b0))
    requires WriteEntry(s2, path, es[2], b0) == Ok(Written(s3, b3))
    ensures WriteEntries(s0, path, es, b0) == Ok(Written(s3, b3))
  {
    WriteEntriesCons(s0, path, es, b0, Written(s1, b0));
    WriteEntriesCons(s1, path, es[1..], b0, Written(s2, b0));
    WriteEntriesCons(s2, path, es[1..][1..], b0, Written(s3, b3));
    assert es[1..][1..][1..] == [];
  }

  lemma {:induction false} WriteTransform(sec: Section, path: seq<string>, k: string, fro: int, to: int,
                                          shape: GridShape, cells: seq<Atom>, blk: Block)
    requires shape[0] > 0
    requires k !in SectionNames(sec.sections) && "trans" !in ArrayNames(blk.arrays)
    ensures WriteEntry(sec, path, Entry(k, Record(TransformRec(fro, to, shape, cells))), blk)
            == Ok(Written(sec.(sections := sec.sections + [TransformSection(k, fro, to, ArrayId(|blk.arrays|))]),
                          blk.(arrays := blk.arrays + [MatrixArray(|blk.arrays|, path + [k], shape, cells)])))
  {
    var p := path + [k];
    var es := TransformRec(fro, to, shape, cells).entries;
    var s0 := Section(k, ClassTag(TRANSFORM_CLASS), [], []);
    var s1 := s0.(props := s0.props + [Property("from", [IntAtom(fro)], ClassTag("int"))]);
    var s2 := s1.(props := s1.props + [Property("to", [IntAtom(to)], ClassTag("int"))]);
    var s3 := s2.(props := s2.props + [Property("trans", [StrAtom(ArrayId(|blk.arrays|))], ClassTag("numpy.ndarray"))]);
    WriteIntLeaf(s0, p, "from", fro, blk);
    assert PropNames(s1.props) == ["from"];
    WriteIntLeaf(s1, p, "to", to, blk);
    assert PropNames(s2.props) == ["from", "to"];
    WriteMatrix(s2, p, shape, cells, blk);
    WriteThree(s0, p, es, blk, s1, s2, s3, blk.(arrays := blk.arrays + [MatrixArray(|blk.arrays|, p, shape, cells)]));
    assert s3 == TransformSection(k, fro, to, ArrayId(|blk.arrays|));
  }

  lemma {:induction false} ConvertIntProp(name: string, i: int)
    ensures ConvertProp(Property(name, [IntAtom(i)], ClassTag("int"))) == Ok(PyInt(i))
  {
    TagDecodesToClass("int");
  }

  lemma {:induction false} ConvertIdProp(id: string)
    ensures ConvertProp(Property("trans", [StrAtom(id)], ClassTag("numpy.ndarray"))) == Ok(PyArray([], [StrAtom(id)]))
  {
    TagDecodesToClass("numpy.ndarray");
    assert Unwrap([StrAtom(id)]) == Bare(StrAtom(id));
  }

  /** Three properties with distinct names that convert read back as
      three entries in order. */
  lemma {:induction false} ReadThreeProps(p0: Property, p1: Property, p2: Property, v0: PyValue, v1: PyValue, v2: PyValue)
    requires p0.name != p1.name && p0.name != p2.name && p1.name != p2.name
    requires ConvertProp(p0) == Ok(v0) && ConvertProp(p1) == Ok(v1) && ConvertProp(p2) == Ok(v2)
    ensures ReadProps([p0, p1, p2], []) == Ok([PyEntry(p0.name, v0), PyEntry(p1.name, v1), PyEntry(p2.name, v2)])
  {
    var e0, e1, e2 := PyEntry(p0.name, v0), PyEntry(p1.name, v1), PyEntry(p2.name, v2);
    ReadLastProp(p2, [e0, e1], v2);
    assert [e0, e1] + [e2] == [e0, e1, e2];
    ReadTwoLast(p1, p2, e0, v1, [e0, e1, e2]);
    ReadPropsFresh([p0, p1, p2], [], v0);
    assert [p0, p1, p2][1..] == [p1, p2] && [] + [e0] == [e0];
  }

  lemma {:induction false} ReadLastProp(p: Property, d: seq<PyEntry>, v: PyValue)
    requires ConvertProp(p) == Ok(v) && p.name !in PyKeys(d)
    ensures ReadProps([p], d) == Ok(d + [PyEntry(p.name, v)])
  {
    ReadPropsFresh([p], d, v);
    assert [p][1..] == [];
  }

  lemma {:induction false} ReadTwoLast(p1: Property, p2: Property, e0: PyEntry, v1: PyValue, r: seq<PyEntry>)
    requires ConvertProp(p1) == Ok(v1) && p1.name != e0.key
    requires ReadProps([p2], [e0, PyEntry(p1.name, v1)]) == Ok(r)
    ensures ReadProps([p1, p2], [e0]) == Ok(r)
  {
    ReadPropsFresh([p1, p2], [e0], v1);
    assert [p1, p2][1..] == [p2] && [e0] + [PyEntry(p1.name, v1)] == [e0, PyEntry(p1.name, v1)];
  }

  /** The three properties of a transform section read back in order. */
  lemma {:induction false} ReadTransformProps(k: string, fro: int, to: int, id: string)
    ensures ReadProps(TransformSection(k, fro, to, id).props, [])
            == Ok([PyEntry("from", PyInt(fro)), PyEntry("to", PyInt(to)), PyEntry("trans", PyArray([], [StrAtom(id)]))])
  {
    ConvertIntProp("from", fro);
    ConvertIntProp("to", to);
    ConvertIdProp(id);
    assert |"from"| == 4 && |"to"| == 2 && |"trans"| == 5;
    ReadThreeProps(Property("from", [IntAtom(fro)], ClassTag("int")), Property("to", [IntAtom(to)], ClassTag("int")),
                   Property("trans", [StrAtom(id)], ClassTag("numpy.ndarray")),
                   PyInt(fro), PyInt(to), PyArray([], [StrAtom(id)]));
  }

  lemma {:induction false} GetFromThree(e0: PyEntry, e1: PyEntry, e2: PyEntry)
    requires e0.key != e1.key && e0.key != e2.key && e1.key != e2.key
    ensures DictGet([e0, e1, e2], e0.key) == Ok(e0.value)
    ensures DictGet([e0, e1, e2], e1.key) == Ok(e1.value)
    ensures DictGet([e0, e1, e2], e2.key) == Ok(e2.value)
  {
    assert [e0, e1, e2][1..] == [e1, e2] && [e1, e2][1..] == [e2];
    assert DictGet([e1, e2], e2.key) == DictGet([e2], e2.key) == Ok(e2.value);
  }

  lemma {:induction false} ReadTransformSection(path: seq<string>, k: string, fro: int, to: int, id: string,
                                                arrays: seq<DataArray>, d: seq<PyEntry>)
    requires k != "chs" && |Referring(arrays, path + [k])| > 0
    ensures ReadChild(TransformSection(k, fro, to, id), path, arrays, d)
            == Ok(DictSet(d, k, PyTransform(PyInt(fro), PyInt(to), Content(Referring(arrays, path + [k])[0]))))
  {
    var vs := [PyEntry("from", PyInt(fro)), PyEntry("to", PyInt(to)), PyEntry("trans", PyArray([], [StrAtom(id)]))];
    ReadTransformProps(k, fro, to, id);
    TagDecodesToClass(TRANSFORM_CLASS);
    assert |"from"| == 4 && |"to"| == 2 && |"trans"| == 5;
    GetFromThree(vs[0], vs[1], vs[2]);
    assert vs == [vs[0], vs[1], vs[2]];
  }

  /** With the writer's emptiness test, a transform written into a fresh
      section reads back as the same transform: its frames from the two
      properties, its matrix from the array linked to the section. */
  lemma {:induction false} TransformRoundTrip(sec: Section, path: seq<string>, k: string, fro: int, to: int,
                                              shape: GridShape, cells: seq<Atom>, blk: Block, d: seq<PyEntry>)
    requires k != "chs" && shape[0] > 0
    requires k !in SectionNames(sec.sections) && "trans" !in ArrayNames(blk.arrays)
    requires Referring(blk.arrays, path + [k]) == []
    ensures var w := WriteEntry(sec, path, Entry(k, Record(TransformRec(fro, to, shape, cells))), blk);
            && w.Ok?
            && |w.value.sec.sections| == |sec.sections| + 1
            && ReadChild(w.value.sec.sections[|sec.sections|], path, w.value.blk.arrays, d)
               == Ok(DictSet(d, k, PyTransform(PyInt(fro), PyInt(to), Tensor(shape, cells))))
  {
    var a := MatrixArray(|blk.arrays|, path + [k], shape, cells);
    WriteTransform(sec, path, k, fro, to, shape, cells, blk);
    ReferringAppend(blk.arrays, a, path + [k]);
    assert Referring(blk.arrays + [a], path + [k]) == [a];
    ReadTransformSection(path, k, fro, to, ArrayId(|blk.arrays|), blk.arrays + [a], d);
  }

  /** Array names are unique within the block and every transform's matrix
      is named "trans": once one transform is written, writing a second one
      anywhere in the same file fails. */
  lemma {:induction false} SecondTransformRefused(sec: Section, path: seq<string>, k: string, fro: int, to: int,
                                                  shape: GridShape, cells: seq<Atom>, blk: Block)
    requires shape[0] > 0
    requires k !in SectionNames(sec.sections) && "trans" in ArrayNames(blk.arrays)
    ensures WriteEntry(sec, path, Entry(k, Record(TransformRec(fro, to, shape, cells))), blk) == Err(DuplicateName("trans"))
  {
    var p := path + [k];
    var es := TransformRec(fro, to, shape, cells).entries;
    var s0 := Section(k, ClassTag(TRANSFORM_CLASS), [], []);
    var s1 := s0.(props := s0.props + [Property("from", [IntAtom(fro)], ClassTag("int"))]);
    var s2 := s1.(props := s1.props + [Property("to", [IntAtom(to)], ClassTag("int"))]);
    WriteIntLeaf(s0, p, "from", fro, blk);
    assert PropNames(s1.props) == ["from"];
    WriteIntLeaf(s1, p, "to", to, blk);
    assert !IsEmpty(es[2].value);
    assert WriteEntry(s2, p, es[2], blk) == Err(DuplicateName("trans"));
    WriteEntriesCons(s0, p, es, blk, Written(s1, blk));
    WriteEntriesCons(s1, p, es[1..], blk, Written(s2, blk));
    assert es[1..][1..][0] == es[2];
  }
}

=== FILE: md_writer.dfy ===
/** The MNE-to-NIX metadata writer, `create_md_tree` in
    nixworks/converters/mne/mne2nix.py.

    It walks a mapping in insertion order and fills a section: `None` and
    empty values are skipped, values with more than one numpy dimension go
    to a "Multidimensional Metadata" array of the block and are referenced
    by its id, mappings become child sections, lists of mappings become a
    child section of indexed subsections, and everything else becomes one
    property tagged with the value's class.
 */
module MdWriter {
  import opened Results
  import opened Nix
  import opened Metadata
  import Text

  const MULTIDIM_TYPE := "Multidimensional Metadata"

  /** The section being filled and the block that receives arrays. */
  datatype Written = Written(sec: Section, blk: Block)

  /** Only appends: the section keeps its name, type and earlier children. */
  ghost predicate SectionGrows(s: Section, s': Section) {
    && s'.name == s.name
    && s'.typeName == s.typeName
    && |s.props| <= |s'.props|
    && s'.props[..|s.props|] == s.props
    && |s.sections| <= |s'.sections|
    && s'.sections[..|s.sections|] == s.sections
  }

  /** The writer only appends multidimensional-metadata arrays to the block;
      its tags and its group are never touched. */
  ghost predicate BlockGrows(b: Block, b': Block) {
    && b'.name == b.name
    && b'.typeName == b.typeName
    && b'.tags == b.tags
    && b'.group == b.group
    && |b.arrays| <= |b'.arrays|
    && b'.arrays[..|b.arrays|] == b.arrays
    && forall i | |b.arrays| <= i < |b'.arrays| :: b'.arrays[i].typeName == MULTIDIM_TYPE
  }

  lemma SectionGrowsTrans(a: Section, b: Section, c: Section)
    requires SectionGrows(a, b) && SectionGrows(b, c)
    ensures SectionGrows(a, c)
  {
    assert c.props[..|a.props|] == c.props[..|b.props|][..|a.props|];
    assert c.sections[..|a.sections|] == c.sections[..|b.sections|][..|a.sections|];
  }

  lemma BlockGrowsTrans(a: Block, b: Block, c: Block)
    requires BlockGrows(a, b) && BlockGrows(b, c)
    ensures BlockGrows(a, c)
  {
    assert c.arrays[..|a.arrays|] == c.arrays[..|b.arrays|][..|a.arrays|];
    forall i | |a.arrays| <= i < |c.arrays|
      ensures c.arrays[i].typeName == MULTIDIM_TYPE
    {
      if i < |b.arrays| {
        assert c.arrays[i] == c.arrays[..|b.arrays|][i];
      }
    }
  }

  /** Termination measures: every recursive call is on a strictly smaller
      part of the mapping. */
  function ValueSize(v: MetaValue): (n: nat)
    ensures 1 <= n
  {
    match v
    case Record(rec) => 1 + EntriesSize(rec.entries)
    case RecordList(_, first, rest) => 1 + EntriesSize(first.entries) + ItemsSize(rest)
    case _ => 1
  }

  function EntriesSize(es: seq<Entry>): nat {
    if es == [] then 0 else 1 + ValueSize(es[0].value) + EntriesSize(es[1..])
  }

  function ItemsSize(vs: seq<MetaValue>): nat {
    if vs == [] then 0 else 1 + ValueSize(vs[0]) + ItemsSize(vs[1..])
  }

  /** `create_md_tree(section, values, block)`: `None` leaves the section
      alone, a mapping fills it, anything else has no `items()`. */
  function WriteTree(sec: Section, path: seq<string>, values: MetaValue, blk: Block): (r: Result<Written>)
    ensures r.Ok? ==> SectionGrows(sec, r.value.sec) && BlockGrows(blk, r.value.blk)
    ensures values.Null? ==> r == Ok(Written(sec, blk))
    ensures !values.Null? && !values.Record? ==> r == Err(AttributeError)
    decreases ValueSize(values), 2
  {
    match values
    case Null => Ok(Written(sec, blk))
    case Record(rec) => WriteEntries(sec, path, rec.entries, blk)
    case _ => Err(AttributeError)
  }

  /** The skip test as the source writes it, `if not val`, for an iterable
      value. Python asks the value for its truth value, which numpy refuses
      for an array of more than one element; the writer below skips on
      emptiness instead. */
  function SkipsAsWritten(v: MetaValue): (r: Result<bool>)
    requires !v.Null? && !v.Scalar?
    ensures r.Err? ==> r.error == ValueError
  {
    var t :- TruthValue(v);
    Ok(!t)
  }

  /** The loop over `values.items()`. */
  function WriteEntries(sec: Section, path: seq<string>, es: seq<Entry>, blk: Block): (r: Result<Written>)
    ensures r.Ok? ==> SectionGrows(sec, r.value.sec) && BlockGrows(blk, r.value.blk)
    ensures r.Ok? ==> |r.value.sec.props| + |r.value.sec.sections| <= |sec.props| + |sec.sections| + |es|
    decreases EntriesSize(es), 0
  {
    if es == [] then Ok(Written(sec, blk))
    else
      var w :- WriteEntry(sec, path, es[0], blk);
      var r := WriteEntries(w.sec, path, es[1..], w.blk);
      if r.Ok? then
        SectionGrowsTrans(sec, w.sec, r.value.sec);
        BlockGrowsTrans(blk, w.blk, r.value.blk);
        r
      else r
  }

  /** The first entry is written before the rest. */
  lemma {:induction false} WriteEntriesCons(sec: Section, path: seq<string>, es: seq<Entry>, blk: Block, w: Written)
    requires es != [] && WriteEntry(sec, path, es[0], blk) == Ok(w)
    ensures WriteEntries(sec, path, es, blk) == WriteEntries(w.sec, path, es[1..], w.blk)
  {
  }

  /** One key of the mapping: adds at most one property or one child
      section, always under the entry's key. */
  function WriteEntry(sec: Section, path: seq<string>, e: Entry, blk: Block): (r: Result<Written>)
    ensures r.Ok? ==> SectionGrows(sec, r.value.sec) && BlockGrows(blk, r.value.blk)
    ensures r.Ok? ==> |r.value.sec.props| + |r.value.sec.sections| <= |sec.props| + |sec.sections| + 1
    ensures r.Ok? ==> forall i | |sec.props| <= i < |r.value.sec.props| :: r.value.sec.props[i].name == e.key
    ensures r.Ok? ==> forall i | |sec.sections| <= i < |r.value.sec.sections| :: r.value.sec.sections[i].name == e.key
    decreases ValueSize(e.value), 2
  {
    var k := e.key;
    match e.value
    case Null => Ok(Written(sec, blk))
    case Scalar(_, _) => WriteLeaf(sec, k, e.value, blk)
    case Text(_) =>
      if IsEmpty(e.value) then Ok(Written(sec, blk)) else WriteLeaf(sec, k, e.value, blk)
    case Vector(_, _) =>
      if IsEmpty(e.value) then Ok(Written(sec, blk)) else WriteLeaf(sec, k, e.value, blk)
    case Grid(kind, shape, cells) =>
      // np.ndim(val) == |shape| > 1
      if IsEmpty(e.value) then Ok(Written(sec, blk)) else WriteArrayRef(sec, path, k, kind, shape, cells, blk)
    case Record(rec) =>
      if IsEmpty(e.value) then Ok(Written(sec, blk))
      else WriteChild(sec, path, k, ClassTag(rec.cls), rec.entries, blk)
    case RecordList(kind, first, rest) =>
      WriteRecordList(sec, path, k, kind, first, rest, blk)
  }

  /** A multidimensional value: a data array with one set dimension per
      axis, linked to the section, and a property holding its id. */
  function WriteArrayRef(sec: Section, path: seq<string>, k: string, kind: SeqKind, shape: GridShape,
                         cells: seq<Atom>, blk: Block): (r: Result<Written>)
    ensures r.Ok? ==> SectionGrows(sec, r.value.sec) && BlockGrows(blk, r.value.blk)
    ensures r.Ok? ==> r.value.sec.sections == sec.sections
    ensures r.Ok? ==> |r.value.blk.arrays| == |blk.arrays| + 1
    ensures r.Ok? ==> r.value.sec.props == sec.props + [Property(k, [StrAtom(r.value.blk.arrays[|blk.arrays|].id)], ClassTag(KindClassName(kind)))]
    ensures r.Ok? ==> |r.value.blk.arrays[|blk.arrays|].dimensions| == |shape|
    ensures r.Ok? ==> forall d | d in r.value.blk.arrays[|blk.arrays|].dimensions :: d.Kind() == Set
    ensures r.Ok? ==> r.value.blk.arrays[|blk.arrays|].metadata == Some(path)
    ensures r.Ok? <==> k !in ArrayNames(blk.arrays) && k !in PropNames(sec.props)
  {
    var da := DataArray("", k, MULTIDIM_TYPE, shape, cells, None, None, SetDims(|shape|), Some(path));
    var blk' :- CreateDataArray(blk, da);
    var sec' :- AddProperty(sec, Property(k, [StrAtom(ArrayId(|blk.arrays|))], ClassTag(KindClassName(kind))));
    Ok(Written(sec', blk'))
  }

  /** A leaf value: one property carrying the value's class tag. */
  function WriteLeaf(sec: Section, k: string, val: MetaValue, blk: Block): (r: Result<Written>)
    requires val.Scalar? || val.Text? || val.Vector?
    ensures r.Ok? ==> r.value.blk == blk && r.value.sec.sections == sec.sections
    ensures r.Ok? ==> StoredValues(val).Ok? &&
                      r.value.sec.props == sec.props + [Property(k, StoredValues(val).value, ClassTag(ClassName(val)))]
    ensures r.Ok? <==> StoredValues(val).Ok? && k !in PropNames(sec.props)
  {
    var values :- StoredValues(val);
    var sec' :- AddProperty(sec, Property(k, values, ClassTag(ClassName(val))));
    Ok(Written(sec', blk))
  }

  /** What `section.create_property(k, val)` stores, with the retry on
      TypeError: a sequence whose elements have different types is stored
      as `[float(vi) for vi in val]`. */
  function StoredValues(val: MetaValue): (r: Result<seq<Atom>>)
    requires val.Scalar? || val.Text? || val.Vector?
    ensures val.Scalar? ==> r == Ok([val.atom])
    ensures val.Text? ==> r == Ok([StrAtom(val.text)])
    ensures val.Vector? && Homogeneous(val.items) ==> r == Ok(val.items)
    ensures val.Vector? && !Homogeneous(val.items) ==> r == CoerceToFloats(val.items)
    ensures r.Ok? ==> Homogeneous(r.value)
  {
    match val
    case Scalar(_, a) => Ok([a])
    case Text(s) => Ok([StrAtom(s)])
    case Vector(_, items) => if Homogeneous(items) then Ok(items) else CoerceToFloats(items)
  }

  /** Python's `float(x)` for a stored element. Parsing a numeric string is
      not modelled: every string is refused. */
  function ToFloat(a: Atom): (r: Result<real>)
    ensures r.Err? <==> a.StrAtom?
  {
    match a
    case IntAtom(i) => Ok(i as real)
    case RealAtom(x) => Ok(x)
    case BoolAtom(b) => Ok(if b then 1.0 else 0.0)
    case StrAtom(_) => Err(ValueError)
  }

  /** `[float(vi) for vi in val]`. */
  function CoerceToFloats(xs: seq<Atom>): (r: Result<seq<Atom>>)
    ensures r.Ok? <==> forall i | 0 <= i < |xs| :: !xs[i].StrAtom?
    ensures r.Ok? ==> |r.value| == |xs|
    ensures r.Ok? ==> forall i | 0 <= i < |xs| :: r.value[i] == RealAtom(ToFloat(xs[i]).value)
    ensures r.Err? ==> r.error == ValueError
  {
    if xs == [] then Ok([])
    else
      var x :- ToFloat(xs[0]);
      var tail :- CoerceToFloats(xs[1..]);
      Ok([RealAtom(x)] + tail)
  }

  /** A mapping (or one element of a list of mappings): a new child section
      named `name`, typed `tag`, filled from `entries` and appended to the
      parent. nixio refuses a second child with the same name. */
  function WriteChild(parent: Section, path: seq<string>, name: string, tag: string,
                      entries: seq<Entry>, blk: Block): (r: Result<Written>)
    ensures r.Ok? ==> BlockGrows(blk, r.value.blk)
    ensures r.Ok? ==> name !in SectionNames(parent.sections)
    ensures r.Ok? ==> r.value.sec.props == parent.props && r.value.sec.name == parent.name
    ensures r.Ok? ==> r.value.sec.typeName == parent.typeName
    ensures r.Ok? ==> |r.value.sec.sections| == |parent.sections| + 1
    ensures r.Ok? ==> r.value.sec.sections[..|parent.sections|] == parent.sections
    ensures r.Ok? ==> r.value.sec.sections[|parent.sections|].name == name
    ensures r.Ok? ==> r.value.sec.sections[|parent.sections|].typeName == tag
    ensures r.Ok? ==> WriteEntries(Section(name, tag, [], []), path + [name], entries, blk).Ok? &&
                      r.value.sec.sections[|parent.sections|] == WriteEntries(Section(name, tag, [], []), path + [name], entries, blk).value.sec
    decreases EntriesSize(entries), 1
  {
    if name in SectionNames(parent.sections) then Err(DuplicateName(name))
    else
      var w :- WriteEntries(Section(name, tag, [], []), path + [name], entries, blk);
      Ok(Written(parent.(sections := parent.sections + [w.sec]), w.blk))
  }

  /** A list whose first element is a mapping: a child section named `k`
      (typed with the list's class) holding one subsection `k-idx` per
      element. */
  function WriteRecordList(sec: Section, path: seq<string>, k: string, kind: SeqKind, first: Rec,
                           rest: seq<MetaValue>, blk: Block): (r: Result<Written>)
    ensures r.Ok? ==> SectionGrows(sec, r.value.sec) && BlockGrows(blk, r.value.blk)
    ensures r.Ok? ==> r.value.sec.props == sec.props
    ensures r.Ok? ==> |r.value.sec.sections| == |sec.sections| + 1
    ensures r.Ok? ==> r.value.sec.sections[|sec.sections|].name == k
    ensures r.Ok? ==> r.value.sec.sections[|sec.sections|].typeName == ClassTag(KindClassName(kind))
    ensures r.Ok? ==> r.value.sec.sections[|sec.sections|].props == []
    ensures r.Ok? ==> |r.value.sec.sections[|sec.sections|].sections| == 1 + |rest|
    decreases ValueSize(RecordList(kind, first, rest)), 1
  {
    if k in SectionNames(sec.sections) then Err(DuplicateName(k))
    else
      var holderPath := path + [k];
      var holder := Section(k, ClassTag(KindClassName(kind)), [], []);
      var w0 :- WriteChild(holder, holderPath, Text.IndexedName(k, 0), ClassTag(first.cls), first.entries, blk);
      var w :- WriteItems(w0.sec, holderPath, k, rest, 1, w0.blk);
      Ok(Written(sec.(sections := sec.sections + [w.sec]), w.blk))
  }

  /** One element of a list of mappings: a mapping fills its subsection,
      `None` leaves it empty, anything else has no `items()`. */
  function WriteItem(holder: Section, path: seq<string>, name: string, item: MetaValue,
                     blk: Block): (r: Result<Written>)
    ensures r.Ok? ==> BlockGrows(blk, r.value.blk)
    ensures r.Ok? ==> r.value.sec.props == holder.props && r.value.sec.name == holder.name
    ensures r.Ok? ==> r.value.sec.typeName == holder.typeName
    ensures r.Ok? ==> |r.value.sec.sections| == |holder.sections| + 1
    ensures r.Ok? ==> r.value.sec.sections[..|holder.sections|] == holder.sections
    ensures r.Ok? ==> r.value.sec.sections[|holder.sections|].name == name
    ensures !item.Null? && !item.Record? ==> r == Err(AttributeError)
    decreases ValueSize(item), 1
  {
    match item
    case Null => WriteChild(holder, path, name, ClassTag("NoneType"), [], blk)
    case Record(rec) => WriteChild(holder, path, name, ClassTag(rec.cls), rec.entries, blk)
    case _ => Err(AttributeError)
  }

  /** `after` is `holder` with `n` subsections appended, named `k-idx`,
      `k-(idx+1)`, ... in order; nothing else of the holder changes. */
  predicate ItemsAppended(holder: Section, after: Section, k: string, idx: nat, n: nat) {
    && after.props == holder.props && after.name == holder.name && after.typeName == holder.typeName
    && |after.sections| == |holder.sections| + n
    && after.sections[..|holder.sections|] == holder.sections
    && forall j | |holder.sections| <= j < |after.sections| ::
         after.sections[j].name == Text.IndexedName(k, idx + j - |holder.sections|)
  }

  /** `for idx, subd in enumerate(val)` from index `idx` on: the subsections
      are named `k-idx`, `k-(idx+1)`, ... in list order. */
  function WriteItems(holder: Section, path: seq<string>, k: string, items: seq<MetaValue>, idx: nat,
                      blk: Block): (r: Result<Written>)
    ensures r.Ok? ==> BlockGrows(blk, r.value.blk)
    ensures r.Ok? ==> ItemsAppended(holder, r.value.sec, k, idx, |items|)
    decreases ItemsSize(items), 2
  {
    if items == [] then Ok(Written(holder, blk))
    else
      var w :- WriteItem(holder, path, Text.IndexedName(k, idx), items[0], blk);
      var r := WriteItems(w.sec, path, k, items[1..], idx + 1, w.blk);
      if r.Ok? then
        ItemsStep(holder, w.sec, r.value.sec, k, idx, |items| - 1);
        BlockGrowsTrans(blk, w.blk, r.value.blk);
        r
      else r
  }

  /** One subsection written by `WriteItem`, then the rest by `WriteItems`:
      together they keep the holder and append the subsections in order. */
  lemma ItemsStep(holder: Section, mid: Section, after: Section, k: string, idx: nat, n: nat)
    requires mid.props == holder.props && mid.name == holder.name && mid.typeName == holder.typeName
    requires |mid.sections| == |holder.sections| + 1 && mid.sections[..|holder.sections|] == holder.sections
    requires mid.sections[|holder.sections|].name == Text.IndexedName(k, idx)
    requires ItemsAppended(mid, after, k, idx + 1, n)
    ensures ItemsAppended(holder, after, k, idx, n + 1)
  {
    IndexedSectionsStep(holder.sections, mid.sections, after.sections, k, idx);
  }

  /** The subsection `k-idx` followed by subsections `k-(idx+1)`, ... */
  lemma IndexedSectionsStep(before: seq<Section>, mid: seq<Section>, after: seq<Section>, k: string, idx: nat)
    requires |mid| == |before| + 1 && mid[..|before|] == before && mid[|before|].name == Text.IndexedName(k, idx)
    requires |mid| <= |after| && after[..|mid|] == mid
    requires forall j | |mid| <= j < |after| :: after[j].name == Text.IndexedName(k, idx + 1 + j - |mid|)
    ensures after[..|before|] == before
    ensures forall j | |before| <= j < |after| :: after[j].name == Text.IndexedName(k, idx + j - |before|)
  {
    assert after[..|before|] == after[..|mid|][..|before|];
    assert after[|before|] == mid[|before|];
  }
}

=== FILE: metadata.dfy ===
/** The values found in an MNE info mapping, as a closed variant decided
    once per value, and the Python values the reader hands back.

    The writer inspects each value's runtime class (`None`? iterable? a
    mapping? a list whose first element is a mapping? more than one numpy
    dimension?); here each of those shapes is a constructor of `MetaValue`.
 */
module Metadata {
  import opened Results
  import opened Nix

  /** Classes of non-iterable values. `OtherScalar` covers every class the
      reader's type registry does not know (numpy integers, datetimes, ...). */
  datatype ScalarClass = IntClass | FloatClass | BoolClass | Float64Class | OtherScalar(name: string)

  /** The three sequence classes: Python lists and tuples, numpy arrays. */
  datatype SeqKind = ListKind | TupleKind | ArrayKind

  /** The shape of a value numpy sees as having more than one dimension. */
  type GridShape = s: seq<nat> | 2 <= |s| witness [0, 0]

  datatype MetaValue =
    | Null
    | Scalar(cls: ScalarClass, atom: Atom)
      /** a `str`: iterable, but numpy gives it no dimension */
    | Text(text: string)
      /** a sequence of scalars, `np.ndim == 1` */
    | Vector(kind: SeqKind, items: seq<Atom>)
      /** a nested list or numpy array with `np.ndim == |shape| >= 2`;
          `cells` in row-major order */
    | Grid(kind: SeqKind, shape: GridShape, cells: seq<Atom>)
      /** a Mapping */
    | Record(rec: Rec)
      /** a sequence whose first element is a Mapping */
    | RecordList(kind: SeqKind, first: Rec, rest: seq<MetaValue>)

  /** A Mapping: its class name and its items in insertion order. */
  datatype Rec = Rec(cls: string, entries: seq<Entry>)

  datatype Entry = Entry(key: string, value: MetaValue)

  const TRANSFORM_CLASS := "mne.transforms.Transform"

  function ScalarClassName(c: ScalarClass): string {
    match c
    case IntClass => "int"
    case FloatClass => "float"
    case BoolClass => "bool"
    case Float64Class => "numpy.float64"
    case OtherScalar(name) => name
  }

  function KindClassName(k: SeqKind): string {
    match k
    case ListKind => "list"
    case TupleKind => "tuple"
    case ArrayKind => "numpy.ndarray"
  }

  /** The qualified name of the value's class. */
  function ClassName(v: MetaValue): string {
    match v
    case Null => "NoneType"
    case Scalar(c, _) => ScalarClassName(c)
    case Text(_) => "str"
    case Vector(k, _) => KindClassName(k)
    case Grid(k, _, _) => KindClassName(k)
    case Record(r) => r.cls
    case RecordList(k, _, _) => KindClassName(k)
  }

  /** `str(val.__class__)`, the type tag written next to every value. */
  function ClassTag(cls: string): (tag: string)
    ensures |tag| == |cls| + 10
    ensures tag[8..|cls| + 8] == cls
  {
    "<class '" + cls + "'>"
  }

  /** `len(val)` of an iterable value (the length of its first axis). */
  function Length(v: MetaValue): nat {
    match v
    case Null => 0
    case Scalar(_, _) => 0
    case Text(s) => |s|
    case Vector(_, items) => |items|
    case Grid(_, shape, _) => shape[0]
    case Record(r) => |r.entries|
    case RecordList(_, _, rest) => 1 + |rest|
  }

  /** An iterable value with no element: what the writer means to skip. */
  predicate IsEmpty(v: MetaValue) {
    !v.Null? && !v.Scalar? && Length(v) == 0
  }

  /** `bool(val)` for an iterable value, as Python evaluates it: a numpy
      array with more than one element has no truth value and raises
      ValueError; a one-element array is as true as its element. */
  function TruthValue(v: MetaValue): (r: Result<bool>)
    requires !v.Null? && !v.Scalar?
    ensures r.Err? ==> r.error == ValueError
  {
    match v
    case Vector(ArrayKind, items) =>
      if |items| == 0 then Ok(false)
      else if |items| == 1 then Ok(Truthy(items[0]))
      else Err(ValueError)
    case Grid(ArrayKind, _, cells) =>
      if |cells| == 0 then Ok(false)
      else if |cells| == 1 then Ok(Truthy(cells[0]))
      else Err(ValueError)
    case RecordList(ArrayKind, first, rest) =>
      if |rest| == 0 then Ok(|first.entries| > 0) else Err(ValueError)
    case _ => Ok(Length(v) > 0)
  }

  /** `np.ndim(val)`: numpy treats strings and mappings as scalars and a
      list of mappings as a one-dimensional object array. */
  function NDim(v: MetaValue): nat {
    match v
    case Vector(_, _) => 1
    case Grid(_, shape, _) => |shape|
    case RecordList(_, _, _) => 1
    case _ => 0
  }

  /** Python dict keys are unique. */
  predicate UniqueKeys(es: seq<Entry>) {
    forall i, j | 0 <= i < j < |es| :: es[i].key != es[j].key
  }

  /** A Python value as the reader returns it. */
  datatype PyValue =
    | PyNone
    | PyInt(i: int)
    | PyFloat(r: real)
    | PyBool(b: bool)
    | PyStr(s: string)
    | PyFloat64(r: real)
      /** a scalar of a class the registry does not know */
    | PyObject(cls: string, atom: Atom)
    | PyTuple(items: seq<PyValue>)
    | PyList(items: seq<PyValue>)
    | PyArray(shape: seq<nat>, cells: seq<Atom>)
    | PyDict(entries: seq<PyEntry>)
      /** `mne.Transform(fro, to, trans)` */
    | PyTransform(fro: PyValue, to: PyValue, trans: Tensor)

  datatype PyEntry = PyEntry(key: string, value: PyValue)

  /** The Python object nixio returns for one stored element. */
  function AtomValue(a: Atom): PyValue {
    match a
    case IntAtom(i) => PyInt(i)
    case RealAtom(r) => PyFloat(r)
    case BoolAtom(b) => PyBool(b)
    case StrAtom(s) => PyStr(s)
  }

  function AtomValues(xs: seq<Atom>): (vs: seq<PyValue>)
    ensures |vs| == |xs|
    ensures forall i | 0 <= i < |xs| :: vs[i] == AtomValue(xs[i])
  {
    seq(|xs|, i requires 0 <= i < |xs| => AtomValue(xs[i]))
  }

  function PyKey(e: PyEntry): string { e.key }

  function PyKeys(es: seq<PyEntry>): seq<string> {
    Names(es, PyKey)
  }

  /** `d[k]` for a dict held as its items in insertion order. */
  function DictGet(d: seq<PyEntry>, k: string): (r: Result<PyValue>)
    ensures r.Ok? <==> k in PyKeys(d)
    ensures r.Err? ==> r.error == KeyError(k)
  {
    if d == [] then Err(KeyError(k))
    else if d[0].key == k then Ok(d[0].value)
    else DictGet(d[1..], k)
  }

  /** `d[k] = v`: a new key goes to the end; an existing key keeps its
      position and takes the new value. */
  function DictSet(d: seq<PyEntry>, k: string, v: PyValue): (r: seq<PyEntry>)
    ensures k in PyKeys(d) ==> |r| == |d|
    ensures k !in PyKeys(d) ==> r == d + [PyEntry(k, v)]
    ensures forall i | 0 <= i < |d| :: r[i].key == d[i].key
    ensures forall i | 0 <= i < |d| && d[i].key != k :: r[i] == d[i]
  {
    if d == [] then [PyEntry(k, v)]
    else if d[0].key == k then [PyEntry(k, v)] + d[1..]
    else [d[0]] + DictSet(d[1..], k, v)
  }

  /** After `d[k] = v`, `d[k]` gives `v`. */
  lemma {:induction false} DictSetGet(d: seq<PyEntry>, k: string, v: PyValue)
    ensures DictGet(DictSet(d, k, v), k) == Ok(v)
  {
    if d != [] && d[0].key != k {
      DictSetGet(d[1..], k, v);
    }
  }
}

=== FILE: nix.dfy ===
/** The primitives of the NIX container that the converters use: data
    arrays with their dimension descriptors, metadata sections and
    properties, multi-tags, the one block and the one group the converters
    create, and the file that holds them.

    nixio refuses to create a second entity with an existing name inside
    the same parent; `CreateDataArray`, `AddProperty` and `CreateMultiTag`
    model that refusal as `DuplicateName`.
 */
module Nix {
  import opened Results
  import Text

  /** A stored element: nixio keeps property values and array cells as
      integers, doubles, booleans or strings. */
  datatype Atom = IntAtom(i: int) | RealAtom(r: real) | BoolAtom(b: bool) | StrAtom(s: string)

  datatype AtomKind = IntKind | RealKind | BoolKind | StrKind

  function KindOf(a: Atom): AtomKind {
    match a
    case IntAtom(_) => IntKind
    case RealAtom(_) => RealKind
    case BoolAtom(_) => BoolKind
    case StrAtom(_) => StrKind
  }

  /** nixio stores a list of values only when all of them have one data type. */
  predicate Homogeneous(xs: seq<Atom>) {
    forall i | 0 <= i < |xs| :: KindOf(xs[i]) == KindOf(xs[0])
  }

  /** Python truthiness of a stored element. */
  predicate Truthy(a: Atom) {
    match a
    case IntAtom(i) => i != 0
    case RealAtom(r) => r != 0.0
    case BoolAtom(b) => b
    case StrAtom(s) => |s| > 0
  }

  datatype DimensionType = Sample | Range | Set

  /** A per-axis descriptor of a data array. */
  datatype Dimension =
    | SampledDimension(samplingInterval: real, axisLabel: Option<string>, unit: Option<string>)
    | RangeDimension(ticks: seq<real>, axisLabel: Option<string>, unit: Option<string>, isAlias: bool)
    | SetDimension(labels: seq<string>)
  {
    function Kind(): DimensionType {
      match this
      case SampledDimension(_, _, _) => Sample
      case RangeDimension(_, _, _, _) => Range
      case SetDimension(_) => Set
    }
  }

  /** A data array: its cells are held in row-major order under `shape`;
      `metadata` is the path (section names from the file root) of the
      section the array is linked to, if any. */
  datatype DataArray = DataArray(
    id: string,
    name: string,
    typeName: string,
    shape: seq<nat>,
    data: seq<Atom>,
    unit: Option<string>,
    dataLabel: Option<string>,
    dimensions: seq<Dimension>,
    metadata: Option<seq<string>>)

  /** The contents of an array as numpy returns them for `a[:]`. */
  datatype Tensor = Tensor(shape: seq<nat>, cells: seq<Atom>)

  function Content(a: DataArray): Tensor {
    Tensor(a.shape, a.data)
  }

  /** The number of cells an array of the given shape holds. */
  function Product(shape: seq<nat>): nat {
    if shape == [] then 1 else shape[0] * Product(shape[1..])
  }

  /** Two steps of arithmetic on array sizes the solver does not take alone. */
  lemma MulSucc(a: nat, w: nat)
    ensures (a + 1) * w == a * w + w
  {
  }

  lemma MulMono(a: nat, b: nat, w: nat)
    requires a <= b
    ensures a * w <= b * w
  {
  }

  /** The cells of a stored array always fill its shape. */
  predicate WellFormed(t: Tensor) {
    |t.cells| == Product(t.shape)
  }

  /** `n` label-less set dimensions, as `append_set_dimension()` adds them. */
  function SetDims(n: nat): (dims: seq<Dimension>)
    ensures |dims| == n
    ensures forall i | 0 <= i < n :: dims[i] == SetDimension([])
  {
    seq(n, _ => SetDimension([]))
  }

  datatype Property = Property(name: string, values: seq<Atom>, typeName: string)

  datatype Section = Section(name: string, typeName: string, props: seq<Property>, sections: seq<Section>)

  /** A multi-tag refers to its positions and extents arrays, and to the
      arrays it annotates, by name within the block. */
  datatype MultiTag = MultiTag(name: string, typeName: string, positions: string, extents: string, references: seq<string>)

  /** A group lists, by name, some of the block's arrays and multi-tags. */
  datatype Group = Group(name: string, typeName: string, arrays: seq<string>, tags: seq<string>)

  datatype Block = Block(name: string, typeName: string, arrays: seq<DataArray>, tags: seq<MultiTag>, group: Group)

  datatype NixFile = NixFile(blocks: seq<Block>, sections: seq<Section>)

  /** The names of a sequence of entities, in order. Every name lookup of
      nixio, and the keys of a Python dict, are this projection. */
  function Names<T>(xs: seq<T>, name: T -> string): (ns: seq<string>)
    ensures |ns| == |xs|
    ensures forall i | 0 <= i < |xs| :: ns[i] == name(xs[i])
  {
    seq(|xs|, i requires 0 <= i < |xs| => name(xs[i]))
  }

  /** The names of a tail are the tail of the names. */
  lemma NamesTail<T>(xs: seq<T>, name: T -> string)
    requires xs != []
    ensures Names(xs[1..], name) == Names(xs, name)[1..]
  {
  }

  function ArrayName(a: DataArray): string { a.name }
  function TagName(t: MultiTag): string { t.name }
  function PropName(p: Property): string { p.name }
  function SectionName(s: Section): string { s.name }

  function ArrayNames(arrays: seq<DataArray>): seq<string> {
    Names(arrays, ArrayName)
  }

  function TagNames(tags: seq<MultiTag>): seq<string> {
    Names(tags, TagName)
  }

  function PropNames(props: seq<Property>): seq<string> {
    Names(props, PropName)
  }

  function SectionNames(sections: seq<Section>): seq<string> {
    Names(sections, SectionName)
  }

  /** The identifier nixio gives a new array. nixio draws a UUID; the
      model derives it from the array's position in the block, which is
      equally unique. */
  function ArrayId(index: nat): string {
    "DA-" + Text.NatToString(index)
  }

  /** `block.create_data_array(...)` with the array's remaining attributes
      already set: appended at the end, with a fresh identifier. */
  function CreateDataArray(b: Block, a: DataArray): (r: Result<Block>)
    ensures r.Ok? <==> a.name !in ArrayNames(b.arrays)
    ensures r.Err? ==> r.error == DuplicateName(a.name)
    ensures r.Ok? ==> r.value == b.(arrays := b.arrays + [a.(id := ArrayId(|b.arrays|))])
  {
    if a.name in ArrayNames(b.arrays) then Err(DuplicateName(a.name))
    else Ok(b.(arrays := b.arrays + [a.(id := ArrayId(|b.arrays|))]))
  }

  /** `block.create_multi_tag(...)`. */
  function CreateMultiTag(b: Block, t: MultiTag): (r: Result<Block>)
    ensures r.Ok? <==> t.name !in TagNames(b.tags)
    ensures r.Ok? ==> r.value == b.(tags := b.tags + [t])
  {
    if t.name in TagNames(b.tags) then Err(DuplicateName(t.name))
    else Ok(b.(tags := b.tags + [t]))
  }

  /** `section.create_property(...)`. */
  function AddProperty(s: Section, p: Property): (r: Result<Section>)
    ensures r.Ok? <==> p.name !in PropNames(s.props)
    ensures r.Ok? ==> r.value == s.(props := s.props + [p])
  {
    if p.name in PropNames(s.props) then Err(DuplicateName(p.name))
    else Ok(s.(props := s.props + [p]))
  }

  function AddToGroup(b: Block, name: string): Block {
    b.(group := b.group.(arrays := b.group.arrays + [name]))
  }

  function AddTagToGroup(b: Block, name: string): Block {
    b.(group := b.group.(tags := b.group.tags + [name]))
  }

  /** `block.data_arrays[name]`: the array with that name, or KeyError. */
  function FindArray(arrays: seq<DataArray>, name: string): (r: Result<DataArray>)
    ensures r.Ok? <==> name in ArrayNames(arrays)
    ensures r.Ok? ==> r.value in arrays && r.value.name == name
    ensures r.Err? ==> r.error == KeyError(name)
  {
    if arrays == [] then Err(KeyError(name))
    else if arrays[0].name == name then Ok(arrays[0])
    else FindArray(arrays[1..], name)
  }

  /** Appending an array leaves the lookup of every other name as it was,
      and a name new to the block finds the appended array. */
  lemma {:induction false} FindAfterAppend(arrays: seq<DataArray>, a: DataArray, name: string)
    requires a.name !in ArrayNames(arrays)
    ensures name == a.name ==> FindArray(arrays + [a], name) == Ok(a)
    ensures name in ArrayNames(arrays) ==> FindArray(arrays + [a], name) == FindArray(arrays, name)
  {
    if arrays == [] {
      assert arrays + [a] == [a];
    } else {
      assert (arrays + [a])[1..] == arrays[1..] + [a];
      NamesTail(arrays, ArrayName);
      FindAfterAppend(arrays[1..], a, name);
    }
  }

  /** Lookup by name finds the first array of that name, so appending
      arrays never changes what an existing name finds. */
  lemma {:induction false} FindArrayPrefix(arrays: seq<DataArray>, more: seq<DataArray>, name: string)
    requires name in ArrayNames(arrays)
    ensures FindArray(arrays + more, name) == FindArray(arrays, name)
  {
    if arrays[0].name != name {
      assert (arrays + more)[1..] == arrays[1..] + more;
      NamesTail(arrays, ArrayName);
      FindArrayPrefix(arrays[1..], more, name);
    }
  }

  function FindTag(tags: seq<MultiTag>, name: string): (r: Result<MultiTag>)
    ensures r.Ok? <==> name in TagNames(tags)
    ensures r.Ok? ==> r.value in tags && r.value.name == name
  {
    if tags == [] then Err(KeyError(name))
    else if tags[0].name == name then Ok(tags[0])
    else FindTag(tags[1..], name)
  }

  /** `nixfile.blocks[name]`. */
  function FindBlock(blocks: seq<Block>, name: string): (r: Result<Block>)
    ensures r.Ok? ==> r.value in blocks && r.value.name == name
    ensures r.Err? <==> forall b | b in blocks :: b.name != name
  {
    if blocks == [] then Err(KeyError(name))
    else if blocks[0].name == name then Ok(blocks[0])
    else FindBlock(blocks[1..], name)
  }

  /** `nixfile.sections[name]`. */
  function FindSection(sections: seq<Section>, name: string): (r: Result<Section>)
    ensures r.Ok? ==> r.value in sections && r.value.name == name
    ensures r.Err? <==> name !in SectionNames(sections)
    ensures r.Err? ==> r.error == KeyError(name)
  {
    if sections == [] then Err(KeyError(name))
    else if sections[0].name == name then Ok(sections[0])
    else FindSection(sections[1..], name)
  }
}

=== FILE: plotter.dfy ===
/** The decisions the plotter makes before anything is drawn: which axis
    of an array to put on x, which kind of plot suits the array, how an
    entity is captioned, which explicit x axes the plotter constructors
    accept, and which window of samples a line plot draws.
 */
module Plotter {
  import opened Results
  import opened Nix
  import Text

  /** Python's `s[i]`: negative indices count from the end; anything out
      of range is an IndexError. */
  function PyIndex<T>(s: seq<T>, i: int): (r: Result<T>)
    ensures r.Ok? <==> -|s| <= i < |s|
    ensures 0 <= i < |s| ==> r == Ok(s[i])
    ensures -|s| <= i < 0 ==> r == Ok(s[|s| + i])
    ensures r.Err? ==> r.error == IndexError
  {
    if 0 <= i < |s| then Ok(s[i]) else if -|s| <= i < 0 then Ok(s[|s| + i]) else Err(IndexError)
  }

  // ---------------------------------------------------------------------
  // The x axis
  // ---------------------------------------------------------------------

  predicate Numeric(k: DimensionType) {
    k == Sample || k == Range
  }

  /** `guess_buest_xdim`: a one-axis array is plotted along its only axis;
      otherwise the first two dimensions decide: a sampled axis whenever
      one of them is sampled, a set axis only when both are sets. An array
      with more axes than dimensions fails on the missing dimension. */
  function GuessBestXDim(a: DataArray): (r: Result<nat>)
    ensures |a.shape| == 1 ==> r == Ok(0)
    ensures r.Err? <==> |a.shape| != 1 && |a.dimensions| < 2
    ensures r.Err? ==> r.error == IndexError
    ensures r.Ok? ==> r.value <= 1
    ensures r.Ok? && |a.shape| != 1 ==>
      var k1, k2 := a.dimensions[0].Kind(), a.dimensions[1].Kind();
      && (r.value == 1 <==> k1 != Sample && (k2 == Sample || (k1 == Set && k2 == Range)))
      && ((k1 == Sample || k2 == Sample) ==> a.dimensions[r.value].Kind() == Sample)
      && ((Numeric(k1) || Numeric(k2)) ==> Numeric(a.dimensions[r.value].Kind()))
  {
    if |a.shape| == 1 then Ok(0)
    else if |a.dimensions| < 2 then Err(IndexError)
    else
      var k1, k2 := a.dimensions[0].Kind(), a.dimensions[1].Kind();
      if k1 == Sample then Ok(0)
      else if k2 == Sample then Ok(1)
      else if k1 == Set && k2 == Range then Ok(1)
      else if k1 == Range && k2 == Set then Ok(0)
      else Ok(0)
  }

  // ---------------------------------------------------------------------
  // The kind of plot
  // ---------------------------------------------------------------------

  datatype PlotKind = Line | Event | Category | Image

  /** A plotter with the x axis it settled on; the image plotter has none. */
  datatype Plotter =
    | LinePlotter(xdim: int)
    | EventPlotter(xdim: int)
    | CategoryPlotter(xdim: int)
    | ImagePlotter
  {
    function Kind(): PlotKind {
      match this
      case LinePlotter(_) => Line
      case EventPlotter(_) => Event
      case CategoryPlotter(_) => Category
      case ImagePlotter => Image
    }
  }

  /** The decision table of `suggested_plotter`, by dimension kinds. */
  function SuggestedKind(dims: seq<Dimension>): (r: Option<PlotKind>)
    ensures r.Some? <==> 1 <= |dims| <= 3
    ensures |dims| == 3 ==> r == Some(Image)
    ensures |dims| == 1 ==>
      && (r == Some(Event) <==> dims[0].RangeDimension? && dims[0].isAlias)
      && (r == Some(Category) <==> dims[0].Kind() == Set)
      && (r == Some(Line) <==> dims[0].Kind() == Sample || (dims[0].RangeDimension? && !dims[0].isAlias))
    ensures |dims| == 2 ==>
      var n1, n2 := Numeric(dims[0].Kind()), Numeric(dims[1].Kind());
      && (r == Some(Image) <==> n1 && n2)
      && (r == Some(Category) <==> !n1 && !n2)
      && (r == Some(Line) <==> n1 != n2)
  {
    if |dims| > 3 then None
    else if |dims| == 1 then
      match dims[0]
      case SampledDimension(_, _, _) => Some(Line)
      case RangeDimension(_, _, _, alias) => if alias then Some(Event) else Some(Line)
      case SetDimension(_) => Some(Category)
    else if |dims| == 2 then
      var k1, k2 := dims[0].Kind(), dims[1].Kind();
      if k1 == Sample || k1 == Range then
        (if k2 == Sample || k2 == Range then Some(Image) else Some(Line))
      else
        (if k2 == Sample || k2 == Range then Some(Line) else Some(Category))
    else if |dims| == 3 then Some(Image)
    else None
  }

  /** `suggested_plotter`: the plotter of the suggested kind, built with the
      x axis left to the guess; no plotter for arrays without dimensions or
      with more than three. */
  function SuggestedPlotter(a: DataArray): (r: Result<Option<Plotter>>)
    ensures SuggestedKind(a.dimensions).None? ==> r == Ok(None)
    ensures r.Ok? && r.value.Some? ==> SuggestedKind(a.dimensions) == Some(r.value.value.Kind())
    ensures r.Ok? && r.value.Some? && !r.value.value.ImagePlotter? ==> 0 <= r.value.value.xdim <= 1
    ensures r.Err? ==> r.error == IndexError
  {
    match SuggestedKind(a.dimensions)
    case None => Ok(None)
    case Some(Image) => Ok(Some(ImagePlotter))
    case Some(kind) =>
      var p :- NewPlotter(kind, a, -1);
      Ok(Some(p))
  }

  /** An array with as many dimensions as axes, between one and three, always
      gets a plotter. */
  lemma SuggestedPlotterTotal(a: DataArray)
    requires |a.shape| == |a.dimensions| && 1 <= |a.dimensions| <= 3
    ensures SuggestedPlotter(a).Ok? && SuggestedPlotter(a).value.Some?
  {
  }

  // ---------------------------------------------------------------------
  // Constructors: the explicit x axis
  // ---------------------------------------------------------------------

  /** The largest explicit x axis each constructor accepts: 1 for events,
      2 for categories and lines. */
  function XDimLimit(kind: PlotKind): nat
    requires kind != Image
  {
    if kind == Event then 1 else 2
  }

  function GuessedAxis(a: DataArray): (r: Result<int>)
    ensures r.Ok? <==> GuessBestXDim(a).Ok?
    ensures r.Ok? ==> r.value == GuessBestXDim(a).value
    ensures r.Err? ==> r.error == GuessBestXDim(a).error
  {
    var x :- GuessBestXDim(a);
    Ok(x)
  }

  /** The constructors of the line, event and category plotters: `-1`
      leaves the axis to the guess, an axis above the limit is refused with
      ValueError, anything else is taken as given. */
  function NewPlotter(kind: PlotKind, a: DataArray, xdim: int): (r: Result<Plotter>)
    requires kind != Image
    ensures r.Ok? ==> r.value.Kind() == kind
    ensures xdim == -1 ==> r.Ok? == GuessBestXDim(a).Ok?
    ensures xdim == -1 && r.Ok? ==> r.value.xdim == GuessBestXDim(a).value
    ensures xdim != -1 ==> (r.Ok? <==> xdim <= XDimLimit(kind))
    ensures xdim != -1 && r.Ok? ==> r.value.xdim == xdim
    ensures r.Err? ==> r.error == (if xdim == -1 then IndexError else ValueError)
  {
    var x: int :- if xdim == -1 then GuessedAxis(a) else if xdim > XDimLimit(kind) then Err(ValueError) else Ok(xdim);
    match kind
    case Line => Ok(LinePlotter(x))
    case Event => Ok(EventPlotter(x))
    case Category => Ok(CategoryPlotter(x))
  }

  /** The line and category constructors accept x axis 2, which a plottable
      array (at most two dimensions) does not have: the line plotter's
      slider then reads `shape[2]` of a two-axis array and fails. */
  lemma LinePlotterAcceptsMissingAxis(a: DataArray)
    requires |a.shape| == 2
    ensures NewPlotter(Line, a, 2) == Ok(LinePlotter(2))
    ensures NewPlotter(Category, a, 2) == Ok(CategoryPlotter(2))
    ensures PyIndex(a.shape, 2).Err?
  {
  }

  /** The constructors with the limit the plot routines can honour: no
      explicit axis beyond 1. */
  function NewPlotterCorrected(kind: PlotKind, a: DataArray, xdim: int): (r: Result<Plotter>)
    requires kind != Image
    ensures r.Ok? ==> r.value.Kind() == kind
    ensures xdim != -1 ==> (r.Ok? <==> xdim <= 1)
    ensures xdim == -1 ==> r == NewPlotter(kind, a, xdim)
    ensures xdim != -1 && xdim != 2 ==> r == NewPlotter(kind, a, xdim)
  {
    if xdim > 1 then Err(ValueError) else NewPlotter(kind, a, xdim)
  }

  /** With the corrected limit, every axis a constructor accepts indexes
      an axis of any array with two axes (negative ones from the end, as
      Python does, down to -2). */
  lemma CorrectedAxisExists(kind: PlotKind, a: DataArray, xdim: int)
    requires kind != Image && |a.shape| == 2 && xdim >= -2
    requires NewPlotterCorrected(kind, a, xdim).Ok?
    ensures PyIndex(a.shape, NewPlotterCorrected(kind, a, xdim).value.xdim).Ok?
  {
  }

  // ---------------------------------------------------------------------
  // Captions
  // ---------------------------------------------------------------------

  /** What `create_label` is given: a data array or one of its dimensions. */
  datatype Entity = ArrayEntity(da: DataArray) | DimensionEntity(dim: Dimension)

  /** The entity's `unit`, for those that have one. */
  function UnitOf(e: Entity): Option<string> {
    match e
    case ArrayEntity(a) => a.unit
    case DimensionEntity(SampledDimension(_, _, u)) => u
    case DimensionEntity(RangeDimension(_, _, u, _)) => u
    case DimensionEntity(SetDimension(_)) => None
  }

  /** The entity's `label`, `None` counting as empty; a set dimension has
      none. */
  function LabelOf(e: Entity): string {
    match e
    case ArrayEntity(a) => (if a.dataLabel.Some? then a.dataLabel.value else "")
    case DimensionEntity(SampledDimension(_, l, _)) => (if l.Some? then l.value else "")
    case DimensionEntity(RangeDimension(_, l, _, _)) => (if l.Some? then l.value else "")
    case DimensionEntity(SetDimension(_)) => ""
  }

  /** The caption before the unit: the label, or the array's name when the
      label is empty. Dimensions have no name to fall back on. */
  function Caption(e: Entity): (c: string)
    ensures LabelOf(e) != "" ==> c == LabelOf(e)
    ensures LabelOf(e) == "" && e.ArrayEntity? ==> c == e.da.name
    ensures LabelOf(e) == "" && e.DimensionEntity? ==> c == ""
  {
    if LabelOf(e) == "" && e.ArrayEntity? then e.da.name else LabelOf(e)
  }

  function UnitSuffix(u: string): string {
    " [" + u + "]"
  }

  /** `create_label`: the caption, followed by the unit in brackets exactly
      when the entity has a unit. */
  function CreateLabel(e: Entity): (r: string)
    ensures UnitOf(e).None? ==> r == Caption(e)
    ensures UnitOf(e).Some? ==>
      var s := UnitSuffix(UnitOf(e).value);
      |s| <= |r| && r[..|r| - |s|] == Caption(e) && r[|r| - |s|..] == s
  {
    Caption(e) + (if UnitOf(e).Some? then UnitSuffix(UnitOf(e).value) else "")
  }

  /** The label starts with the caption and is the caption alone exactly
      when the entity has no unit. */
  lemma CreateLabelExtendsCaption(e: Entity)
    ensures var r := CreateLabel(e); |Caption(e)| <= |r| && r[..|Caption(e)|] == Caption(e)
    ensures CreateLabel(e) == Caption(e) <==> UnitOf(e).None?
  {
    if UnitOf(e).Some? {
      assert |CreateLabel(e)| > |Caption(e)|;
    }
  }

  // ---------------------------------------------------------------------
  // The drawn window
  // ---------------------------------------------------------------------

  /** The clamping at the head of `__draw_1d` and `__draw_2d`: the window
      starts at 0 at the earliest and ends at the axis length at the
      latest; a bound already inside is kept. */
  function ClampWindow(start: int, end: int, n: nat): (w: (int, int))
    ensures 0 <= w.0 && w.1 <= n
    ensures start >= 0 ==> w.0 == start
    ensures start < 0 ==> w.0 == 0
    ensures end <= n ==> w.1 == end
    ensures end > n ==> w.1 == n
  {
    (if start < 0 then 0 else start, if end > n then n else end)
  }

  /** Clamping a clamped window changes nothing, and clamping never widens
      a window. */
  lemma ClampWindowIdempotent(start: int, end: int, n: nat)
    ensures var w := ClampWindow(start, end, n); ClampWindow(w.0, w.1, n) == w
    ensures var w := ClampWindow(start, end, n); start <= w.0 && w.1 <= end
  {
  }

  /** The x dimension of a drawn window must provide an axis: a set
      dimension has none. */
  function XAxisOf(a: DataArray, xdim: int): (r: Result<Dimension>)
    ensures r.Ok? ==> r.value.Kind() != Set
    ensures PyIndex(a.dimensions, xdim).Ok? && PyIndex(a.dimensions, xdim).value.Kind() != Set ==>
      r == PyIndex(a.dimensions, xdim)
  {
    var d :- PyIndex(a.dimensions, xdim);
    if d.SetDimension? then Err(AttributeError) else Ok(d)
  }

  /** The rows the slice `[start:end]` selects along a first axis of
      length `rows`, once the window has been clamped to an x axis of
      length `n`: Python slices the first axis whatever the x axis is, and
      a clamped end below 0 counts from the end of that axis. */
  function RowWindow(start: int, end: int, n: nat, rows: nat): (w: (nat, nat))
    ensures w.0 <= rows && w.1 <= rows
    ensures var c := ClampWindow(start, end, n); c.0 <= rows ==> w.0 == c.0
    ensures var c := ClampWindow(start, end, n); 0 <= c.1 <= rows ==> w.1 == c.1
  {
    var c := ClampWindow(start, end, n);
    (Text.ClampIndex(c.0, rows), Text.ClampIndex(c.1, rows))
  }

  /** `__draw_1d`: the rows of the clamped window. The window is clamped to
      the x axis, but `array[start:end]` slices the first axis, so for an
      array of several axes the drawn samples are whole rows, flattened here
      in row-major order. The x values are as many as the rows, and setting
      the axis limits to the first and the last of them fails with
      IndexError when no row is selected. */
  function Draw1D(a: DataArray, xdim: int, start: int, end: int): (r: Result<seq<Atom>>)
    ensures PyIndex(a.shape, xdim).Err? ==> r == Err(IndexError)
    ensures r.Ok? ==> PyIndex(a.shape, xdim).Ok? && XAxisOf(a, xdim).Ok?
    ensures PyIndex(a.shape, xdim).Ok? && XAxisOf(a, xdim).Ok? ==>
      var w := RowWindow(start, end, PyIndex(a.shape, xdim).value, a.shape[0]);
      && (r.Ok? <==> w.0 < w.1)
      && (r.Err? ==> r.error == IndexError)
    ensures r.Ok? ==>
      var w := RowWindow(start, end, PyIndex(a.shape, xdim).value, a.shape[0]);
      var width := Product(a.shape[1..]);
      r.value == Text.PySlice(a.data, w.0 * width, w.1 * width)
    ensures |a.shape| == 1 && |a.data| == a.shape[0] ==>
      var w := ClampWindow(start, end, a.shape[0]);
      && (w.0 < w.1 && PyIndex(a.shape, xdim).Ok? && XAxisOf(a, xdim).Ok? ==> r == Ok(a.data[w.0..w.1]))
      && (w.0 >= w.1 && w.1 >= 0 ==> r.Err?)
  {
    var n :- PyIndex(a.shape, xdim);
    var w := RowWindow(start, end, n, a.shape[0]);
    var width := Product(a.shape[1..]);
    var y := Text.PySlice(a.data, w.0 * width, w.1 * width);
    var _ :- XAxisOf(a, xdim);
    if w.0 >= w.1 then Err(IndexError) else Ok(y)
  }

  /** `y` holds rows `lo` to `hi` of a two-axis array, one after the other:
      row `lo + i` fills samples `i * c` to `i * c + c - 1`, for `c`
      columns. */
  predicate RowsDrawn(a: DataArray, lo: nat, hi: nat, y: seq<Atom>)
    requires |a.shape| == 2 && |a.data| == a.shape[0] * a.shape[1] && hi <= a.shape[0]
  {
    var c := a.shape[1];
    && |y| == (hi - lo) * c
    && forall row, col | lo <= row < hi && 0 <= col < c ::
         && 0 <= (row - lo) * c + col < |y|
         && y[(row - lo) * c + col] == Cell(a, row, col)
  }

  /** On a two-axis array the samples `__draw_1d` draws are whole rows of
      the window, whatever the x axis. */
  lemma {:induction false} Draw1DSelectsRows(a: DataArray, xdim: int, start: int, end: int)
    requires |a.shape| == 2 && |a.data| == a.shape[0] * a.shape[1]
    requires Draw1D(a, xdim, start, end).Ok?
    ensures var w := RowWindow(start, end, PyIndex(a.shape, xdim).value, a.shape[0]);
      RowsDrawn(a, w.0, w.1, Draw1D(a, xdim, start, end).value)
  {
    var c := a.shape[1];
    var w := RowWindow(start, end, PyIndex(a.shape, xdim).value, a.shape[0]);
    assert a.shape[1..] == [c];
    assert Product([c]) == c;
    SliceDrawsRows(a, w.0, w.1);
  }

  /** Slicing the cells of rows `lo` to `hi` of a two-axis array gives
      those rows. */
  lemma SliceDrawsRows(a: DataArray, lo: nat, hi: nat)
    requires |a.shape| == 2 && |a.data| == a.shape[0] * a.shape[1] && lo < hi <= a.shape[0]
    ensures RowsDrawn(a, lo, hi, Text.PySlice(a.data, lo * a.shape[1], hi * a.shape[1]))
  {
    var c := a.shape[1];
    var y := Text.PySlice(a.data, lo * c, hi * c);
    RowsLength(a.data, a.shape[0], c, lo, hi);
    forall row, col | lo <= row < hi && 0 <= col < c
      ensures 0 <= (row - lo) * c + col < |y|
      ensures y[(row - lo) * c + col] == Cell(a, row, col)
    {
      RowCell(a.data, a.shape[0], c, lo, hi, row, col);
    }
  }

  /** Rows `lo` to `hi` of a row-major sequence of rows of width `c`,
      sliced Python's way, hold `hi - lo` rows of cells. */
  lemma RowsLength<T>(data: seq<T>, rows: nat, c: nat, lo: nat, hi: nat)
    requires |data| == rows * c && lo < hi <= rows
    ensures |Text.PySlice(data, lo * c, hi * c)| == (hi - lo) * c
  {
    MulMono(hi, rows, c);
    MulMono(lo, hi, c);
    MulAdd(hi - lo, lo, c);
  }

  /** Cell (`row`, `col`) of a row-major sequence of rows of width `c`, in
      the slice of rows `lo` to `hi`. */
  lemma RowCell<T>(data: seq<T>, rows: nat, c: nat, lo: nat, hi: nat, row: nat, col: nat)
    requires |data| == rows * c && hi <= rows
    requires lo <= row < hi && col < c
    ensures 0 <= (row - lo) * c + col < |Text.PySlice(data, lo * c, hi * c)|
    ensures 0 <= row * c + col < |data|
    ensures Text.PySlice(data, lo * c, hi * c)[(row - lo) * c + col] == data[row * c + col]
  {
    RowsLength(data, rows, c, lo, hi);
    MulNonNegative(row - lo, c);
    MulNonNegative(row, c);
    MatrixBound(row - lo, col, hi - lo, c);
    MatrixBound(row, col, rows, c);
    MulAdd(row - lo, lo, c);
    MulMono(lo, hi, c);
  }

  lemma MulNonNegative(x: nat, c: nat)
    ensures x * c >= 0
  {
  }

  lemma MulAdd(x: nat, y: nat, c: nat)
    ensures (x + y) * c == x * c + y * c
  {
  }

  /** Cell (`row`, `col`) of a two-axis array stored row-major. */
  function Cell(a: DataArray, row: nat, col: nat): Atom
    requires |a.shape| == 2 && row < a.shape[0] && col < a.shape[1] && |a.data| == a.shape[0] * a.shape[1]
  {
    MatrixBound(row, col, a.shape[0], a.shape[1]);
    a.data[row * a.shape[1] + col]
  }

  lemma MatrixBound(row: nat, col: nat, r: nat, c: nat)
    requires row < r && col < c
    ensures row * c + col < r * c
  {
    MulSucc(row, c);
    MulMono(row + 1, r, c);
  }

  /** One drawn series of `__draw_2d`: the window of column `i` when x is
      the first axis, of row `i` when it is the second. A series index
      beyond the other axis fails. */
  function Series(a: DataArray, xdim: nat, lo: nat, hi: nat, i: nat): (r: Result<seq<Atom>>)
    requires xdim <= 1 && |a.shape| == 2 && |a.data| == a.shape[0] * a.shape[1] && hi <= a.shape[xdim]
    ensures r.Ok? <==> i < a.shape[1 - xdim]
    ensures r.Err? ==> r.error == IndexError
    ensures r.Ok? ==> |r.value| == (if lo < hi then hi - lo else 0)
    ensures r.Ok? && xdim == 0 ==> forall k | 0 <= k < |r.value| :: r.value[k] == Cell(a, lo + k, i)
    ensures r.Ok? && xdim == 1 ==> forall k | 0 <= k < |r.value| :: r.value[k] == Cell(a, i, lo + k)
  {
    if i >= a.shape[1 - xdim] then Err(IndexError)
    else if lo >= hi then Ok([])
    else if xdim == 0 then Ok(seq(hi - lo, k requires 0 <= k < hi - lo => Cell(a, lo + k, i)))
    else Ok(seq(hi - lo, k requires 0 <= k < hi - lo => Cell(a, i, lo + k)))
  }

  function AllSeries(a: DataArray, xdim: nat, lo: nat, hi: nat, count: nat): (r: Result<seq<seq<Atom>>>)
    requires xdim <= 1 && |a.shape| == 2 && |a.data| == a.shape[0] * a.shape[1] && hi <= a.shape[xdim]
    ensures r.Ok? <==> count <= a.shape[1 - xdim]
    ensures r.Err? ==> r.error == IndexError
    ensures r.Ok? ==> |r.value| == count
    ensures r.Ok? ==> forall i | 0 <= i < count :: Series(a, xdim, lo, hi, i) == Ok(r.value[i])
  {
    if count == 0 then Ok([])
    else
      var rest :- AllSeries(a, xdim, lo, hi, count - 1);
      var last :- Series(a, xdim, lo, hi, count - 1);
      Ok(rest + [last])
  }

  /** The rows a clamped window selects along an axis of length `n`, as
      Python reads the slice `[start:end]`: a clamped end below 0 counts
      from the end of the axis. */
  function SliceWindow(start: int, end: int, n: nat): (w: (nat, nat))
    ensures w.0 <= n && w.1 <= n
    ensures end >= 0 ==> w.1 == ClampWindow(start, end, n).1
    ensures start <= n ==> w.0 == ClampWindow(start, end, n).0
  {
    RowWindow(start, end, n, n)
  }

  /** `__draw_2d` for a two-axis array with x on axis 0 or 1: the window is
      clamped to the x axis, the series are named by the other dimension's
      labels (by number when it has none), and each series is the window of
      one column (x first) or one row (x second). The x dimension must have
      an axis and the other one labels, so neither may be of the wrong
      kind. The x values number `end - start` of the clamped window, so
      setting the axis limits to the first and the last of them fails with
      IndexError when the clamped window is empty. */
  function Draw2D(a: DataArray, xdim: nat, start: int, end: int): (r: Result<seq<seq<Atom>>>)
    requires xdim <= 1 && |a.shape| == 2 && |a.dimensions| == 2 && |a.data| == a.shape[0] * a.shape[1]
    ensures a.dimensions[xdim].Kind() == Set || a.dimensions[1 - xdim].Kind() != Set ==> r == Err(AttributeError)
    ensures a.dimensions[xdim].Kind() != Set && a.dimensions[1 - xdim].SetDimension? ==>
      var c := ClampWindow(start, end, a.shape[xdim]);
      && (r.Ok? <==> |a.dimensions[1 - xdim].labels| <= a.shape[1 - xdim] && c.0 < c.1)
      && (r.Err? ==> r.error == IndexError)
    ensures r.Ok? ==>
      var labels := a.dimensions[1 - xdim].labels;
      |r.value| == (if labels == [] then a.shape[1 - xdim] else |labels|)
    ensures r.Ok? ==>
      var c := ClampWindow(start, end, a.shape[xdim]);
      && 0 <= c.0 < c.1 <= a.shape[xdim]
      && forall i | 0 <= i < |r.value| ::
        && |r.value[i]| == c.1 - c.0
        && (xdim == 0 ==> forall k | 0 <= k < |r.value[i]| :: r.value[i][k] == Cell(a, c.0 + k, i))
        && (xdim == 1 ==> forall k | 0 <= k < |r.value[i]| :: r.value[i][k] == Cell(a, i, c.0 + k))
  {
    var c := ClampWindow(start, end, a.shape[xdim]);
    var w := SliceWindow(start, end, a.shape[xdim]);
    if a.dimensions[xdim].SetDimension? then Err(AttributeError)
    else
      var yd := a.dimensions[1 - xdim];
      if !yd.SetDimension? then Err(AttributeError)
      else
        var count := if yd.labels == [] then a.shape[1 - xdim] else |yd.labels|;
        var r := AllSeries(a, xdim, w.0, w.1, count);
        assert r.Ok? ==> forall i | 0 <= i < count :: Series(a, xdim, w.0, w.1, i) == Ok(r.value[i]);
        if r.Err? then r
        else if c.1 - c.0 <= 0 then Err(IndexError)
        else r
  }
}

=== FILE: results.dfy ===
/** Failure-compatible wrappers shared by every module of the model.

    The converters signal failure by raising Python exceptions; the model
    returns an `Err` carrying the exception class instead, so every error
    path of the source is an explicit value here.
 */
module Results {

  datatype Option<+T> = None | Some(value: T)

  /** The exception classes the modelled code can raise. */
  datatype Error =
    | TypeError
    | ValueError
    | KeyError(key: string)
    | IndexError
    | AttributeError
    | RuntimeError
      /** nixio refuses to create a second entity with an existing name. */
    | DuplicateName(name: string)
      /** A Python builtin conversion this model does not evaluate
          (parsing or printing a number as text). */
    | Unmodelled

  datatype Result<+T> = Ok(value: T) | Err(error: Error) {

    predicate IsFailure() {
      Err?
    }

    function PropagateFailure<U>(): Result<U>
      requires Err?
    {
      Err(error)
    }

    function Extract(): T
      requires Ok?
    {
      value
    }
  }
}

=== FILE: signal_reader.dfy ===
/** Reading the samples back: `merge_data_arrays`, which stacks the
    per-channel arrays of a split file into one matrix, and the choice in
    `import_nix` between merging and taking the one array as it is.
 */
module SignalReader {
  import opened Results
  import opened Nix
  import opened SignalWriter

  function Contents(arrays: seq<DataArray>): (ts: seq<Tensor>)
    ensures |ts| == |arrays|
    ensures forall i | 0 <= i < |arrays| :: ts[i] == Content(arrays[i])
  {
    seq(|arrays|, i requires 0 <= i < |arrays| => Content(arrays[i]))
  }

  function CellRows(ts: seq<Tensor>): (rows: seq<seq<Atom>>)
    ensures |rows| == |ts|
    ensures forall i | 0 <= i < |ts| :: rows[i] == ts[i].cells
  {
    seq(|ts|, i requires 0 <= i < |ts| => ts[i].cells)
  }

  predicate SameShape(ts: seq<Tensor>) {
    forall i | 0 <= i < |ts| :: ts[i].shape == ts[0].shape
  }

  /** `merge_data_arrays`: `np.array` over the arrays' contents. Arrays of
      one shape are stacked along a new first axis, row `i` holding array
      `i`; arrays of different shapes are refused with ValueError; no
      arrays at all give an empty one-axis array. */
  function MergeDataArrays(ts: seq<Tensor>): (r: Result<Tensor>)
    requires forall i | 0 <= i < |ts| :: WellFormed(ts[i])
    ensures r.Ok? <==> SameShape(ts)
    ensures r.Err? ==> r.error == ValueError
    ensures r.Ok? && ts == [] ==> r.value == Tensor([0], [])
    ensures r.Ok? && ts != [] ==>
      && r.value.shape == [|ts|] + ts[0].shape
      && WellFormed(r.value)
      && var k := |ts[0].cells|;
      && (forall i | 0 <= i < |ts| :: i * k + k <= |r.value.cells|)
      && (forall i | 0 <= i < |ts| :: r.value.cells[i * k .. i * k + k] == ts[i].cells)
  {
    if !SameShape(ts) then Err(ValueError)
    else if ts == [] then Ok(Tensor([0], []))
    else
      var k := |ts[0].cells|;
      var rows := CellRows(ts);
      assert WellFormed(ts[0]);
      forall i | 0 <= i < |rows|
        ensures |rows[i]| == k
      {
        assert WellFormed(ts[i]) && ts[i].shape == ts[0].shape;
      }
      FlattenRows(rows, k);
      var shape := [|ts|] + ts[0].shape;
      assert shape[1..] == ts[0].shape;
      Ok(Tensor(shape, Flatten(rows)))
  }

  /** The array `import_nix` hands to MNE: the merge of the group's arrays
      when there are several, otherwise the one array as it is stored
      (IndexError when the group holds none). */
  function ImportData(ts: seq<Tensor>): (r: Result<Tensor>)
    requires forall i | 0 <= i < |ts| :: WellFormed(ts[i])
    ensures |ts| > 1 ==> r == MergeDataArrays(ts)
    ensures |ts| == 1 ==> r == Ok(ts[0])
    ensures ts == [] ==> r == Err(IndexError)
  {
    if |ts| > 1 then MergeDataArrays(ts)
    else if |ts| == 1 then Ok(ts[0])
    else Err(IndexError)
  }

  /** `import_nix` with the merge also applied to a lone one-axis array,
      the per-channel array of a one-channel split file. */
  function ImportDataCorrected(ts: seq<Tensor>): (r: Result<Tensor>)
    requires forall i | 0 <= i < |ts| :: WellFormed(ts[i])
    ensures |ts| == 1 && |ts[0].shape| == 1 ==> r == Ok(Tensor([1] + ts[0].shape, ts[0].cells))
    ensures |ts| == 1 && |ts[0].shape| != 1 ==> r == Ok(ts[0])
    ensures |ts| != 1 ==> r == ImportData(ts)
  {
    if |ts| > 1 || (|ts| == 1 && |ts[0].shape| == 1) then
      var m := MergeDataArrays(ts);
      assert |ts| == 1 ==> Flatten(CellRows(ts)) == ts[0].cells by {
        if |ts| == 1 {
          assert CellRows(ts)[1..] == [];
        }
      }
      m
    else ImportData(ts)
  }

  /** The arrays of a recording written in split mode, with the channels
      along the rows, are well formed. */
  lemma {:induction false} ChannelArraysWellFormed(rec: Recording, base: nat)
    requires rec.Valid() && |rec.rows| == rec.nchan && rec.nchan <= |rec.chNames|
    ensures forall i | 0 <= i < rec.nchan :: WellFormed(Contents(ChannelArrays(rec, 0, base, rec.nchan))[i])
    ensures forall i | 0 <= i < rec.nchan ::
      Contents(ChannelArrays(rec, 0, base, rec.nchan))[i] == Tensor([rec.width], rec.rows[i])
  {
    var ts := Contents(ChannelArrays(rec, 0, base, rec.nchan));
    forall i | 0 <= i < rec.nchan
      ensures ts[i] == Tensor([rec.width], rec.rows[i]) && WellFormed(ts[i])
    {
      assert [rec.width][1..] == [];
    }
  }

  /** Merging the per-channel arrays of a split recording gives back exactly
      the matrix single mode stores: same shape, same cells. */
  lemma {:induction false} MergeSplitChannels(rec: Recording, base: nat)
    requires rec.Valid() && |rec.rows| == rec.nchan && 1 <= rec.nchan <= |rec.chNames|
    ensures ChannelAxis(rec.Shape(), rec.nchan) == Ok(0)
    ensures forall i | 0 <= i < rec.nchan :: WellFormed(Contents(ChannelArrays(rec, 0, base, rec.nchan))[i])
    ensures MergeDataArrays(Contents(ChannelArrays(rec, 0, base, rec.nchan)))
         == Ok(Tensor(rec.Shape(), Flatten(rec.rows)))
  {
    assert rec.Shape()[0] == rec.nchan;
    ChannelArraysWellFormed(rec, base);
    var ts := Contents(ChannelArrays(rec, 0, base, rec.nchan));
    assert CellRows(ts) == rec.rows;
    assert [|ts|] + ts[0].shape == rec.Shape();
  }

  /** A split recording with several channels is read back as the matrix
      single mode would have stored. */
  lemma {:induction false} ImportSplitRecording(rec: Recording, base: nat)
    requires rec.Valid() && |rec.rows| == rec.nchan && 2 <= rec.nchan <= |rec.chNames|
    ensures forall i | 0 <= i < rec.nchan :: WellFormed(Contents(ChannelArrays(rec, 0, base, rec.nchan))[i])
    ensures ImportData(Contents(ChannelArrays(rec, 0, base, rec.nchan))) == Ok(Tensor(rec.Shape(), Flatten(rec.rows)))
  {
    MergeSplitChannels(rec, base);
  }

  /** A one-channel recording written in split mode is read back as its one
      channel's samples, without the channel axis that single mode stores. */
  lemma {:induction false} OneChannelSplitLosesChannelAxis(rec: Recording, base: nat)
    requires rec.Valid() && |rec.rows| == rec.nchan == 1 <= |rec.chNames|
    ensures WellFormed(Contents(ChannelArrays(rec, 0, base, 1))[0])
    ensures ImportData(Contents(ChannelArrays(rec, 0, base, 1))) == Ok(Tensor([rec.width], rec.rows[0]))
    ensures Tensor([rec.width], rec.rows[0]) != Tensor(rec.Shape(), Flatten(rec.rows))
  {
    ChannelArraysWellFormed(rec, base);
  }

  /** With the correction, every split recording is read back as the matrix
      single mode stores, one channel included. */
  lemma {:induction false} ImportSplitRecordingCorrected(rec: Recording, base: nat)
    requires rec.Valid() && |rec.rows| == rec.nchan && 1 <= rec.nchan <= |rec.chNames|
    ensures forall i | 0 <= i < rec.nchan :: WellFormed(Contents(ChannelArrays(rec, 0, base, rec.nchan))[i])
    ensures ImportDataCorrected(Contents(ChannelArrays(rec, 0, base, rec.nchan)))
         == Ok(Tensor(rec.Shape(), Flatten(rec.rows)))
  {
    MergeSplitChannels(rec, base);
    if rec.nchan == 1 {
      assert rec.rows == [rec.rows[0]];
      assert Flatten(rec.rows) == rec.rows[0] + Flatten(rec.rows[1..]);
    }
  }

  /** The correction leaves single mode alone: its one matrix is read back
      as stored. */
  lemma {:induction false} ImportSingleRecordingCorrected(rec: Recording)
    requires rec.Valid()
    ensures WellFormed(Tensor(rec.Shape(), Flatten(rec.rows)))
    ensures ImportDataCorrected([Tensor(rec.Shape(), Flatten(rec.rows))]) == Ok(Tensor(rec.Shape(), Flatten(rec.rows)))
  {
    FlattenRows(rec.rows, rec.width);
    var shape := rec.Shape();
    assert shape[1..] == [rec.width] && shape[1..][1..] == [];
    assert Product(shape[1..]) == rec.width;
    assert Product(shape) == |rec.rows| * rec.width;
  }
}

=== FILE: signal_writer.dfy ===
/** The two ways the writer stores a recording's samples: one array holding
    the whole sample matrix (`write_single_da`), or one array per channel
    (`write_multi_da`).
 */
module SignalWriter {
  import opened Results
  import opened Nix
  import opened Layout

  /** What the writers read from an MNE raw recording: the channel count of
      its info, its channel names, the sample matrix `get_data()` as a list
      of rows of `width` samples each, and the sample times in seconds. */
  datatype Recording = Recording(nchan: nat, chNames: seq<string>, rows: seq<seq<Atom>>, width: nat, times: seq<real>)
  {
    predicate Valid() {
      forall i | 0 <= i < |rows| :: |rows[i]| == width
    }

    function Shape(): seq<nat> {
      [|rows|, width]
    }

    /** `n_times`, the number of samples per channel. */
    function NTimes(): nat {
      |times|
    }
  }

  /** The name of the one array written in single mode. */
  const SINGLE_ARRAY_NAME: string := "EEG Data"

  /** The unit both writers give the samples. */
  const SAMPLE_UNIT: string := "V"

  /** Row-major storage of a matrix. */
  function Flatten(rows: seq<seq<Atom>>): seq<Atom> {
    if rows == [] then [] else rows[0] + Flatten(rows[1..])
  }

  /** Row `i` of a matrix with rows of width `w` occupies cells
      `i*w .. (i+1)*w` of its row-major storage. */
  lemma {:induction false} FlattenRows(rows: seq<seq<Atom>>, w: nat)
    requires forall i | 0 <= i < |rows| :: |rows[i]| == w
    ensures |Flatten(rows)| == |rows| * w
    ensures forall i | 0 <= i < |rows| :: i * w + w <= |rows| * w
    ensures forall i | 0 <= i < |rows| :: Flatten(rows)[i * w .. i * w + w] == rows[i]
  {
    RowBounds(|rows|, w);
    if rows != [] {
      var rest := rows[1..];
      FlattenRows(rest, w);
      var f := Flatten(rows);
      assert f == rows[0] + Flatten(rest);
      MulSucc(|rest|, w);
      forall i | 0 <= i < |rows|
        ensures f[i * w .. i * w + w] == rows[i]
      {
        if i > 0 {
          var k := (i - 1) * w;
          MulSucc(i - 1, w);
          assert rows[i] == rest[i - 1];
          SliceAfterHead(rows[0], Flatten(rest), k);
        }
      }
    }
  }

  lemma RowBounds(n: nat, w: nat)
    ensures forall i | 0 <= i < n :: i * w + w <= n * w
  {
    forall i | 0 <= i < n
      ensures i * w + w <= n * w
    {
      MulSucc(i, w);
      MulMono(i + 1, n, w);
    }
  }

  lemma SliceAfterHead<T>(a: seq<T>, b: seq<T>, k: nat)
    requires k + |a| <= |b|
    ensures (a + b)[k + |a| .. k + |a| + |a|] == b[k .. k + |a|]
  {
  }

  /** The channel axis of `write_multi_da`: the first axis whose length is
      the channel count, or RuntimeError when no axis has that length. */
  function ChannelAxis(shape: seq<nat>, nchan: nat): (r: Result<nat>)
    ensures r.Ok? <==> nchan in shape
    ensures r.Ok? ==> r.value < |shape| && shape[r.value] == nchan && nchan !in shape[..r.value]
    ensures r.Err? ==> r.error == RuntimeError
  {
    if shape == [] then Err(RuntimeError)
    else if shape[0] == nchan then Ok(0)
    else
      var axis :- ChannelAxis(shape[1..], nchan);
      assert shape[..axis + 1] == [shape[0]] + shape[1..][..axis];
      Ok(axis + 1)
  }

  /** The dimension descriptor `write_single_da` attaches for an axis of the
      given length: channel labels when it equals the channel count, else the
      time axis when it equals the sample count, else none. */
  function AxisDimension(len: nat, rec: Recording): Option<Dimension> {
    if len == rec.nchan then Some(SetDimension(rec.chNames))
    else if len == rec.NTimes() then Some(TimeDimension(rec.times))
    else None
  }

  /** The dimensions `write_single_da` attaches, in axis order: an axis
      whose length is neither the channel count nor the sample count gets no
      descriptor, so the array may end up with fewer descriptors than axes. */
  function SingleDimensions(shape: seq<nat>, rec: Recording): (dims: seq<Dimension>)
    ensures |dims| <= |shape|
    ensures |dims| == |shape| <==> forall i | 0 <= i < |shape| :: shape[i] == rec.nchan || shape[i] == rec.NTimes()
    ensures forall d | d in dims :: d == SetDimension(rec.chNames) || d == TimeDimension(rec.times)
    ensures |dims| == |shape| ==>
      forall i | 0 <= i < |shape| ::
        dims[i] == (if shape[i] == rec.nchan then SetDimension(rec.chNames) else TimeDimension(rec.times))
  {
    if shape == [] then []
    else
      var rest := SingleDimensions(shape[1..], rec);
      match AxisDimension(shape[0], rec)
      case Some(d) => [d] + rest
      case None => rest
  }

  /** `write_single_da`: one array named "EEG Data" holding the whole sample
      matrix in volts, listed in the raw data group. */
  function WriteSingleDa(rec: Recording, blk: Block): (r: Result<Block>)
    ensures r.Ok? <==> SINGLE_ARRAY_NAME !in ArrayNames(blk.arrays)
    ensures r.Err? ==> r.error == DuplicateName(SINGLE_ARRAY_NAME)
    ensures r.Ok? ==>
      && |r.value.arrays| == |blk.arrays| + 1
      && r.value.arrays[..|blk.arrays|] == blk.arrays
      && var a := r.value.arrays[|blk.arrays|];
      && a.name == SINGLE_ARRAY_NAME && a.typeName == RAW_DATA_TYPE && a.unit == Some(SAMPLE_UNIT)
      && Content(a) == Tensor(rec.Shape(), Flatten(rec.rows))
      && a.dimensions == SingleDimensions(rec.Shape(), rec)
      && r.value.group.arrays == blk.group.arrays + [SINGLE_ARRAY_NAME]
      && r.value.tags == blk.tags && r.value.group.tags == blk.group.tags
      && r.value.name == blk.name && r.value.typeName == blk.typeName
  {
    var shape := rec.Shape();
    var a := DataArray("", SINGLE_ARRAY_NAME, RAW_DATA_TYPE, shape, Flatten(rec.rows), Some(SAMPLE_UNIT), None,
                       SingleDimensions(shape, rec), None);
    var b :- CreateDataArray(blk, a);
    Ok(AddToGroup(b, SINGLE_ARRAY_NAME))
  }

  /** In the usual layout (channels by samples, with fewer channels than
      samples or more) the single array has channel labels on its first axis
      and the time axis on its second. */
  lemma {:induction false} UsualLayoutDimensions(rec: Recording)
    requires rec.Shape() == [rec.nchan, rec.NTimes()] && rec.nchan != rec.NTimes()
    ensures SingleDimensions(rec.Shape(), rec) == [SetDimension(rec.chNames), TimeDimension(rec.times)]
  {
    var shape := rec.Shape();
    assert shape[1..] == [rec.NTimes()] && shape[1..][1..] == [];
    assert SingleDimensions(shape[1..], rec) == [TimeDimension(rec.times)];
  }

  /** A recording with as many samples as channels gets channel labels on
      both axes and no time axis: the channel test is made first. */
  lemma {:induction false} SquareLayoutHasNoTimeAxis(rec: Recording)
    requires rec.Shape() == [rec.nchan, rec.NTimes()] && rec.nchan == rec.NTimes()
    ensures SingleDimensions(rec.Shape(), rec) == [SetDimension(rec.chNames), SetDimension(rec.chNames)]
    ensures TimeDimension(rec.times) !in SingleDimensions(rec.Shape(), rec)
  {
    var shape := rec.Shape();
    assert shape[1..] == [rec.nchan] && shape[1..][1..] == [];
    assert SingleDimensions(shape[1..], rec) == [SetDimension(rec.chNames)];
  }

  /** Channel `i` of the matrix along the channel axis, as
      `np.rollaxis(data, axis)[i]` yields it: row `i` when the channels run
      along the rows, column `i` when they run along the columns. */
  function ChannelData(rec: Recording, axis: nat, i: nat): (samples: seq<Atom>)
    requires rec.Valid() && axis < 2 && i < rec.Shape()[axis]
  {
    if axis == 0 then rec.rows[i]
    else seq(|rec.rows|, t requires 0 <= t < |rec.rows| => rec.rows[t][i])
  }

  /** The array `write_multi_da` creates for channel `i`, stored as the
      `base + i`-th array of the block. */
  function ChannelArray(rec: Recording, axis: nat, base: nat, i: nat): DataArray
    requires rec.Valid() && axis < 2 && i < rec.Shape()[axis] && i < |rec.chNames|
  {
    var samples := ChannelData(rec, axis, i);
    DataArray(ArrayId(base + i), rec.chNames[i], RAW_DATA_TYPE, [|samples|], samples, Some(SAMPLE_UNIT), None,
              [TimeDimension(rec.times)], None)
  }

  /** The arrays for the first `n` channels. */
  function ChannelArrays(rec: Recording, axis: nat, base: nat, n: nat): (arrays: seq<DataArray>)
    requires rec.Valid() && axis < 2 && n <= rec.Shape()[axis] && n <= |rec.chNames|
    ensures |arrays| == n
    ensures forall i | 0 <= i < n :: arrays[i] == ChannelArray(rec, axis, base, i)
    ensures ArrayNames(arrays) == rec.chNames[..n]
  {
    seq(n, i requires 0 <= i < n => ChannelArray(rec, axis, base, i))
  }

  /** Names that can be created one after another next to `existing`
      without a clash: pairwise distinct and not already present. */
  predicate FreshNames(names: seq<string>, existing: seq<string>) {
    && (forall i | 0 <= i < |names| :: names[i] !in existing)
    && (forall i, j | 0 <= i < j < |names| :: names[i] != names[j])
  }

  /** `write_multi_da`: one array per channel along the channel axis, in
      channel order, each named after its channel, in volts, with the time
      axis as its one dimension, and each listed in the raw data group.
      It fails with RuntimeError when no axis has the channel count, with
      IndexError when there are fewer names than channels, and with
      DuplicateName when two channels share a name or a name is taken. */
  method WriteMultiDa(rec: Recording, blk: Block) returns (r: Result<Block>)
    requires rec.Valid()
    ensures r.Ok? <==>
      && rec.nchan in rec.Shape()
      && rec.nchan <= |rec.chNames|
      && FreshNames(rec.chNames[..rec.nchan], ArrayNames(blk.arrays))
    ensures rec.nchan !in rec.Shape() ==> r == Err(RuntimeError)
    ensures rec.nchan in rec.Shape() && |rec.chNames| < rec.nchan && FreshNames(rec.chNames, ArrayNames(blk.arrays))
      ==> r == Err(IndexError)
    ensures rec.nchan in rec.Shape() && r.Err? ==>
      r.error == IndexError || (r.error.DuplicateName? && r.error.name in rec.chNames)
    ensures r.Ok? ==>
      var axis := ChannelAxis(rec.Shape(), rec.nchan).value;
      r.value == blk.(arrays := blk.arrays + ChannelArrays(rec, axis, |blk.arrays|, rec.nchan),
                      group := blk.group.(arrays := blk.group.arrays + rec.chNames[..rec.nchan]))
  {
    var found := ChannelAxis(rec.Shape(), rec.nchan);
    if found.Err? {
      return Err(RuntimeError);
    }
    r := WriteChannels(rec, found.value, blk);
  }

  /** The loop of `write_multi_da` over the channels along `axis`. */
  method WriteChannels(rec: Recording, axis: nat, blk: Block) returns (r: Result<Block>)
    requires rec.Valid() && axis < 2 && rec.Shape()[axis] == rec.nchan
    ensures r.Ok? <==> rec.nchan <= |rec.chNames| && FreshNames(rec.chNames[..rec.nchan], ArrayNames(blk.arrays))
    ensures |rec.chNames| < rec.nchan && FreshNames(rec.chNames, ArrayNames(blk.arrays)) ==> r == Err(IndexError)
    ensures r.Err? ==> r.error == IndexError || (r.error.DuplicateName? && r.error.name in rec.chNames)
    ensures r.Ok? ==>
      r.value == blk.(arrays := blk.arrays + ChannelArrays(rec, axis, |blk.arrays|, rec.nchan),
                      group := blk.group.(arrays := blk.group.arrays + rec.chNames[..rec.nchan]))
  {
    var b := blk;
    var i := 0;
    while i < rec.nchan
      invariant i <= rec.nchan && i <= |rec.chNames|
      invariant b == blk.(arrays := blk.arrays + ChannelArrays(rec, axis, |blk.arrays|, i),
                          group := blk.group.(arrays := blk.group.arrays + rec.chNames[..i]))
      invariant FreshNames(rec.chNames[..i], ArrayNames(blk.arrays))
    {
      if i >= |rec.chNames| {
        return Err(IndexError);
      }
      var name := rec.chNames[i];
      assert ArrayNames(b.arrays) == ArrayNames(blk.arrays) + rec.chNames[..i];
      var created := CreateDataArray(b, ChannelArray(rec, axis, |blk.arrays|, i).(id := ""));
      if created.Err? {
        ClashBreaksFreshness(rec.chNames, i, ArrayNames(blk.arrays));
        return Err(created.error);
      }
      ChannelStep(rec, axis, blk, b, i, created.value);
      b := AddToGroup(created.value, name);
      i := i + 1;
    }
    return Ok(b);
  }

  /** One iteration of the loop keeps its invariant. */
  lemma ChannelStep(rec: Recording, axis: nat, blk: Block, b: Block, i: nat, c: Block)
    requires rec.Valid() && axis < 2 && rec.Shape()[axis] == rec.nchan
    requires i < rec.nchan && i < |rec.chNames|
    requires b == blk.(arrays := blk.arrays + ChannelArrays(rec, axis, |blk.arrays|, i),
                       group := blk.group.(arrays := blk.group.arrays + rec.chNames[..i]))
    requires FreshNames(rec.chNames[..i], ArrayNames(blk.arrays))
    requires ArrayNames(b.arrays) == ArrayNames(blk.arrays) + rec.chNames[..i]
    requires CreateDataArray(b, ChannelArray(rec, axis, |blk.arrays|, i).(id := "")) == Ok(c)
    ensures AddToGroup(c, rec.chNames[i])
         == blk.(arrays := blk.arrays + ChannelArrays(rec, axis, |blk.arrays|, i + 1),
                 group := blk.group.(arrays := blk.group.arrays + rec.chNames[..i + 1]))
    ensures FreshNames(rec.chNames[..i + 1], ArrayNames(blk.arrays))
  {
    FreshExtends(rec.chNames, i, ArrayNames(blk.arrays));
    ChannelArraysSnoc(rec, axis, |blk.arrays|, i);
  }

  lemma {:induction false} ChannelArraysSnoc(rec: Recording, axis: nat, base: nat, i: nat)
    requires rec.Valid() && axis < 2 && i < rec.Shape()[axis] && i < |rec.chNames|
    ensures ChannelArrays(rec, axis, base, i + 1)
         == ChannelArrays(rec, axis, base, i) + [ChannelArray(rec, axis, base, i)]
    ensures rec.chNames[..i + 1] == rec.chNames[..i] + [rec.chNames[i]]
  {
  }

  /** A name new to the existing names and to the earlier names keeps the
      longer prefix fresh. */
  lemma {:induction false} FreshExtends(names: seq<string>, i: nat, existing: seq<string>)
    requires i < |names| && FreshNames(names[..i], existing) && names[i] !in existing + names[..i]
    ensures FreshNames(names[..i + 1], existing)
  {
    var p := names[..i + 1];
    forall j, k | 0 <= j < k < |p|
      ensures p[j] != p[k]
    {
      if k == i {
        assert p[j] == names[..i][j];
      } else {
        assert p[j] == names[..i][j] && p[k] == names[..i][k];
      }
    }
    forall j | 0 <= j < |p|
      ensures p[j] !in existing
    {
      if j < i {
        assert p[j] == names[..i][j];
      }
    }
  }

  /** A name that clashes with the existing names or with an earlier name
      rules out every longer prefix being fresh. */
  lemma {:induction false} ClashBreaksFreshness(names: seq<string>, i: nat, existing: seq<string>)
    requires i < |names| && names[i] in existing + names[..i]
    ensures forall n | i < n <= |names| :: !FreshNames(names[..n], existing)
  {
    forall n | i < n <= |names|
      ensures !FreshNames(names[..n], existing)
    {
      var p := names[..n];
      assert p[i] == names[i];
      if names[i] !in existing {
        var j :| 0 <= j < i && names[..i][j] == names[i];
        assert p[j] == p[i];
      }
    }
  }
}

=== FILE: stimuli.dfy ===
/** The annotations of a recording as the writer stores them: grouping by
    description (`separate_stimulus_types`), the positions and extents arrays and
    the multi-tag of one group (`create_stimulus_multi_tag`), and the choice
    between one tag for all annotations and one tag per description
    (`write_stim_tags`).
 */
module Stimuli {
  import opened Results
  import opened Nix
  import opened Layout
  import Text

  /** One annotation: its description (the label the stimuli are grouped
      by), its onset and its duration, both in seconds. */
  datatype Stimulus = Stimulus(description: string, onset: real, duration: real)

  /** One entry of the dictionary `separate_stimulus_types` returns: a description
      and the annotations that carry it. */
  datatype StimGroup = StimGroup(description: string, stims: seq<Stimulus>)

  function GroupLabels(groups: seq<StimGroup>): (labels: seq<string>)
    ensures |labels| == |groups|
    ensures forall i | 0 <= i < |groups| :: labels[i] == groups[i].description
  {
    seq(|groups|, i requires 0 <= i < |groups| => groups[i].description)
  }

  lemma LabelInTail(groups: seq<StimGroup>, l: string)
    requires groups != [] && groups[0].description != l
    ensures l in GroupLabels(groups) <==> l in GroupLabels(groups[1..])
  {
    assert GroupLabels(groups) == [groups[0].description] + GroupLabels(groups[1..]);
  }

  /** All the annotations of the groups, group after group. */
  function Concat(groups: seq<StimGroup>): seq<Stimulus> {
    if groups == [] then [] else groups[0].stims + Concat(groups[1..])
  }

  // ---------------------------------------------------------------------
  // Grouping by description
  // ---------------------------------------------------------------------

  /** The position of the group of description `l`, if there is one. */
  function LabelIndex(groups: seq<StimGroup>, l: string): (r: Option<nat>)
    ensures r.Some? ==> r.value < |groups| && groups[r.value].description == l
    ensures r.None? <==> l !in GroupLabels(groups)
  {
    if groups == [] then None
    else if groups[0].description == l then Some(0)
    else
      LabelInTail(groups, l);
      match LabelIndex(groups[1..], l)
      case Some(j) => Some(j + 1)
      case None => None
  }

  /** One iteration of the loop of `separate_stimulus_types`: append the
      annotation to the list of its description, or start a new list at the end of
      the dictionary. */
  function AddStimulus(groups: seq<StimGroup>, s: Stimulus): seq<StimGroup> {
    match LabelIndex(groups, s.description)
    case Some(j) => groups[j := StimGroup(s.description, groups[j].stims + [s])]
    case None => groups + [StimGroup(s.description, [s])]
  }

  /** `separate_stimulus_types`, over the annotations in order. */
  function SeparateStimulusTypes(stims: seq<Stimulus>): seq<StimGroup>
    decreases |stims|
  {
    if stims == [] then []
    else AddStimulus(SeparateStimulusTypes(stims[..|stims| - 1]), stims[|stims| - 1])
  }

  /** The distinct labels, in the order of their first occurrence. */
  function FirstOccurrences(stims: seq<Stimulus>): seq<string>
    decreases |stims|
  {
    if stims == [] then []
    else
      var ls := FirstOccurrences(stims[..|stims| - 1]);
      if stims[|stims| - 1].description in ls then ls else ls + [stims[|stims| - 1].description]
  }

  /** The annotations with description `l`, in input order. */
  function WithLabel(stims: seq<Stimulus>, l: string): seq<Stimulus>
    decreases |stims|
  {
    if stims == [] then []
    else WithLabel(stims[..|stims| - 1], l) + (if stims[|stims| - 1].description == l then [stims[|stims| - 1]] else [])
  }

  /** The selection holds only annotations of the description, taken from
      the input. */
  lemma {:induction false} WithLabelSelects(stims: seq<Stimulus>, l: string)
    ensures forall t | t in WithLabel(stims, l) :: t.description == l && t in stims
    decreases |stims|
  {
    if stims != [] {
      var init := stims[..|stims| - 1];
      WithLabelSelects(init, l);
      assert forall t | t in init :: t in stims;
    }
  }

  /** The reference grouping: for each description in first-occurrence order, the
      annotations with that description in input order. */
  function Partition(stims: seq<Stimulus>): (groups: seq<StimGroup>)
    ensures GroupLabels(groups) == FirstOccurrences(stims)
  {
    var ls := FirstOccurrences(stims);
    seq(|ls|, i requires 0 <= i < |ls| => StimGroup(ls[i], WithLabel(stims, ls[i])))
  }

  predicate Distinct(xs: seq<string>) {
    forall i, j | 0 <= i < j < |xs| :: xs[i] != xs[j]
  }

  /** The first-occurrence labels are distinct and are exactly the labels
      that occur. */
  lemma {:induction false} FirstOccurrencesLabels(stims: seq<Stimulus>)
    ensures Distinct(FirstOccurrences(stims))
    ensures forall i | 0 <= i < |stims| :: stims[i].description in FirstOccurrences(stims)
    ensures forall l | l in FirstOccurrences(stims) :: WithLabel(stims, l) != []
    decreases |stims|
  {
    if stims != [] {
      var init, x := stims[..|stims| - 1], stims[|stims| - 1];
      FirstOccurrencesLabels(init);
      forall i | 0 <= i < |stims|
        ensures stims[i].description in FirstOccurrences(stims)
      {
        if i < |init| {
          assert stims[i] == init[i];
        }
      }
    }
  }

  /** A description that does not occur selects nothing. */
  lemma {:induction false} WithAbsentLabel(stims: seq<Stimulus>, l: string)
    requires l !in FirstOccurrences(stims)
    ensures WithLabel(stims, l) == []
    decreases |stims|
  {
    if stims != [] {
      WithAbsentLabel(stims[..|stims| - 1], l);
    }
  }

  /** The loop of `separate_stimulus_types` computes the reference grouping. */
  lemma {:induction false} SeparateIsPartition(stims: seq<Stimulus>)
    ensures SeparateStimulusTypes(stims) == Partition(stims)
    decreases |stims|
  {
    if stims != [] {
      var init, x := stims[..|stims| - 1], stims[|stims| - 1];
      SeparateIsPartition(init);
      if x.description in FirstOccurrences(init) {
        AddToExistingGroup(stims);
      } else {
        AddNewGroup(stims);
      }
    }
  }

  /** An annotation whose label already occurred joins the end of its
      label's group. */
  lemma {:induction false} AddToExistingGroup(stims: seq<Stimulus>)
    requires stims != [] && stims[|stims| - 1].description in FirstOccurrences(stims[..|stims| - 1])
    ensures AddStimulus(Partition(stims[..|stims| - 1]), stims[|stims| - 1]) == Partition(stims)
  {
    var init, x := stims[..|stims| - 1], stims[|stims| - 1];
    FirstOccurrencesLabels(init);
    var before, after := Partition(init), Partition(stims);
    var ls := FirstOccurrences(init);
    assert FirstOccurrences(stims) == ls;
    var j := LabelIndex(before, x.description).value;
    var added := AddStimulus(before, x);
    assert added == before[j := StimGroup(x.description, before[j].stims + [x])];
    forall i | 0 <= i < |ls|
      ensures added[i] == after[i]
    {
      assert after[i] == StimGroup(ls[i], WithLabel(stims, ls[i]));
      if i != j {
        assert ls[i] != x.description;
      }
    }
  }

  /** An annotation with a new label opens a group at the end. */
  lemma {:induction false} AddNewGroup(stims: seq<Stimulus>)
    requires stims != [] && stims[|stims| - 1].description !in FirstOccurrences(stims[..|stims| - 1])
    ensures AddStimulus(Partition(stims[..|stims| - 1]), stims[|stims| - 1]) == Partition(stims)
  {
    var init, x := stims[..|stims| - 1], stims[|stims| - 1];
    WithAbsentLabel(init, x.description);
    var before, after := Partition(init), Partition(stims);
    var ls := FirstOccurrences(init);
    assert FirstOccurrences(stims) == ls + [x.description];
    var added := AddStimulus(before, x);
    assert added == before + [StimGroup(x.description, [x])];
    forall i | 0 <= i < |ls| + 1
      ensures added[i] == after[i]
    {
      if i < |ls| {
        assert ls[i] != x.description;
      }
    }
  }

  /** An annotation whose description is the first group's joins that group. */
  lemma AddToFirstGroup(groups: seq<StimGroup>, s: Stimulus)
    requires groups != [] && groups[0].description == s.description
    ensures Concat(AddStimulus(groups, s)) == groups[0].stims + [s] + Concat(groups[1..])
  {
    var a := AddStimulus(groups, s);
    assert LabelIndex(groups, s.description) == Some(0);
    assert a[1..] == groups[1..];
  }

  /** An annotation of another description leaves the first group alone. */
  lemma AddPastFirstGroup(groups: seq<StimGroup>, s: Stimulus)
    requires groups != [] && groups[0].description != s.description
    ensures AddStimulus(groups, s) == [groups[0]] + AddStimulus(groups[1..], s)
  {
    match LabelIndex(groups[1..], s.description)
    case Some(j) => AddPastFirstToExisting(groups, s, j);
    case None => AddPastFirstToNew(groups, s);
  }

  lemma AddPastFirstToExisting(groups: seq<StimGroup>, s: Stimulus, j: nat)
    requires groups != [] && groups[0].description != s.description
    requires LabelIndex(groups[1..], s.description) == Some(j)
    ensures AddStimulus(groups, s) == [groups[0]] + AddStimulus(groups[1..], s)
  {
    var rest := groups[1..];
    var g := StimGroup(s.description, rest[j].stims + [s]);
    assert LabelIndex(groups, s.description) == Some(j + 1);
    assert AddStimulus(rest, s) == rest[j := g];
    assert groups == [groups[0]] + rest;
    UpdateAfterHead(groups[0], rest, j, g);
  }

  /** Updating past the head of a sequence updates its tail. */
  lemma UpdateAfterHead<T>(x: T, xs: seq<T>, j: nat, v: T)
    requires j < |xs|
    ensures ([x] + xs)[j + 1 := v] == [x] + xs[j := v]
  {
  }

  lemma AddPastFirstToNew(groups: seq<StimGroup>, s: Stimulus)
    requires groups != [] && groups[0].description != s.description
    requires LabelIndex(groups[1..], s.description) == None
    ensures AddStimulus(groups, s) == [groups[0]] + AddStimulus(groups[1..], s)
  {
    var rest := groups[1..];
    var g := StimGroup(s.description, [s]);
    assert LabelIndex(groups, s.description) == None;
    assert groups + [g] == [groups[0]] + (rest + [g]);
  }

  /** Adding an annotation adds exactly that annotation to the groups'
      contents. */
  lemma {:induction false} AddStimulusContents(groups: seq<StimGroup>, s: Stimulus)
    ensures multiset(Concat(AddStimulus(groups, s))) == multiset(Concat(groups)) + multiset{s}
    decreases |groups|
  {
    if groups == [] {
      assert Concat([StimGroup(s.description, [s])]) == [s] + Concat([]);
    } else if groups[0].description == s.description {
      AddToFirstGroup(groups, s);
    } else {
      AddStimulusContents(groups[1..], s);
      AddPastFirstGroup(groups, s);
      assert ([groups[0]] + AddStimulus(groups[1..], s))[1..] == AddStimulus(groups[1..], s);
    }
  }

  /** The grouping of `separate_stimulus_types`:
      - every annotation is in exactly one group, the one of its description;
      - each group holds only annotations of its own description, in input order;
      - the groups follow the first occurrence of their labels. */
  lemma {:induction false} SeparateStimulusTypesPartitions(stims: seq<Stimulus>)
    ensures multiset(Concat(SeparateStimulusTypes(stims))) == multiset(stims)
    ensures Distinct(GroupLabels(SeparateStimulusTypes(stims)))
    ensures GroupLabels(SeparateStimulusTypes(stims)) == FirstOccurrences(stims)
    ensures forall g | g in SeparateStimulusTypes(stims) :: g.stims == WithLabel(stims, g.description)
    ensures forall i | 0 <= i < |stims| :: stims[i].description in GroupLabels(SeparateStimulusTypes(stims))
  {
    SeparateContents(stims);
    SeparateIsPartition(stims);
    FirstOccurrencesLabels(stims);
    var groups := SeparateStimulusTypes(stims);
    forall g | g in groups
      ensures g.stims == WithLabel(stims, g.description)
    {
      var i :| 0 <= i < |groups| && groups[i] == g;
    }
  }

  /** The groups together hold every annotation exactly as often as the
      input does. */
  lemma {:induction false} SeparateContents(stims: seq<Stimulus>)
    ensures multiset(Concat(SeparateStimulusTypes(stims))) == multiset(stims)
    decreases |stims|
  {
    if stims != [] {
      var init, x := stims[..|stims| - 1], stims[|stims| - 1];
      SeparateContents(init);
      AddStimulusContents(SeparateStimulusTypes(init), x);
      MultisetSnoc(stims);
    }
  }

  lemma MultisetSnoc<T>(s: seq<T>)
    requires s != []
    ensures multiset(s) == multiset(s[..|s| - 1]) + multiset{s[|s| - 1]}
  {
    assert s == s[..|s| - 1] + [s[|s| - 1]];
  }

  /** Selecting by description keeps input order: the selection from a
      concatenation is the concatenation of the selections. */
  lemma {:induction false} WithLabelAppend(a: seq<Stimulus>, b: seq<Stimulus>, l: string)
    ensures WithLabel(a + b, l) == WithLabel(a, l) + WithLabel(b, l)
    decreases |b|
  {
    if b == [] {
      assert a + b == a;
    } else {
      var b', x := b[..|b| - 1], b[|b| - 1];
      var tail := if x.description == l then [x] else [];
      WithLabelAppend(a, b', l);
      assert (a + b)[..|a + b| - 1] == a + b';
      assert (a + b)[|a + b| - 1] == x;
      assert WithLabel(a + b, l) == WithLabel(a + b', l) + tail;
      assert WithLabel(b, l) == WithLabel(b', l) + tail;
    }
  }

  /** The groups appear in the order in which their labels first occur: a
      description listed before another occurs before every occurrence of it. */
  lemma {:induction false} FirstOccurrenceOrder(stims: seq<Stimulus>, a: nat, b: nat, j: nat)
    requires a < b < |FirstOccurrences(stims)| && j < |stims|
    requires stims[j].description == FirstOccurrences(stims)[b]
    ensures FirstOccurrences(stims)[a] in FirstOccurrences(stims[..j])
    decreases |stims|
  {
    var init, x := stims[..|stims| - 1], stims[|stims| - 1];
    var ls := FirstOccurrences(init);
    FirstOccurrencesLabels(init);
    if j < |init| {
      assert stims[j] == init[j];
      assert init[..j] == stims[..j];
      if b < |ls| {
        FirstOccurrenceOrder(init, a, b, j);
      } else {
        assert false;
      }
    } else {
      assert init == stims[..j];
    }
  }

  // ---------------------------------------------------------------------
  // The positions and extents arrays
  // ---------------------------------------------------------------------

  const POSITIONS_TYPE: string := "Stimuli Positions"
  const EXTENTS_TYPE: string := "Stimuli Extents"
  const STIM_TAG_TYPE: string := "EEG Stimuli"
  /** The tag name when all annotations go into one tag. */
  const ALL_STIMULI_NAME: string := "Stimuli"

  function Labels(stims: seq<Stimulus>): (ls: seq<string>)
    ensures |ls| == |stims| && forall i | 0 <= i < |stims| :: ls[i] == stims[i].description
  {
    seq(|stims|, i requires 0 <= i < |stims| => stims[i].description)
  }

  function Onsets(stims: seq<Stimulus>): (xs: seq<real>)
    ensures |xs| == |stims| && forall i | 0 <= i < |stims| :: xs[i] == stims[i].onset
  {
    seq(|stims|, i requires 0 <= i < |stims| => stims[i].onset)
  }

  function Durations(stims: seq<Stimulus>): (xs: seq<real>)
    ensures |xs| == |stims| && forall i | 0 <= i < |stims| :: xs[i] == stims[i].duration
  {
    seq(|stims|, i requires 0 <= i < |stims| => stims[i].duration)
  }

  /** Values as stored float cells. */
  function Reals(xs: seq<real>): (cells: seq<Atom>)
    ensures |cells| == |xs| && forall i | 0 <= i < |xs| :: cells[i] == RealAtom(xs[i])
  {
    seq(|xs|, i requires 0 <= i < |xs| => RealAtom(xs[i]))
  }

  /** The cells of `[(lead, x) for x in xs]`: each value preceded by `lead`. */
  function Pairs(lead: real, xs: seq<real>): (cells: seq<Atom>)
    ensures |cells| == 2 * |xs|
    ensures forall i | 0 <= i < |xs| :: cells[2 * i] == RealAtom(lead) && cells[2 * i + 1] == RealAtom(xs[i])
  {
    if xs == [] then []
    else
      var rest := Pairs(lead, xs[1..]);
      var cells := [RealAtom(lead), RealAtom(xs[0])] + rest;
      forall i | 1 <= i < |xs|
        ensures cells[2 * i] == RealAtom(lead) && cells[2 * i + 1] == RealAtom(xs[i])
      {
        assert cells[2 * i] == rest[2 * (i - 1)] && cells[2 * i + 1] == rest[2 * (i - 1) + 1];
        assert xs[i] == xs[1..][i - 1];
      }
      cells
  }

  /** The contents of the positions (lead 0) or extents (lead nchan - 1)
      array for data of rank `nDim`: the values themselves for rank-1 data,
      otherwise one `(lead, value)` row per value. An empty list makes an
      empty one-axis array either way. */
  function EventArray(xs: seq<real>, lead: real, nDim: nat): (t: Tensor)
    ensures WellFormed(t)
    ensures |t.shape| >= 1 && t.shape[0] == |xs|
    ensures nDim == 1 || xs == [] ==> t == Tensor([|xs|], Reals(xs))
    ensures nDim != 1 && xs != [] ==> t == Tensor([|xs|, 2], Pairs(lead, xs))
  {
    if nDim == 1 || xs == [] then
      assert [|xs|][1..] == [];
      assert Product([|xs|]) == |xs| * 1;
      Tensor([|xs|], Reals(xs))
    else
      assert [|xs|, 2][1..] == [2] && [|xs|, 2][1..][1..] == [];
      assert Product([2]) == 2;
      assert Product([|xs|, 2]) == |xs| * 2;
      Tensor([|xs|, 2], Pairs(lead, xs))
  }

  /** The array of `create_stimulus_multi_tag`: labels on its first axis and
      one label-less set dimension for each further axis of the data. */
  function EventDataArray(name: string, typeName: string, t: Tensor, stims: seq<Stimulus>, nDim: nat): DataArray {
    var extra := if nDim == 0 then 0 else nDim - 1;
    DataArray("", name, typeName, t.shape, t.cells, None, None, [SetDimension(Labels(stims))] + SetDims(extra), None)
  }

  function PositionsName(tagName: string): string {
    tagName + " onset"
  }

  function ExtentsName(tagName: string): string {
    tagName + " durations"
  }

  /** The arrays of the group, by name, that hold raw data: the references
      of the new tag. */
  function RawDataRefs(arrays: seq<DataArray>, names: seq<string>): (r: Result<seq<string>>)
    ensures r.Ok? <==> forall n | n in names :: n in ArrayNames(arrays)
    ensures r.Ok? ==> forall n | n in r.value :: n in names && FindArray(arrays, n).value.typeName == RAW_DATA_TYPE
    ensures r.Ok? ==> forall n | n in names && FindArray(arrays, n).value.typeName == RAW_DATA_TYPE :: n in r.value
  {
    if names == [] then Ok([])
    else
      var a :- FindArray(arrays, names[0]);
      var rest :- RawDataRefs(arrays, names[1..]);
      Ok(if a.typeName == RAW_DATA_TYPE then [names[0]] + rest else rest)
  }

  /** The positions and extents arrays for data of rank `nDim`, stored
      as arrays `base` and `base + 1` of the block. */
  function EventArrays(stims: seq<Stimulus>, nchan: nat, name: string, nDim: nat, base: nat): (arrays: seq<DataArray>)
    ensures |arrays| == 2
  {
    var posT := EventArray(Onsets(stims), 0.0, nDim);
    var extT := EventArray(Durations(stims), (nchan as int - 1) as real, nDim);
    [EventDataArray(PositionsName(name), POSITIONS_TYPE, posT, stims, nDim).(id := ArrayId(base)),
     EventDataArray(ExtentsName(name), EXTENTS_TYPE, extT, stims, nDim).(id := ArrayId(base + 1))]
  }

  /** Creating the positions array, then the extents array. */
  function AddEventArrays(stims: seq<Stimulus>, blk: Block, nchan: nat, name: string, nDim: nat): (r: Result<Block>)
    ensures r.Ok? <==> PositionsName(name) !in ArrayNames(blk.arrays) && ExtentsName(name) !in ArrayNames(blk.arrays)
    ensures r.Ok? ==> r.value == blk.(arrays := blk.arrays + EventArrays(stims, nchan, name, nDim, |blk.arrays|))
  {
    var es := EventArrays(stims, nchan, name, nDim, |blk.arrays|);
    var b1 :- CreateDataArray(blk, es[0]);
    assert ArrayNames(b1.arrays) == ArrayNames(blk.arrays) + [PositionsName(name)];
    assert |PositionsName(name)| != |ExtentsName(name)|;
    var b2 :- CreateDataArray(b1, es[1]);
    assert blk.arrays + es == blk.arrays + [es[0]] + [es[1]];
    Ok(b2)
  }

  /** Creating the tag over the two arrays, listing it in the group and
      pointing it at the group's raw data arrays. */
  function AddStimTag(b: Block, name: string, groupArrays: seq<string>): (r: Result<Block>)
    ensures r.Ok? <==> name !in TagNames(b.tags) && RawDataRefs(b.arrays, groupArrays).Ok?
    ensures r.Ok? ==> r.value == b.(tags := b.tags + [StimTag(name, RawDataRefs(b.arrays, groupArrays).value)],
                                   group := b.group.(tags := b.group.tags + [name]))
  {
    var b3 :- CreateMultiTag(b, StimTag(name, []));
    var refs :- RawDataRefs(b3.arrays, groupArrays);
    Ok(AddTagToGroup(b.(tags := b.tags + [StimTag(name, refs)]), name))
  }

  function StimTag(name: string, refs: seq<string>): MultiTag {
    MultiTag(name, STIM_TAG_TYPE, PositionsName(name), ExtentsName(name), refs)
  }

  /** The rank of the array the group lists first; IndexError when the
      group lists none. */
  function DataRank(blk: Block): (r: Result<nat>)
    ensures blk.group.arrays == [] ==> r == Err(IndexError)
  {
    if blk.group.arrays == [] then Err(IndexError)
    else
      var first :- FindArray(blk.arrays, blk.group.arrays[0]);
      Ok(|first.shape|)
  }

  /** `create_stimulus_multi_tag`: the rank of the group's first array
      decides the layout; the positions and extents arrays are added to the
      block (not to the group), the tag to the block and the group. */
  function CreateStimulusMultiTag(stims: seq<Stimulus>, blk: Block, nchan: nat, name: string): (r: Result<Block>)
    ensures blk.group.arrays == [] ==> r == Err(IndexError)
    ensures r.Ok? ==>
      && |r.value.arrays| == |blk.arrays| + 2 && r.value.arrays[..|blk.arrays|] == blk.arrays
      && |r.value.tags| == |blk.tags| + 1 && r.value.tags[..|blk.tags|] == blk.tags
      && r.value.group.arrays == blk.group.arrays && r.value.group.name == blk.group.name
      && r.value.name == blk.name && r.value.typeName == blk.typeName
  {
    var nDim :- DataRank(blk);
    var b2 :- AddEventArrays(stims, blk, nchan, name, nDim);
    AddStimTag(b2, name, blk.group.arrays)
  }

  /** What `create_stimulus_multi_tag` adds: a positions array named
      "<tag> onset" and an extents array named "<tag> durations", new to
      the block, each with one entry per annotation (the values themselves
      for rank-1 data, `(0, onset)` and `(nchan - 1, duration)` rows
      otherwise), the labels on their first dimension and one further set
      dimension per further axis of the data; then the tag, pointing at
      both and referring to the group's raw data arrays, listed in the
      group. */
  lemma {:induction false} StimulusTagLayout(stims: seq<Stimulus>, blk: Block, nchan: nat, name: string)
    requires CreateStimulusMultiTag(stims, blk, nchan, name).Ok?
    ensures var r := CreateStimulusMultiTag(stims, blk, nchan, name).value;
      && DataRank(blk).Ok?
      && var nDim := DataRank(blk).value;
      && |r.arrays| == |blk.arrays| + 2 && r.arrays[..|blk.arrays|] == blk.arrays
      && |r.tags| == |blk.tags| + 1 && r.tags[..|blk.tags|] == blk.tags
      && r.group.arrays == blk.group.arrays
      && r.group.tags == blk.group.tags + [name]
      && var pos, ext := r.arrays[|blk.arrays|], r.arrays[|blk.arrays| + 1];
      && pos.name == PositionsName(name) && ext.name == ExtentsName(name)
      && pos.name !in ArrayNames(blk.arrays) && ext.name !in ArrayNames(blk.arrays)
      && pos.typeName == POSITIONS_TYPE && ext.typeName == EXTENTS_TYPE
      && Content(pos) == EventArray(Onsets(stims), 0.0, nDim)
      && Content(ext) == EventArray(Durations(stims), (nchan as int - 1) as real, nDim)
      && |pos.dimensions| == |ext.dimensions| == (if nDim == 0 then 1 else nDim)
      && pos.dimensions[0] == SetDimension(Labels(stims)) == ext.dimensions[0]
      && var tag := r.tags[|blk.tags|];
      && tag.name == name && tag.typeName == STIM_TAG_TYPE
      && tag.positions == pos.name && tag.extents == ext.name
      && tag.references == RawDataRefs(r.arrays, blk.group.arrays).value
  {
    var nDim := DataRank(blk).value;
    var b2 := AddEventArrays(stims, blk, nchan, name, nDim).value;
    var r := AddStimTag(b2, name, blk.group.arrays).value;
    assert r.arrays == blk.arrays + EventArrays(stims, nchan, name, nDim, |blk.arrays|);
  }

  /** The group lists exactly the block's tags, by name, and no two tags
      share a name: what `import_nix` needs to find every tag through the
      group. */
  predicate Registered(b: Block) {
    b.group.tags == TagNames(b.tags) && Distinct(TagNames(b.tags))
  }

  /** Creating a stimulus tag keeps the block registered: the tag's name
      was new to the block and the group lists it last. */
  lemma {:induction false} StimulusTagRegistered(stims: seq<Stimulus>, blk: Block, nchan: nat, name: string)
    requires CreateStimulusMultiTag(stims, blk, nchan, name).Ok?
    requires Registered(blk)
    ensures Registered(CreateStimulusMultiTag(stims, blk, nchan, name).value)
  {
    var nDim := DataRank(blk).value;
    var b2 := AddEventArrays(stims, blk, nchan, name, nDim).value;
    var r := AddStimTag(b2, name, blk.group.arrays).value;
    assert b2.tags == blk.tags && b2.group == blk.group;
    assert name !in TagNames(blk.tags);
    assert TagNames(r.tags) == TagNames(blk.tags) + [name];
  }

  /** The tag name of a description in split mode: "/" becomes "|". */
  function SplitTagName(description: string): (name: string)
    ensures '/' !in name && |name| == |description|
    ensures '/' !in description ==> name == description
  {
    Text.ReplaceChar(description, '/', '|')
  }

  /** One tag per group, in group order. */
  function WriteGroups(groups: seq<StimGroup>, blk: Block, nchan: nat): (r: Result<Block>)
    ensures r.Ok? ==>
      && |r.value.arrays| == |blk.arrays| + 2 * |groups| && r.value.arrays[..|blk.arrays|] == blk.arrays
      && |r.value.tags| == |blk.tags| + |groups| && r.value.tags[..|blk.tags|] == blk.tags
      && r.value.group.arrays == blk.group.arrays && r.value.group.name == blk.group.name
      && r.value.name == blk.name && r.value.typeName == blk.typeName
  {
    if groups == [] then Ok(blk)
    else
      var b :- CreateStimulusMultiTag(groups[0].stims, blk, nchan, SplitTagName(groups[0].description));
      var r :- WriteGroups(groups[1..], b, nchan);
      PrefixOfPrefix(blk.arrays, b.arrays, r.arrays);
      PrefixOfPrefix(blk.tags, b.tags, r.tags);
      Ok(r)
  }

  lemma PrefixOfPrefix<T>(a: seq<T>, b: seq<T>, c: seq<T>)
    requires |a| <= |b| <= |c| && b[..|a|] == a && c[..|b|] == b
    ensures c[..|a|] == a
  {
    assert c[..|a|] == c[..|b|][..|a|];
  }

  /** Writing the groups' tags keeps the block registered. */
  lemma {:induction false} WriteGroupsRegistered(groups: seq<StimGroup>, blk: Block, nchan: nat)
    requires WriteGroups(groups, blk, nchan).Ok?
    requires Registered(blk)
    ensures Registered(WriteGroups(groups, blk, nchan).value)
    decreases |groups|
  {
    if groups != [] {
      var name := SplitTagName(groups[0].description);
      StimulusTagRegistered(groups[0].stims, blk, nchan, name);
      var b1 := CreateStimulusMultiTag(groups[0].stims, blk, nchan, name).value;
      WriteGroupsRegistered(groups[1..], b1, nchan);
    }
  }

  /** `write_stim_tags`: one tag per description in split mode, else one tag
      named "Stimuli" for all annotations. */
  function WriteStimTags(stims: seq<Stimulus>, blk: Block, nchan: nat, split: bool): (r: Result<Block>)
    ensures !split ==> r == CreateStimulusMultiTag(stims, blk, nchan, ALL_STIMULI_NAME)
    ensures split ==> r == WriteGroups(SeparateStimulusTypes(stims), blk, nchan)
  {
    if split then WriteGroups(SeparateStimulusTypes(stims), blk, nchan)
    else CreateStimulusMultiTag(stims, blk, nchan, ALL_STIMULI_NAME)
  }

  /** Two labels that differ only in "/" against "|" get the same tag name
      in split mode, so writing their groups fails on the second one. */
  lemma {:induction false} SplitNameClashFails(g1: StimGroup, g2: StimGroup, blk: Block, nchan: nat)
    requires SplitTagName(g1.description) == SplitTagName(g2.description)
    ensures WriteGroups([g1, g2], blk, nchan).Err?
  {
    var name := SplitTagName(g1.description);
    var first := CreateStimulusMultiTag(g1.stims, blk, nchan, name);
    if first.Ok? {
      var b := first.value;
      assert b.arrays[|blk.arrays|].name == PositionsName(name);
      assert PositionsName(name) in ArrayNames(b.arrays);
      TagNameTakenFails(g2.stims, b, nchan, name);
      assert [g1, g2][1..] == [g2] && [g2][1..] == [];
    }
  }

  /** A second stimulus tag of a name already used fails: its positions
      array's name is taken. */
  lemma TagNameTakenFails(stims: seq<Stimulus>, b: Block, nchan: nat, name: string)
    requires PositionsName(name) in ArrayNames(b.arrays)
    ensures CreateStimulusMultiTag(stims, b, nchan, name).Err?
  {
    if b.group.arrays != [] && FindArray(b.arrays, b.group.arrays[0]).Ok? {
      var nDim := |FindArray(b.arrays, b.group.arrays[0]).value.shape|;
      var posT := EventArray(Onsets(stims), 0.0, nDim);
      assert CreateDataArray(b, EventDataArray(PositionsName(name), POSITIONS_TYPE, posT, stims, nDim)).Err?;
    }
  }

  /** A concrete pair of such labels. */
  lemma SplitNamesCollide()
    ensures "a/b" != "a|b" && SplitTagName("a/b") == SplitTagName("a|b")
  {
    assert "a/b"[1] != "a|b"[1];
    assert SplitTagName("a/b") == "a|b";
  }
}

=== FILE: text.dfy ===
/** String helpers the converters rely on: decimal rendering of indices
    (the `f"{k}-{idx}"` section names), Python's clamping slice (the
    `prop.type[8:-2]` tag decoding) and single-character replacement (the
    `label.replace("/", "|")` of multi-tag names).
 */
module Text {

  function DigitChar(d: nat): (c: char)
    requires d < 10
    ensures '0' <= c <= '9'
  {
    (('0' as int) + d) as char
  }

  /** Python's `str(n)` for a natural number: its decimal digits, no sign. */
  function NatToString(n: nat): (s: string)
    ensures 1 <= |s|
    ensures n < 10 <==> |s| == 1
    decreases n
  {
    if n < 10 then [DigitChar(n)] else NatToString(n / 10) + [DigitChar(n % 10)]
  }

  /** Python's `str(i)` for any integer. */
  function IntToString(i: int): (s: string)
    ensures 1 <= |s|
  {
    if i < 0 then "-" + NatToString(-i) else NatToString(i)
  }

  /** Distinct numbers render to distinct strings. */
  lemma {:induction false} NatToStringInjective(a: nat, b: nat)
    requires NatToString(a) == NatToString(b)
    ensures a == b
    decreases a
  {
    var s := NatToString(a);
    if a < 10 && b < 10 {
      assert s[0] == DigitChar(a) && s[0] == DigitChar(b);
    } else if a < 10 || b < 10 {
      // one rendering has a single digit, the other at least two
      assert false;
    } else {
      var pa, pb := NatToString(a / 10), NatToString(b / 10);
      assert s == pa + [DigitChar(a % 10)];
      assert s == pb + [DigitChar(b % 10)];
      assert |pa| == |pb|;
      assert DigitChar(a % 10) == s[|s| - 1] == DigitChar(b % 10);
      assert pa == s[..|s| - 1] == pb;
      NatToStringInjective(a / 10, b / 10);
    }
  }

  /** The name `f"{k}-{idx}"` given to the idx-th element of a list. */
  function IndexedName(k: string, idx: nat): (name: string)
    ensures |k| + 2 <= |name|
    ensures name[..|k| + 1] == k + "-"
  {
    k + "-" + NatToString(idx)
  }

  /** Two elements of one list never receive the same name. */
  lemma IndexedNameInjective(k: string, i: nat, j: nat)
    requires IndexedName(k, i) == IndexedName(k, j)
    ensures i == j
  {
    var n := IndexedName(k, i);
    assert NatToString(i) == n[|k| + 1..] == NatToString(j);
    NatToStringInjective(i, j);
  }

  /** Python's normalisation of a slice bound against a length. */
  function ClampIndex(i: int, n: nat): (r: nat)
    ensures r <= n
    ensures 0 <= i <= n ==> r == i
    ensures i < 0 && 0 <= n + i ==> r as int == n + i
  {
    if i < 0 then (if n + i < 0 then 0 else n + i) else if i > n then n else i
  }

  /** Python's `s[start:stop]`, which never fails: out-of-range bounds are
      clamped and a crossed range is empty. */
  function PySlice<T>(s: seq<T>, start: int, stop: int): (r: seq<T>)
    ensures |r| <= |s|
    ensures ClampIndex(start, |s|) < ClampIndex(stop, |s|) ==>
              r == s[ClampIndex(start, |s|)..ClampIndex(stop, |s|)]
    ensures ClampIndex(stop, |s|) <= ClampIndex(start, |s|) ==> r == []
  {
    var a, b := ClampIndex(start, |s|), ClampIndex(stop, |s|);
    if a < b then s[a..b] else []
  }

  /** Python's `s.replace(from, to)` for single characters. */
  function ReplaceChar(s: string, from: char, to: char): (r: string)
    ensures |r| == |s|
    ensures from != to ==> from !in r
    ensures forall i | 0 <= i < |s| && s[i] != from :: r[i] == s[i]
    ensures forall i | 0 <= i < |s| && s[i] == from :: r[i] == to
  {
    seq(|s|, i requires 0 <= i < |s| => if s[i] == from then to else s[i])
  }
}
